=== FILE: README.md ===
# ofcloud scheduler, in Dafny

ofcloud runs OpenFOAM simulations on OSv virtual machines in a cloud. Each
simulation is split into one instance per case. A scheduler daemon drives
every instance through a fixed set of statuses. Four passes do this, each
started again whenever its previous run has ended:

- the prepare pass launches PENDING instances on the first provider that
  has room;
- the run pass starts the solver;
- the reconstruction pass runs `reconstructPar` after an MPI run;
- the shutdown pass tears finished VMs down.

Providers are OpenStack, with a quota ledger, and Amazon EC2, with a count
cap. Around this sit text transforms:

- the OpenFOAM case-file rewrite;
- decomposeParDict templating;
- the capstan solver tables;
- the OSv helpers for netmasks, permissions, the run command, console
  scanning, environment lines and file download.

This project models that core as pure functions over immutable records.

- The database is a `Models.Store`: a sequence of Instance rows and a map of
  Simulations. `Models.SaveInstance` writes a whole row, as Django's `save()`
  does.
- Every remote answer is a parameter: Nova, Neutron, EC2, the OSv REST API,
  the metrics collector, subprocesses and the host filesystem. An answer
  that can fail is a `Result`.
- A Python exception that leaves a function is an `Err` naming its class
  (`KeyError`, `IndexError`, `FieldError`, `IoError`, ...). A pass that
  ends early keeps the rows it had already written.

The modules follow the source files:

| module | source |
|---|---|
| `Common` | Python string and integer built-ins (`find`, `split`, `strip`, `int`, `os.path.join`), `Option`/`Result` |
| `Models` | `ofcloud/ofcloud/models.py` |
| `Capstan` | `ofcloud/ofcloud/capstan_utils.py` |
| `CaseUtils` | `ofcloud/ofcloud/case_utils.py` |
| `OpenstackUtils` | `ofcloud/ofcloud/openstack_utils.py` |
| `Provider` | `ofcloud/ofcloud/provider/provider.py` |
| `OpenstackProvider` | `ofcloud/ofcloud/provider/provider_openstack.py` |
| `AmazonProvider` | `ofcloud/ofcloud/provider/provider_amazon.py` |
| `Lifecycle` | `ofcloud/ofcloud/utils.py` |
| `ProviderLaunch` | `ofcloud/ofcloud/utils.py` with each provider's `prepare_instance` in place |
| `Scheduler` | `ofcloud/ofcloud/scheduler_daemon.py` |
| `OsvVm` | `ofcloud/osv/vm.py` |
| `OsvApi` | `ofcloud/osv/api.py` |

The scheduler's central invariant is `Scheduler.Advances(before, after,
selected)`. It says that a pass:

- keeps every row, with its id;
- leaves untouched every row whose status is not one the pass selects;
- moves a selected row only forward through PENDING → DEPLOYING → UP →
  DECOMPOSING → READY → RUNNING/RUNNING_MPI → RECONSTRUCTING →
  COMPLETE/FAILED.

Each of the four passes is proved to keep it. So COMPLETE and FAILED
instances are never touched again.

## Model

| member | source | states |
|---|---|---|
| Models.SimulationStatusNamed | ofcloud/ofcloud/models.py:40 | a name reads back as the Simulation status of that name, and as none when no status has it |
| Models.InstanceStatusNamed | ofcloud/ofcloud/models.py:84-94 | a name reads back as the Instance status of that name, and as none when no status has it |
| Models.SimulationStatusDomain | ofcloud/ofcloud/models.py:40 | the Simulation statuses are exactly PENDING, DEPLOYING, RUNNING, COMPLETE, FAILED; names are distinct and every status reads back from its name |
| Models.InstanceStatusDomain | ofcloud/ofcloud/models.py:84-94 | the Instance statuses are exactly the ten listed, with distinct names, and every status reads back from its name |
| Models.NewSimulation | ofcloud/ofcloud/models.py:42-56 | a new simulation is PENDING and keeps the given name, flavor, solver, cases and decomposition |
| Models.NewInstance | ofcloud/ofcloud/models.py:95-120 | a new instance is PENDING, with 0 retries, parallelisation 1, no thread id, empty server id, provider, ip and metrics task, so it is not multicore |
| Models.SaveInstance | ofcloud/ofcloud/models.py:59-116 | saving a row makes it the only row with its id; every other row stays where it was; the table grows only for a new id |
| Models.SaveLastWins | ofcloud/ofcloud/models.py:59-116 | saving twice under one id leaves what the second save wrote |
| Models.SaveAt | ofcloud/ofcloud/models.py:59-116 | saving over the only row with the id replaces that row in place |
| Models.WithStatus | ofcloud/ofcloud/models.py:107 | a status query returns, in table order, exactly the rows with that status |
| Models.OwnedWithStatus | ofcloud/ofcloud/models.py:101-107 | a status-and-provider query returns, in table order, exactly the rows with both |
| Capstan.SolverDeps | ofcloud/ofcloud/capstan_utils.py:51-53 | a known solver's dependencies are `<solver>-2.4.0` followed by the common ones; an unknown solver raises KeyError |
| Capstan.TableRows | ofcloud/ofcloud/capstan_utils.py:61-83 | the solver table has a row for exactly the seven OpenFOAM solvers |
| Capstan.TablePinsVersion | ofcloud/ofcloud/capstan_utils.py:68-83 | each solver's only dependency is the solver at version 2.4.0 |
| Capstan.SolverSo | ofcloud/ofcloud/capstan_utils.py:56-58 | a known solver maps to a non-empty shared-object name; an unknown one raises KeyError |
| Capstan.LookupsAgree | ofcloud/ofcloud/capstan_utils.py:51-91 | both lookups succeed on the same solvers (the simpleFoam clauses are a worked example of the two tables) |
| Capstan.Basename | ofcloud/ofcloud/capstan_utils.py:38 | the base name is the slash-free tail of the path, preceded by a `/` unless it is the whole path |
| Capstan.ImageName | ofcloud/ofcloud/capstan_utils.py:38 | the image name is `temp/` followed by the base name of the package folder |
| Capstan.RequireArgs | ofcloud/ofcloud/capstan_utils.py:29-31 | each dependency contributes `--require <dep>`, in order |
| Capstan.InitCommand | ofcloud/ofcloud/capstan_utils.py:21-34 | the init command exists only for known solvers; it starts `capstan package init`, requires the solver's package first and ends with the package folder |
| Provider.SplitRunningAndOrphaned | ofcloud/ofcloud/provider/provider.py:71-80 | a failed listing propagates; otherwise an instance is running iff its server id is live, orphaned iff not, and the two lists interleave to the input |
| Provider.PartitionInterleaves | ofcloud/ofcloud/provider/provider.py:75-79 | running and orphaned lists merge back, in order, into the input |
| Provider.PartitionMembers | ofcloud/ofcloud/provider/provider.py:75-79 | membership in each list is decided by the server id alone |
| Provider.PartitionComplete | ofcloud/ofcloud/provider/provider.py:71-80 | each instance lands in exactly one list: the sizes add up, the multisets add up, and each list is an ordered subsequence |
| Provider.ApplyProvision | ofcloud/ofcloud/provider/provider_openstack.py:75-100 | a provisioned server sets server id and address, and UP only where the provider marks it; a failed one keeps what was not reached; no other field changes |
| Provider.ThreadIdRoundTrip | ofcloud/ofcloud/provider/provider.py:119 | a thread id sent back as a quoted integer parses to that integer |
| Provider.StartSnapCollector | ofcloud/ofcloud/provider/provider.py:155-163 | a failed collector request is swallowed and changes nothing; only an unrelated error raises; a new task id comes only from the reply |
| Provider.PrepareInstanceEnv | ofcloud/ofcloud/provider/provider.py:82-127 | setup succeeds iff the requests go through and, when multicore, the decompose reply parses; a multicore instance becomes DECOMPOSING with that thread id, a single-core one READY; the simulation becomes RUNNING; cores and status agree |
| Provider.SnapFailureTolerated | ofcloud/ofcloud/provider/provider.py:155-163 | a failed collector request leads to the same outcome and instance as a started collector, apart from the task id |
| Provider.SolverCommand | ofcloud/ofcloud/provider/provider.py:134-140 | a multicore command is `mpirun -n <parallelisation> --allow-run-as-root` followed by `/usr/bin/<solver> -parallel -case /case`; a single-core one is exactly `/usr/bin/<solver> -case /case` |
| Provider.RunSimulation | ofcloud/ofcloud/provider/provider.py:129-145 | the run succeeds iff the solver is known and the reply parses; it becomes RUNNING_MPI iff multicore and RUNNING iff not, records the thread id and changes nothing else |
| Provider.RunReconstruction | ofcloud/ofcloud/provider/provider.py:147-153 | the reconstruction succeeds iff the reply parses; it becomes RECONSTRUCTING with the new thread id and changes nothing else |
| Provider.ReconstructionKeepsCoresAgreement | ofcloud/ofcloud/provider/provider.py:147-153 | reconstructing an MPI run keeps the documented status/cores agreement |
| OpenstackUtils.BuildFlavorDict | ofcloud/ofcloud/openstack_utils.py:95-109 | the keys are exactly the listed flavor ids; each maps to a flavor with that id, and to the last such flavor in the list |
| OpenstackUtils.FlavorDictStep | ofcloud/ofcloud/openstack_utils.py:106-107 | one loop step keeps the key set, the id agreement and last-one-wins |
| OpenstackUtils.ServerFlavors | ofcloud/ofcloud/openstack_utils.py:71-72 | the flavor ids of the servers, one per server, in order |
| OpenstackUtils.DeductServers | ofcloud/ofcloud/openstack_utils.py:71-76 | each server takes its flavor's vcpus and ram and one instance; an unknown flavor raises |
| OpenstackUtils.DeductDeploying | ofcloud/ofcloud/openstack_utils.py:80-90 | each deploying instance takes its flavor's vcpus and ram, one instance and one floating IP; an unknown flavor raises |
| OpenstackUtils.AvailableResources | ofcloud/ofcloud/openstack_utils.py:51-92 | remaining cores, ram, instances and floating IPs are the quota minus the servers, the used IPs and the deploying reservations, unclamped; other quota fields are unchanged |
| OpenstackUtils.TotalsAppend | ofcloud/ofcloud/openstack_utils.py:71-90 | the totals of a list with one more id grow by that flavor's vcpus and ram |
| OpenstackUtils.TotalsConcat | ofcloud/ofcloud/openstack_utils.py:71-90 | the totals of two lists joined are the sums of their totals |
| OpenstackUtils.MoreUsageNeverFreesCapacity | ofcloud/ofcloud/openstack_utils.py:71-92 | one more server and one more deploying instance never increase any counter: cores and ram do not grow, instances drop by 2, floating IPs by 1 |
| OpenstackProvider.UsedFloatingIps | ofcloud/ofcloud/provider/provider_openstack.py:124-125 | the used floating IPs are exactly those with a fixed address |
| OpenstackProvider.OwnDeployingMembers | ofcloud/ofcloud/provider/provider_openstack.py:127-128 | the reserved instances are exactly the DEPLOYING ones recorded against this provider |
| OpenstackProvider.DeployingFlavors | ofcloud/ofcloud/provider/provider_openstack.py:127-129 | each reserved instance contributes its simulation's flavor, in order; a missing simulation raises |
| OpenstackProvider.Ceiling | ofcloud/ofcloud/provider/provider_openstack.py:136-137 | the cores and instances ceilings are the minimum of the configured cap and the quota; other fields are the quota's |
| OpenstackProvider.IsRunnable | ofcloud/ofcloud/provider/provider_openstack.py:107-160 | a failed listing is passed on; the check answers iff the candidate's simulation and flavor, every reserved simulation and every flavor in use are known; then admission holds iff servers, reservations and the candidate together fit the ceilings in cores, ram, instances and floating IPs |
| OpenstackProvider.OnlyOwnDeployingReserved | ofcloud/ofcloud/provider/provider_openstack.py:127-128 | changing a row that is not this provider's DEPLOYING row, into another such row, never changes the admission answer |
| OpenstackProvider.OwnDeployingIgnoresOthers | ofcloud/ofcloud/provider/provider_openstack.py:127-128 | the reservation query ignores rows of other statuses and other providers |
| OpenstackProvider.ReservationGrowsByCandidate | ofcloud/ofcloud/utils.py:74-76 | saving the admitted instance DEPLOYING against the provider, over its PENDING row, adds exactly its flavor to the reservations, as a multiset |
| OpenstackProvider.ReservedAroundCandidate | ofcloud/ofcloud/utils.py:74-76 | the reservations after that save are those before it with the candidate's flavor inserted where its row stands |
| OpenstackProvider.OwnDeployingAroundRow | ofcloud/ofcloud/provider/provider_openstack.py:127-128 | replacing a row that is not reserved by one that is adds that row to the reserved ones, in place |
| OpenstackProvider.OwnDeployingThree | ofcloud/ofcloud/provider/provider_openstack.py:127-128 | a row in the middle of the table is reserved iff it is this provider's DEPLOYING row, in its place |
| OpenstackProvider.OwnDeployingConcat | ofcloud/ofcloud/provider/provider_openstack.py:127-128 | the reservation query over two parts of the table is the two queries joined |
| OpenstackProvider.DeployingFlavorsConcat | ofcloud/ofcloud/provider/provider_openstack.py:127-129 | the flavors of two runs of reservations are the two lists joined, and the lookup fails iff one of them fails |
| OpenstackProvider.FlavorsAround | ofcloud/ofcloud/provider/provider_openstack.py:127-129 | one more reservation between two runs puts its flavor between their flavors |
| OpenstackProvider.OwnDeployingAppend | ofcloud/ofcloud/provider/provider_openstack.py:127-128 | a new row is reserved iff it is this provider's DEPLOYING row |
| OpenstackProvider.DeployingFlavorsAppend | ofcloud/ofcloud/openstack_utils.py:80-83 | a new reservation contributes its simulation's flavor at the end |
| OpenstackProvider.AdmissionStaysWithinCeiling | ofcloud/ofcloud/provider/provider_openstack.py:146-160 | once an admitted instance is saved DEPLOYING over its PENDING row, the recomputed ledger has no negative counter |
| OpenstackProvider.TotalsAround | ofcloud/ofcloud/openstack_utils.py:80-83 | one more known flavor adds its vcpus and ram to the totals and keeps every flavor known |
| OpenstackProvider.UniqueServerName | ofcloud/ofcloud/provider/provider_openstack.py:56-57 | the server name is the instance name, a dash, and the instance id |
| OpenstackProvider.PickUniqueServer | ofcloud/ofcloud/provider/provider_openstack.py:70-73 | provisioning continues iff exactly one server has the name, and uses that server |
| OpenstackProvider.FirstFree | ofcloud/ofcloud/provider/provider_openstack.py:216-218 | the first floating IP without an instance, or none when all are taken |
| OpenstackProvider.ChooseFloatingIp | ofcloud/ofcloud/provider/provider_openstack.py:214-221 | the first free floating IP is chosen; the created one only when none is free |
| OpenstackProvider.CreatesOnlyWhenAllTaken | ofcloud/ofcloud/provider/provider_openstack.py:214-221 | whenever some floating IP is free, a free listed one is used |
| OpenstackProvider.PrepareInstance | ofcloud/ofcloud/provider/provider_openstack.py:37-105 | provisioning succeeds iff the server boots, is unique by name, becomes active, and gets a floating IP attached; it is then UP with that server and address; a server is reported acquired only once its id was read |
| OpenstackProvider.ShutdownInstances | ofcloud/ofcloud/provider/provider_openstack.py:167-183 | a delete is attempted for every instance in order; exactly the non-failing ones are deleted |
| OpenstackProvider.ShutdownIsPerInstance | ofcloud/ofcloud/provider/provider_openstack.py:176-183 | a failure on one instance does not affect the others: shutting down a list deletes what its parts would |
| OpenstackProvider.InstanceCpus | ofcloud/ofcloud/provider/provider_openstack.py:185-198 | the flavor's vcpus, or 1 when the lookup raises |
| AmazonProvider.CountByStatus | ofcloud/ofcloud/provider/provider_amazon.py:58-65 | a count filtered on a column the table lacks raises FieldError; on the provider column it counts that provider's rows |
| AmazonProvider.AdmissionAsWrittenAlwaysRaises | ofcloud/ofcloud/provider/provider_amazon.py:52-70 | the check filtering on `strategy` raises FieldError on every table (the `aws`/cap 10/empty table clause is one instance of it) |
| AmazonProvider.Active | ofcloud/ofcloud/provider/provider_amazon.py:58-68 | this provider's DEPLOYING, UP and RUNNING rows, exactly |
| AmazonProvider.CountsAddUp | ofcloud/ofcloud/provider/provider_amazon.py:67-68 | the three per-status counts add up to the number of active rows |
| AmazonProvider.IsRunnable | ofcloud/ofcloud/provider/provider_amazon.py:58-70 | admission holds iff fewer than the cap of this provider's instances are DEPLOYING, UP or RUNNING |
| AmazonProvider.AdmissionStaysWithinCap | ofcloud/ofcloud/provider/provider_amazon.py:58-70 | saving an admitted instance DEPLOYING over its PENDING row adds exactly one active row, and the active count stays within the cap |
| AmazonProvider.ActiveAroundRow | ofcloud/ofcloud/provider/provider_amazon.py:58-68 | turning a PENDING row into this provider's DEPLOYING row adds one active row |
| AmazonProvider.ActiveOne | ofcloud/ofcloud/provider/provider_amazon.py:58-68 | a single row is active iff it is this provider's DEPLOYING, UP or RUNNING row |
| AmazonProvider.ActiveThree | ofcloud/ofcloud/provider/provider_amazon.py:58-68 | the active rows of a table split around any row |
| AmazonProvider.ActiveConcat | ofcloud/ofcloud/provider/provider_amazon.py:58-68 | the active rows of two parts of the table are the two parts' active rows joined |
| AmazonProvider.TaggedLiveIds | ofcloud/ofcloud/provider/provider_amazon.py:76-83 | the ids of pending (code 0) or running (code 16) instances whose given tag is `simpleFoam` |
| AmazonProvider.AsWrittenMissesOwnLaunches | ofcloud/ofcloud/provider/provider_amazon.py:76-79 | filtering on tag `type` finds none of the instances tagged `Type` at launch (line 42) |
| AmazonProvider.RunningServerIds | ofcloud/ofcloud/provider/provider_amazon.py:72-85 | every pending or running instance tagged at launch is live, and only pending or running instances are |
| AmazonProvider.TerminateIds | ofcloud/ofcloud/provider/provider_amazon.py:95 | every id to terminate is live and is the id of one of the instances; every live instance id is included |
| AmazonProvider.TerminateIdsInOrder | ofcloud/ofcloud/provider/provider_amazon.py:95 | the comprehension keeps the instances' ids in their order: the terminated ids are a subsequence of the instances' ids |
| AmazonProvider.ShutdownInstances | ofcloud/ofcloud/provider/provider_amazon.py:87-101 | given the live ids the listing returned, a failed listing raises; no terminate call is made iff no instance is live; otherwise only live ids of the given instances are terminated, and all of them |
| AmazonProvider.ShutdownTerminatesInOrder | ofcloud/ofcloud/provider/provider_amazon.py:94-97 | a terminate call names the instances' live ids in their input order |
| AmazonProvider.ShutdownAsWrittenNeverTerminates | ofcloud/ofcloud/provider/provider_amazon.py:94-97 | with the listing filtered on tag `type`, a shutdown of instances carrying the launch tags makes no terminate call |
| AmazonProvider.ShutdownTerminatesLaunched | ofcloud/ofcloud/provider/provider_amazon.py:94-97 | with the listing filtered on the launch tag `Type`, a launched instance that is pending or running is terminated |
| AmazonProvider.PrepareInstance | ofcloud/ofcloud/provider/provider_amazon.py:34-50 | provisioning succeeds iff the launch and tagging succeed, sets the server id and address, and does not mark UP |
| AmazonProvider.GetInstanceCpus | ofcloud/ofcloud/provider/provider_amazon.py:103-110 | always 1 |
| CaseUtils.MatchAt | ofcloud/ofcloud/case_utils.py:157 | a match of the first line's pattern ends at a newline or at the end of the text |
| CaseUtils.AssignmentMatches | ofcloud/ofcloud/case_utils.py:157 | a line already rewritten to `<var> <value>;` is matched again, as a whole line |
| CaseUtils.NoMatchKept | ofcloud/ofcloud/case_utils.py:157 | whether the first line matches depends only on that line |
| CaseUtils.RewriteTwice | ofcloud/ofcloud/case_utils.py:157 | rewriting a variable twice equals rewriting it once with the second value |
| CaseUtils.AbsentNameNoMatch | ofcloud/ofcloud/case_utils.py:157 | text that does not contain the variable name has no match |
| CaseUtils.AbsentNameKeepsText | ofcloud/ofcloud/case_utils.py:157 | a variable not named in the text leaves the text unchanged |
| CaseUtils.AssignmentIsLine | ofcloud/ofcloud/case_utils.py:157 | the replacement `<var> <value>;` is itself a line the pattern matches |
| CaseUtils.RewriteIdempotent | ofcloud/ofcloud/case_utils.py:156-157 | applying the same update twice equals applying it once |
| CaseUtils.LaterValueWins | ofcloud/ofcloud/case_utils.py:156-157 | of two updates to one variable, the later value is what remains |
| CaseUtils.BareNameTakesNextLine | ofcloud/ofcloud/case_utils.py:157 | a name alone on its line swallows the following line, because the whitespace run crosses the newline |
| CaseUtils.AssignmentReplaced | ofcloud/ofcloud/case_utils.py:157 | a line of blanks and tabs, the name, spaces without a newline and any text not starting with a space becomes exactly `<var> <value>;`, and the rest is rewritten on its own |
| CaseUtils.IndentedAssignmentMatches | ofcloud/ofcloud/case_utils.py:157 | the match runs from the line start, indent included, to the line end |
| CaseUtils.SplitUpdateKey | ofcloud/ofcloud/case_utils.py:137-140 | a key with `/` splits at its last `/` into file and slash-free variable; a key without one yields the key without its last character and the whole key |
| CaseUtils.UpdateKeyRoundTrip | ofcloud/ofcloud/case_utils.py:137-140 | a file path joined with a slash-free variable splits back into both |
| CaseUtils.AddUpdate | ofcloud/ofcloud/case_utils.py:142-145 | an update joins its file's group, or opens a new group at the end; files stay distinct and other groups are unchanged |
| CaseUtils.AddUpdateFiles | ofcloud/ofcloud/case_utils.py:142-143 | after an update the grouped files are the earlier ones plus the update's file |
| CaseUtils.UntouchedHasNoVars | ofcloud/ofcloud/case_utils.py:137-145 | a file no key names collects no variables |
| CaseUtils.GroupVarsStep | ofcloud/ofcloud/case_utils.py:137-145 | after each key, every group holds exactly its file's variables so far |
| CaseUtils.GroupByFile | ofcloud/ofcloud/case_utils.py:134-145 | one group per named file, holding that file's variables in key order |
| CaseUtils.ApplyGroups | ofcloud/ofcloud/case_utils.py:149-163 | the rewrite succeeds iff every grouped file exists, keeping the set of files; otherwise it is an IOError |
| CaseUtils.ApplyGroupsFrame | ofcloud/ofcloud/case_utils.py:149-163 | files no group names keep their content |
| CaseUtils.ApplyGroupsContent | ofcloud/ofcloud/case_utils.py:149-163 | each grouped file ends as its content with all its variables rewritten |
| CaseUtils.FileSet | ofcloud/ofcloud/case_utils.py:159 | the result keys are exactly the grouped files |
| CaseUtils.UpdateCaseFiles | ofcloud/ofcloud/case_utils.py:133-165 | succeeds iff every named file exists under the case path; returns each named file mapped to `case_path/file`, and no other |
| CaseUtils.PresenceAgrees | ofcloud/ofcloud/case_utils.py:142-152 | every group's file exists iff every key's file exists |
| CaseUtils.UpdateLeavesOtherFiles | ofcloud/ofcloud/case_utils.py:149-163 | case files no key names are unchanged |
| CaseUtils.UpdateRewritesEachFile | ofcloud/ofcloud/case_utils.py:149-163 | the file each key names exists and is rewritten with exactly the variables of its own keys, in input order |
| CaseUtils.AbsentNamesKeepText | ofcloud/ofcloud/case_utils.py:156-157 | variables the text never names leave the file unchanged |
| CaseUtils.TableShape | ofcloud/ofcloud/case_utils.py:36-57 | the four methods have templates, each mapping `{number_of_subdomains}` to `subdomains` first; only scotch has optional entries |
| CaseUtils.FillLine | ofcloud/ofcloud/case_utils.py:97-103 | filling a line succeeds iff every field is present with a usable value, else KeyError or TypeError |
| CaseUtils.FillTemplate | ofcloud/ofcloud/case_utils.py:96-104 | a template keeps its number of lines, each line filled on its own, and fails only when a field is missing and there is a line |
| CaseUtils.DecomposeParDict | ofcloud/ofcloud/case_utils.py:86-104 | the dictionary is rewritten only for more than one core, needs a decomposition, and has the chosen template's length; with a decomposition it is written iff it names a method, the case ships a dictionary, the method's template exists and its placeholders' fields fit (or the template is empty); each written line is that template line through the method's placeholders |
| CaseUtils.LastOptionalUncomments | ofcloud/ofcloud/case_utils.py:102-103 | a non-empty optional value removes every `//` from the line |
| CaseUtils.ScotchStrategyUncommentsEveryLine | ofcloud/ofcloud/case_utils.py:96-104 | with a non-empty scotch strategy, no line of the written dictionary keeps a `//`, not only the placeholder's line |
| CaseUtils.ScotchLines | ofcloud/ofcloud/case_utils.py:96-104 | a non-empty last optional value removes `//` from every template line |
| CaseUtils.TablesBraced | ofcloud/ofcloud/case_utils.py:36-57 | every table's keywords are of the form `{name}` and distinct |
| CaseUtils.OpenBraceNeeded | ofcloud/ofcloud/case_utils.py:101 | text without `{` holds no keyword |
| CaseUtils.OtherKeywordAbsent | ofcloud/ofcloud/case_utils.py:101 | on a line holding one keyword and no other `{`, a different keyword does not occur |
| CaseUtils.ReplaceOnce | ofcloud/ofcloud/case_utils.py:101 | replacing the only occurrence of a keyword swaps it for the value and keeps the text around it |
| CaseUtils.ReplaceSkips | ofcloud/ofcloud/case_utils.py:101 | a first character that cannot start the keyword is copied |
| CaseUtils.PlaceholderFilled | ofcloud/ofcloud/case_utils.py:96-103 | a line `pre{keyword}post` comes out as `pre`, the field's text, `post`, when no optional field is set and no other `{` is present |
| CaseUtils.DictLineFilled | ofcloud/ofcloud/case_utils.py:86-104 | in the written decomposeParDict, such a template line carries the decomposition field's text in the placeholder's place |
| CaseUtils.PlainLineKept | ofcloud/ofcloud/case_utils.py:97-103 | a line without placeholders, and with no optional value set, is written unchanged |
| CaseUtils.WithCaseLocations | ofcloud/ofcloud/case_utils.py:113-126 | the local location is `<mount>/<id>/case`, the NFS one `<folder>/<id>/case`; nothing else changes |
| CaseUtils.SameCaseBelowBothRoots | ofcloud/ofcloud/case_utils.py:113-126 | both locations name the same `/<id>/case` below their roots |
| Lifecycle.EffectiveCases | ofcloud/ofcloud/utils.py:39-40 | a given case list is used as is |
| Lifecycle.CreateSimulation | ofcloud/ofcloud/utils.py:36-61 | one PENDING single-core instance per case, named `<simulation>-<case>` and configured with the case's updates |
| Lifecycle.BlankCasesRunOnce | ofcloud/ofcloud/utils.py:39-40 | a blank cases field becomes one case named after the simulation, with no updates |
| Lifecycle.EmptyCaseListRunsNothing | ofcloud/ofcloud/utils.py:39-61 | the text `[]` is not blank, so it yields no instances |
| Lifecycle.InstanceNamesKeepCaseNames | ofcloud/ofcloud/utils.py:58 | an instance name ends with its case name, so distinct cases give distinct names |
| Lifecycle.UpdateInstanceStatus | ofcloud/ofcloud/utils.py:141-149 | every listed row gets the status, every other row is untouched, and only the status changes |
| Lifecycle.UpdateLaterStatusWins | ofcloud/ofcloud/utils.py:141-149 | two updates of the same rows leave the second status |
| Lifecycle.UpdateSelectsListed | ofcloud/ofcloud/utils.py:149 | a row has the new status iff it was listed or already had it |
| Lifecycle.Matching | ofcloud/ofcloud/utils.py:246 | the threads with the recorded id, the first of them first; empty iff none has it |
| Lifecycle.IsThreadFinished | ofcloud/ofcloud/utils.py:238-251 | an unreadable listing raises; otherwise finished iff no thread has the id or the first one that does is terminated |
| Lifecycle.VanishedThreadIsFinished | ofcloud/ofcloud/utils.py:248-249 | a thread no longer listed, or never recorded, counts as finished |
| Lifecycle.FinishedInstances | ofcloud/ofcloud/utils.py:152-170 | an ordered subsequence holding exactly the instances whose check says finished; those whose check raises are left out |
| Lifecycle.RetryOrFail | ofcloud/ofcloud/utils.py:184-198 | the retry count grows by one; the instance goes back to PENDING below the limit and to FAILED at it |
| Lifecycle.RetriesRunOut | ofcloud/ofcloud/utils.py:184-198 | after n failures the count is n, and the instance is FAILED iff n reached the limit |
| Lifecycle.AllFailed | ofcloud/ofcloud/utils.py:200-207 | true iff every instance of the simulation is FAILED |
| Lifecycle.HandleLaunchException | ofcloud/ofcloud/utils.py:183-214 | raises iff a server was acquired and its shutdown raised; otherwise saves the retried instance and fails the simulation iff the limit is reached and all its instances are FAILED |
| Lifecycle.CascadeIffAllFailed | ofcloud/ofcloud/utils.py:200-214 | the simulation becomes FAILED iff this failure hits the limit and every other instance of it already failed |
| Lifecycle.Launch | ofcloud/ofcloud/utils.py:78-113 | a launch goes through only when the case, copy, package, provisioning and case update all succeeded; the instance is then READY or DECOMPOSING by core count and the simulation RUNNING; a failure reports the record as last saved |
| Lifecycle.LaunchGoesThrough | ofcloud/ofcloud/utils.py:78-113 | when every step succeeds, the launch goes through |
| Lifecycle.LaunchOn | ofcloud/ofcloud/utils.py:67-119 | the admitted launch always decides the instance; it raises KeyError iff its simulation is missing |
| ProviderLaunch.OpenstackLaunch | ofcloud/ofcloud/utils.py:78-113 | with OpenStack's `prepare_instance` as the provision step: a launched instance holds the one server of its name and the chosen floating IP; a failed launch saves the row UP iff the provider got through, and once the server is booted and found by name its id is in the instance for the handler |
| ProviderLaunch.AmazonLaunch | ofcloud/ofcloud/utils.py:78-113 | with EC2's `prepare_instance`: a launched instance holds the id and address `run_instances` gave, once tagged; a failed launch never saves the row UP, and a failure before tagging leaves no server id in the instance |
| ProviderLaunch.AmazonTagFailureNoShutdown | ofcloud/ofcloud/utils.py:183-198 | when EC2 launches the server but tagging raises, the handler attempts no shutdown and runs to its end whatever a shutdown would answer, and the saved row holds no server id |
| Lifecycle.LaunchedInstance | ofcloud/ofcloud/utils.py:74-113 | a launched instance is recorded against the admitting provider, keeps its retry count, and is READY iff single-core |
| Lifecycle.LaunchedRecords | ofcloud/ofcloud/utils.py:70-113 | after a launch the instance row is the launched instance and the simulation is RUNNING |
| Lifecycle.HandledRecords | ofcloud/ofcloud/utils.py:183-214 | after a handled failure (the handler called at line 117) the instance has one more retry, is PENDING or FAILED by the limit, other rows and simulations are untouched |
| Lifecycle.ShutdownRaiseStrandsInstance | ofcloud/ofcloud/utils.py:188-189 | when the handler's shutdown raises, the instance stays stored DEPLOYING or UP |
| Lifecycle.FirstDecisive | ofcloud/ofcloud/utils.py:66-67 | the first provider whose check does not say no |
| Lifecycle.PrepareSimulationInstance | ofcloud/ofcloud/utils.py:64-125 | nothing is admitted iff every provider says no |
| Lifecycle.FirstAdmittingProviderDecides | ofcloud/ofcloud/utils.py:64-125 | the first provider whose check does not say no decides: its error aborts, its yes launches; later providers are not tried |
| Lifecycle.FirstDecisiveAt | ofcloud/ofcloud/utils.py:66-67 | a provider that says yes after only noes is the deciding one |
| Lifecycle.LaterProvidersIgnored | ofcloud/ofcloud/utils.py:119 | providers after the deciding one have no effect |
| Scheduler.AdvancesReflexive | ofcloud/ofcloud/scheduler_daemon.py:71-178 | a pass that writes nothing keeps the invariant |
| Scheduler.AdvancesCompose | ofcloud/ofcloud/scheduler_daemon.py:71-178 | passes run one after another keep the invariant for the union of their selections |
| Scheduler.AdvancesKeepsUniqueIds | ofcloud/ofcloud/scheduler_daemon.py:71-178 | a pass keeps instance ids unique |
| Scheduler.SnapshotRow | ofcloud/ofcloud/scheduler_daemon.py:71-178 | a row read mid-pass sits at its original place, and has moved only forward from a selected status |
| Scheduler.SaveStep | ofcloud/ofcloud/scheduler_daemon.py:71-178 | saving a forward move of a selected row keeps the invariant |
| Scheduler.UpdateStep | ofcloud/ofcloud/scheduler_daemon.py:71-178 | a bulk status update of selected rows moving forward keeps the invariant |
| Scheduler.ShutdownTargets | ofcloud/ofcloud/scheduler_daemon.py:87-99 | the shut-down instances are exactly this provider's RUNNING or RECONSTRUCTING ones with a live server and a finished thread |
| Scheduler.ShutdownOrphans | ofcloud/ofcloud/scheduler_daemon.py:87-93 | the orphans are exactly this provider's RUNNING or RECONSTRUCTING ones whose server is gone |
| Scheduler.ShutdownOne | ofcloud/ofcloud/scheduler_daemon.py:83-106 | one provider's step never touches simulations and ends normally iff the listing and the shutdown do |
| Scheduler.ShutdownPass | ofcloud/ofcloud/scheduler_daemon.py:71-106 | the pass never touches simulations |
| Scheduler.ShutdownSelection | ofcloud/ofcloud/scheduler_daemon.py:87-106 | the rows the shutdown step marks were RUNNING or RECONSTRUCTING and may become COMPLETE |
| Scheduler.ShutdownOneAdvances | ofcloud/ofcloud/scheduler_daemon.py:83-106 | one provider's step keeps the invariant, selecting RUNNING and RECONSTRUCTING |
| Scheduler.ShutdownPassAdvances | ofcloud/ofcloud/scheduler_daemon.py:71-106 | the pass keeps the invariant and leaves COMPLETE and FAILED rows untouched |
| Scheduler.ShutdownOneMarks | ofcloud/ofcloud/scheduler_daemon.py:87-106 | one of this provider's RUNNING or RECONSTRUCTING rows becomes COMPLETE iff its server is gone or its thread is finished |
| Scheduler.ListedRow | ofcloud/ofcloud/utils.py:149 | with unique ids, a row is updated iff it is itself in the list |
| Scheduler.ReconstructEach | ofcloud/ofcloud/scheduler_daemon.py:131-132 | dispatching reconstructions never touches simulations |
| Scheduler.ReconstructOne | ofcloud/ofcloud/scheduler_daemon.py:120-132 | a failed listing ends the pass with nothing written |
| Scheduler.ReconstructionPass | ofcloud/ofcloud/scheduler_daemon.py:109-132 | the pass never touches simulations |
| Scheduler.ReconstructEachAdvances | ofcloud/ofcloud/scheduler_daemon.py:131-132 | reconstructing RUNNING_MPI rows keeps the invariant |
| Scheduler.ReconstructOneAdvances | ofcloud/ofcloud/scheduler_daemon.py:124-132 | one provider's step keeps the invariant, selecting RUNNING_MPI |
| Scheduler.ReconstructionPassAdvances | ofcloud/ofcloud/scheduler_daemon.py:109-132 | the pass keeps the invariant and leaves COMPLETE and FAILED rows untouched |
| Scheduler.DispatchEach | ofcloud/ofcloud/scheduler_daemon.py:175-178 | each READY instance goes to the provider with its id; a missing provider raises IndexError and a missing simulation KeyError |
| Scheduler.RunPass | ofcloud/ofcloud/scheduler_daemon.py:153-178 | the pass never touches simulations |
| Scheduler.FinishedDecompositionRunsNow | ofcloud/ofcloud/scheduler_daemon.py:164-171 | a DECOMPOSING instance with a finished thread is READY by the time READY rows are read, so it runs in the same pass |
| Scheduler.DispatchEachAdvances | ofcloud/ofcloud/scheduler_daemon.py:175-178 | dispatching READY rows keeps the invariant |
| Scheduler.RunPassAdvances | ofcloud/ofcloud/scheduler_daemon.py:153-178 | the pass keeps the invariant, selecting DECOMPOSING and READY, and leaves COMPLETE and FAILED rows untouched |
| Scheduler.Attempts | ofcloud/ofcloud/utils.py:66-67 | the providers are tried in configured order |
| Scheduler.NothingAdmittedNothingChanges | ofcloud/ofcloud/utils.py:123-125 | when no provider admits anything, the prepare pass writes nothing and PENDING rows stay PENDING |
| Scheduler.LaunchOnAdvances | ofcloud/ofcloud/utils.py:64-119 | a launch on a PENDING row keeps the invariant |
| Scheduler.PrepareEachAdvances | ofcloud/ofcloud/scheduler_daemon.py:149-150 | preparing PENDING rows one by one keeps the invariant |
| Scheduler.PreparePassAdvances | ofcloud/ofcloud/scheduler_daemon.py:135-150 | the pass keeps the invariant, selecting PENDING, and leaves COMPLETE and FAILED rows untouched |
| Scheduler.AtMostOneRunPerPass | ofcloud/ofcloud/scheduler_daemon.py:52-66 | when only the latest run of a pass can be alive, at most one is |
| Scheduler.NoneAlive | ofcloud/ofcloud/scheduler_daemon.py:52-66 | when no run is alive, none is counted |
| Scheduler.Tick | ofcloud/ofcloud/scheduler_daemon.py:51-66 | after a tick every pass has a live latest run; a new one is started iff the previous one was missing or dead |
| Scheduler.Finish | ofcloud/ofcloud/scheduler_daemon.py:51-66 | a run ending leaves the table's shape and marks that run dead |
| Scheduler.TickKeepsOneRun | ofcloud/ofcloud/scheduler_daemon.py:51-66 | a tick keeps at most one live run per pass |
| Scheduler.FinishKeepsOneRun | ofcloud/ofcloud/scheduler_daemon.py:51-66 | a run ending keeps at most one live run per pass |
| OsvVm.MaskOctet | ofcloud/osv/vm.py:42-43 | every octet is in 0..255 |
| OsvVm.MaskOctets | ofcloud/osv/vm.py:42-43 | four octets, each the reference value for its position |
| OsvVm.OctetAt | ofcloud/osv/vm.py:42-43 | reading 8 bits of the mask string in binary gives that octet |
| OsvVm.MaskBitsAt | ofcloud/osv/vm.py:41 | bit p of the mask is 1 iff p is below the clamped prefix length |
| OsvVm.CidrToIpMask | ofcloud/osv/vm.py:37-45 | a result splits the input at its only `/` into an unchanged address and a mask of that many leading ones |
| OsvVm.CidrOfParts | ofcloud/osv/vm.py:37-45 | an address and a numeric prefix joined by `/` split back into the address and that prefix's mask |
| OsvVm.SlashTwentyFour | ofcloud/osv/vm.py:36-45 | `/24` gives mask `255.255.255.0` |
| OsvVm.PermDigits | ofcloud/osv/vm.py:496-497 | each digit gives three characters |
| OsvVm.PermNumToStr | ofcloud/osv/vm.py:490-498 | `0` gives nine dashes; otherwise three characters per digit |
| OsvVm.TriplesReadBack | ofcloud/osv/vm.py:491 | each rwx triple reads back as its digit |
| OsvVm.PermRoundTrip | ofcloud/osv/vm.py:490-498 | permissions succeed iff every digit is octal, and the rwx text reads back as the digits |
| OsvVm.PermExamples | ofcloud/osv/vm.py:486-498 | `664` gives `rw-rw-r--`, `0` nine dashes, `00` six, and `8` an IndexError |
| OsvVm.SelectNetMode | ofcloud/osv/vm.py:114-119 | static iff an address is given, else DHCP iff networking, else none |
| OsvVm.SelectMac | ofcloud/osv/vm.py:121-127 | `rand` gives a `52:54:00:` address of 17 characters; anything else is kept |
| OsvVm.BaseArgs | ofcloud/osv/vm.py:149-159 | the arguments start with `./scripts/run.py` |
| OsvVm.StaticCommandLine | ofcloud/osv/vm.py:172-190 | the static command line starts `--ip=eth0,<ip>,<mask>` and ends with the application command |
| OsvVm.BuildRunCommand | ofcloud/osv/vm.py:147-199 | building fails only on a static address that does not parse; `-e <full command>` ends the arguments, and the full command is the recorded command line |
| OsvVm.RunCommandWithoutStaticAddress | ofcloud/osv/vm.py:161-196 | without a static address the full command is the application alone; none mode adds no network arguments, DHCP adds `--mac` when set, then `-n -v` |
| OsvVm.SelectedModeBuilds | ofcloud/osv/vm.py:114-199 | with the mode `VMParam` selects, the command is built iff no address is given or it is CIDR text; no address gives the DHCP arguments iff networking, and a static address leads the VM's command line |
| OsvVm.AnnouncedIp | ofcloud/osv/vm.py:368-374 | an address is read only from an `eth0: ` line that is not the ethernet-address line, as the word after the prefix |
| OsvVm.ReadStd | ofcloud/osv/vm.py:348-376 | returns what was read, or nothing without a log; a seen prompt and a known address are never lost |
| OsvVm.ScanLinesMonotone | ofcloud/osv/vm.py:353-375 | scanning never clears the prompt flag or replaces a known address |
| OsvVm.PromptSeen | ofcloud/osv/vm.py:361-363 | the prompt is up iff it was or some line starts or ends with `/# ` |
| OsvVm.AddressOnlyWhenAnnounced | ofcloud/osv/vm.py:364-375 | an address is learnt iff some line announces one |
| OsvVm.FirstAddressWins | ofcloud/osv/vm.py:364-375 | the first announced address is kept |
| OsvApi.EnvVarSplit | ofcloud/osv/api.py:122-126 | with `=`: the key is the text before the first `=` and the value the text after it; without: the value is the whole line and the key drops its last character |
| OsvApi.SplitAtFirstEquals | ofcloud/osv/api.py:122-126 | a line with `=` is rebuilt from its key, `=` and its value |
| OsvApi.EnvKeyHasNoEquals | ofcloud/osv/api.py:122-126 | no key holds `=` |
| OsvApi.EnvVarRoundTrip | ofcloud/osv/api.py:122-126 | a key without `=` joined to any value splits back into both |
| OsvApi.EnvDict | ofcloud/osv/api.py:135-142 | the keys are exactly the keys of the lines |
| OsvApi.EnvKeysAt | ofcloud/osv/api.py:135-142 | the key list holds each line's key at that line's position |
| OsvApi.LastLineWins | ofcloud/osv/api.py:139-141 | a key maps to the value of its last line |
| OsvApi.EnvGet | ofcloud/osv/api.py:151-155 | the value has no surrounding double quote |
| OsvApi.QuotedValueReadBack | ofcloud/osv/api.py:151-155 | a quoted value without its own outer quotes reads back unchanged |
| OsvApi.FileGet | ofcloud/osv/api.py:278-292 | the source is fetched as a file iff its listing is exactly `[]`, returning the content; any other listing is a directory download returning nothing |
| OsvApi.EntryActions | ofcloud/osv/api.py:252-272 | a FILE entry is fetched to the same name under the destination; a directory is descended unless it is `.`, `..` or root `dev`/`proc`; other kinds do nothing |
| OsvApi.EntriesActions | ofcloud/osv/api.py:252-272 | the listing is fetched and descended entry by entry |
| OsvApi.GetDir | ofcloud/osv/api.py:248-250 | a missing destination is created first |
| OsvApi.DownloadsExactlyTheListing | ofcloud/osv/api.py:243-272 | a directory is descended, or a file fetched, iff the listing has that entry |
| OsvApi.DirectoryGetFollowsListing | ofcloud/osv/api.py:243-292 | `File.get` on a directory returns nothing iff the second listing and the nested download succeed, else raises; it fetches and descends into exactly what that listing names |
| OsvApi.BaseName | ofcloud/osv/api.py:308 | the last slash-free part of the source with trailing separators stripped |
| OsvApi.DownloadDirectory | ofcloud/osv/api.py:294-312 | the destination is a directory iff several sources or a trailing separator; an existing regular file there exits; each source goes to `dest/<basename>`, or to `dest` itself |
| OsvApi.DistinctNamesDistinctTargets | ofcloud/osv/api.py:308-310 | sources with different base names land on different targets |

## Left out

- I/O and remote calls are not modelled. This covers Nova, Glance, Neutron, boto and EC2 calls; S3, tar and `shutil` work; `requests` calls to the OSv and metrics APIs; and the capstan `Popen` subprocesses. Each appears only as a success or failure answer, or as the data it returns.
- Sleep-based waiting in `osv/vm.py` is not modelled: `wait_up`, `wait_ip` and `wait_cmd_prompt`. These are timing loops whose bounds are float arithmetic.
- OpenstackProvider.PrepareInstance: the wait for ACTIVE (provider_openstack.py lines 78-86) has no bound. A server that goes to ERROR and never becomes ACTIVE hangs the prepare pass forever. The instance stays DEPLOYING, the pass thread stays alive, and `Scheduler.Tick` never restarts the pass. The model has no non-terminating outcome: `active == false` stands only for a `servers.get` call that raises, which the launch handler then retries.
- AmazonProvider.PrepareInstance: `__wait_for` (provider_amazon.py lines 112-115) loops while the instance's state differs from the wanted one, with no bound. An instance that never reaches `running` hangs the prepare pass in the same way. A `launched` Err stands only for a `run_instances`, wait or `update()` call that raises.
- The daemon's process plumbing is not modelled: pidfile, signals, `DaemonContext`, dynamic provider loading and real threads. `Scheduler.Tick` and `Scheduler.Finish` keep only the rule that a pass is restarted when its last run is not alive. The passes are modelled as running one after another, not concurrently.
- Scheduler passes: each provider's server listing is taken once per provider per pass. The source lists once per status query, and a server that stops between the two listings is not modelled.
- Scheduler passes: a pass that raises stops. The rows it already wrote stay, and the next tick starts it again.
- The Django ORM is reduced to a sequence of rows and a map of simulations. `Meta.ordering` by name is not enforced: rows are read in table order.
- JSON encoding of `cases`, `config` and `decomposition` is left out. Their decoded values are the model's inputs. `Models.Str` stands for `str()` of a decoded value.
- Lifecycle.Launch: an OpenStack provision that fails after saving the instance UP is reported with the record saved before provisioning. The intermediate UP save is not modelled.
- Lifecycle.ShutdownRaiseStrandsInstance: this states what the code does. An exception from `shutdown_instances` inside the handler leaves the instance stored DEPLOYING or UP, and no later pass selects it.
- OpenstackProvider.IsRunnable: admission is a function of the rows as they stand. In `Scheduler` it is a parameter of the prepare pass, so one provider's answer can depend on rows written earlier in the same pass.
- CaseUtils: `re.sub` with `\s+` may cross line ends. `CaseUtils.BareNameTakesNextLine` shows this. A variable name with regular-expression metacharacters is outside the model (`PlainName`).
- CaseUtils.RewriteVar: `re.sub` reads backslash escapes such as `\1` or `\n` in the replacement text. The model writes the value's text literally, so a value holding a backslash is not modelled as the source rewrites it.
- CaseUtils.Placeholders: Python 2 runs `iteritems()` over the replacement table in hash order, not in the order written. The model uses the written order. `CaseUtils.ScotchStrategyUncommentsEveryLine` relies on `strategy` being the last entry. With another order, a value replaced after the `//` removal could bring a `//` back.
- Models.JsonValue: decoded JSON values are text or integers. Floats, booleans, null, lists and objects are outside the model, and so is the `str()` text Python gives them.
- Models.Str: `json.loads` gives Python 2 `unicode` text. `str(target)` at case_utils.py line 101 raises UnicodeEncodeError on non-ASCII text. At case_utils.py line 157, `'%s %s;' % (var, value)` mixes unicode into the byte-string file data. The model has no character encoding and returns the text unchanged. So for non-ASCII values, `CaseUtils.FillLine`, `CaseUtils.DecomposeParDict` and `CaseUtils.RewriteVar` succeed where the source raises or produces mixed text.
- OpenstackProvider.ShutdownInstances: `get_nova_client()` runs outside the `try` (provider_openstack.py line 174), so a failure to build the client raises. The model takes the client as given and models only the per-server failures.
- OpenstackProvider.InstanceCpus: `get_nova_client()` also runs outside the `try` here (line 192), so a client failure raises rather than giving 1. The model covers only the lookup failure inside the `try`.
- CaseUtils.UpdateCaseFiles: a failed write after some files were already rewritten is reported as an IOError without modelling which files were written. Python 2 dict iteration order is taken as key order. Because `CaseUtils.LaterValueWins` holds, the last value of a repeated variable wins either way.
- OsvVm.SelectMac: the three random bytes are a parameter.
- OsvVm.PermDigits: it states the length, and the contents through `OsvVm.PermRoundTrip`. It does not name which error class each bad digit raises, beyond `OsvVm.PermExamples`.
- OsvVm: libvirt, Jinja templates, `imgedit`, the random VM name and the console log file are not modelled. `ReadStd` takes the text read as a parameter.
- OsvApi.GetDir: the recursion into subdirectories is returned as `Recurse` actions rather than followed. Host filesystem answers are parameters. Symlinks are not handled, as in the source.
- `destroy_simulation`, `mount_instance_case_folder`, the Glance image upload, and network/router setup (`ofcloud/ofcloud/network_utils.py`) are remote calls only. They are left out.
- `ofcloud/osv/settings.py` is not part of this model. Only its `OSV_CLI_APP` value `/cli/cli.so` is used.

## Findings

| source | as written | input that shows it | evidently intended | confidence | as-written member | corrected member |
|---|---|---|---|---|---|---|
| ofcloud/ofcloud/provider/provider_amazon.py:58-65 | the three counts filter Instance rows on `strategy=self.id`, a field Instance does not have, so Django raises FieldError | any call, e.g. provider `aws` with cap 10 and an empty table | filter on `provider=self.id`, as the OpenStack provider does | high; not executed | AmazonProvider.AdmissionAsWrittenAlwaysRaises | AmazonProvider.AdmissionStaysWithinCap |
| ofcloud/ofcloud/provider/provider_amazon.py:76-79 | running ids are filtered on tag key `type`, but `prepare_instance` (line 42) tags `Type`; EC2 tag keys are case-sensitive | a running instance tagged `{"Name": "simpleFoam", "Type": "simpleFoam"}` at launch | filter on the key the launch writes, so launched instances count as live | medium; not executed | AmazonProvider.AsWrittenMissesOwnLaunches | AmazonProvider.RunningServerIds |
| ofcloud/ofcloud/provider/provider_amazon.py:94-97 | `shutdown_instances` keeps only the ids `get_running_server_ids` reports, and that listing filters on tag `type` | a shutdown of an instance launched with the tags `{"Name": "simpleFoam", "Type": "simpleFoam"}` that EC2 reports running | terminate every launched instance that is still live | medium; not executed | AmazonProvider.ShutdownAsWrittenNeverTerminates | AmazonProvider.ShutdownTerminatesLaunched |

=== FILE: amazon_provider.dfy ===
/** The Amazon EC2 provider: a count-based admission check, the set of
    live server ids found by tag and state, shutdown by that set, and the
    fixed core count.  EC2 and the database are read once per call; their
    answers are parameters. */
module AmazonProvider {
  import opened Common
  import opened Models
  import Provider

  const AmiId: string := "ami-114ef271"
  const InstanceType: string := "t2.small"
  const InstanceCpus: int := 1

  /** The provider's settings: its name and its instance cap. */
  datatype Config = Config(id: string, maxInstanceUsage: int)

  // ---------------------------------------------------------------------
  // is_simulation_instance_runnable

  /** The column an ORM filter names next to `status`: the provider column,
      or a name the Instance table does not have. */
  datatype Column = ProviderColumn | NoSuchColumn(name: string)

  /** The column the admission check filters on, as written. */
  const StrategyColumn: Column := NoSuchColumn("strategy")

  /** How many stored instances have the given status and provider. */
  function CountOwned(db: seq<Instance>, status: InstanceStatus, providerId: string): (n: nat)
    ensures n <= |db|
    decreases |db|
  {
    if |db| == 0 then 0
    else (if db[0].status == status && db[0].provider == providerId then 1 else 0)
         + CountOwned(db[1..], status, providerId)
  }

  /** `len(Instance.objects.filter(status=..., <column>=...))`: a filter on a
      column the table does not have raises FieldError. */
  function CountByStatus(db: seq<Instance>, status: InstanceStatus, column: Column, value: string): (r: Result<nat>)
    ensures column.NoSuchColumn? <==> r == Err(FieldError)
    ensures column.ProviderColumn? ==> r == Ok(CountOwned(db, status, value))
  {
    match column
    case ProviderColumn => Ok(CountOwned(db, status, value))
    case NoSuchColumn(_) => Err(FieldError)
  }

  /** The admission check with the filter column as a parameter: DEPLOYING,
      UP and RUNNING instances counted against the cap. */
  function CountAdmission(cfg: Config, db: seq<Instance>, column: Column): Result<bool>
  {
    var deploying :- CountByStatus(db, Deploying, column, cfg.id);
    var up :- CountByStatus(db, Up, column, cfg.id);
    var running :- CountByStatus(db, Running, column, cfg.id);
    Ok(deploying + up + running < cfg.maxInstanceUsage)
  }

  /** `is_simulation_instance_runnable` as written: it filters on `strategy`. */
  function IsRunnableAsWritten(cfg: Config, db: seq<Instance>): Result<bool>
  {
    CountAdmission(cfg, db, StrategyColumn)
  }

  /** As written, the check raises on every call, whatever is stored, so it
      never admits anything and aborts the pass that asked.  The second
      clause is the instance of the first named in the finding. */
  lemma AdmissionAsWrittenAlwaysRaises(cfg: Config, db: seq<Instance>)
    ensures IsRunnableAsWritten(cfg, db) == Err(FieldError)
    ensures IsRunnableAsWritten(Config("aws", 10), []).Err?
  {
  }

  /** Reference definition: this provider's instances that occupy a slot,
      in one pass over the store. */
  function Active(db: seq<Instance>, providerId: string): (r: seq<Instance>)
    ensures forall x :: x in r <==> x in db && x.provider == providerId
                                    && (x.status == Deploying || x.status == Up || x.status == Running)
    decreases |db|
  {
    if |db| == 0 then []
    else
      var rest := Active(db[1..], providerId);
      assert forall x :: x in db <==> x == db[0] || x in db[1..];
      var x := db[0];
      if x.provider == providerId && (x.status == Deploying || x.status == Up || x.status == Running)
      then [x] + rest else rest
  }

  /** The three per-status counts add up to the slot-occupying instances. */
  lemma {:induction false} CountsAddUp(db: seq<Instance>, providerId: string)
    ensures CountOwned(db, Deploying, providerId) + CountOwned(db, Up, providerId)
            + CountOwned(db, Running, providerId) == |Active(db, providerId)|
    decreases |db|
  {
    if |db| > 0 {
      CountsAddUp(db[1..], providerId);
    }
  }

  /** `is_simulation_instance_runnable` with the filter on the provider column:
      admitted iff this provider's DEPLOYING, UP and RUNNING instances are
      fewer than the cap. */
  function IsRunnable(cfg: Config, db: seq<Instance>): (r: bool)
    ensures r <==> |Active(db, cfg.id)| < cfg.maxInstanceUsage
  {
    var counted := CountAdmission(cfg, db, ProviderColumn);
    CountsAddUp(db, cfg.id);
    counted.Ok? && counted.value
  }

  /** The corrected check never oversubscribes: once an admitted candidate
      is saved DEPLOYING here over its PENDING row (or as a new row), it
      takes exactly one more slot and the occupied slots are at most the cap. */
  lemma AdmissionStaysWithinCap(cfg: Config, db: seq<Instance>, c: Instance)
    requires IsRunnable(cfg, db)
    requires PendingIfStored(db, c.id)
    ensures var after := SaveInstance(db, c.(status := Deploying, provider := cfg.id));
            && |Active(after, cfg.id)| == |Active(db, cfg.id)| + 1
            && |Active(after, cfg.id)| <= cfg.maxInstanceUsage
  {
    var admitted := c.(status := Deploying, provider := cfg.id);
    ActiveOne(admitted, cfg.id);
    if HasRow(db, c.id) {
      var k :| 0 <= k < |db| && db[k].id == c.id;
      SaveAt(db, admitted, k);
      ActiveAroundRow(db, k, admitted, cfg.id);
    } else {
      assert SaveInstance(db, admitted) == db + [admitted];
      ActiveConcat(db, [admitted], cfg.id);
    }
  }

  /** Replacing a PENDING row by one of this provider's DEPLOYING rows adds
      one slot-occupying instance. */
  lemma ActiveAroundRow(db: seq<Instance>, k: nat, x: Instance, providerId: string)
    requires k < |db| && db[k].status == Pending
    requires x.status == Deploying && x.provider == providerId
    ensures |Active(db[..k] + [x] + db[k + 1..], providerId)| == |Active(db, providerId)| + 1
  {
    var pre, post := db[..k], db[k + 1..];
    assert db == pre + [db[k]] + post;
    ActiveOne(db[k], providerId);
    ActiveOne(x, providerId);
    ActiveThree(pre, db[k], post, providerId);
    ActiveThree(pre, x, post, providerId);
  }

  lemma ActiveOne(y: Instance, providerId: string)
    ensures Active([y], providerId)
            == if y.provider == providerId && (y.status == Deploying || y.status == Up || y.status == Running)
               then [y] else []
  {
    assert [y][1..] == [];
  }

  lemma ActiveThree(pre: seq<Instance>, y: Instance, post: seq<Instance>, providerId: string)
    ensures Active(pre + [y] + post, providerId) == Active(pre, providerId) + Active([y], providerId) + Active(post, providerId)
  {
    ActiveConcat(pre + [y], post, providerId);
    ActiveConcat(pre, [y], providerId);
  }

  lemma {:induction false} ActiveConcat(a: seq<Instance>, b: seq<Instance>, providerId: string)
    ensures Active(a + b, providerId) == Active(a, providerId) + Active(b, providerId)
    decreases |a|
  {
    if |a| > 0 {
      assert (a + b)[0] == a[0] && (a + b)[1..] == a[1..] + b;
      ActiveConcat(a[1..], b, providerId);
    } else {
      assert a + b == b;
    }
  }

  // ---------------------------------------------------------------------
  // get_running_server_ids

  /** An EC2 instance as the listing reports it. */
  datatype Ec2Instance = Ec2Instance(id: string, tags: map<string, string>, stateCode: int)

  /** EC2 state codes: 0 is pending, 16 is running. */
  const Ec2PendingCode: int := 0
  const Ec2RunningCode: int := 16

  /** The tags `prepare_instance` puts on every instance it launches. */
  const LaunchTags: map<string, string> := map["Name" := "simpleFoam", "Type" := "simpleFoam"]

  /** The ids of the pending or running instances whose tag `key` is
      `simpleFoam`.  EC2 matches tag keys case-sensitively. */
  function TaggedLiveIds(all: seq<Ec2Instance>, key: string): (ids: set<string>)
    ensures forall id :: id in ids <==>
              exists k :: 0 <= k < |all| && all[k].id == id && key in all[k].tags
                          && all[k].tags[key] == "simpleFoam"
                          && (all[k].stateCode == Ec2PendingCode || all[k].stateCode == Ec2RunningCode)
  {
    set k | 0 <= k < |all| && key in all[k].tags && all[k].tags[key] == "simpleFoam"
                           && (all[k].stateCode == Ec2PendingCode || all[k].stateCode == Ec2RunningCode) :: all[k].id
  }

  /** `get_running_server_ids` as written: it filters on tag key `type`. */
  function RunningServerIdsAsWritten(listing: Result<seq<Ec2Instance>>): Result<set<string>>
  {
    var all :- listing;
    Ok(TaggedLiveIds(all, "type"))
  }

  /** As written, an instance carrying exactly the launch tags is never
      reported live, however it runs. */
  lemma AsWrittenMissesOwnLaunches(all: seq<Ec2Instance>, k: int)
    requires 0 <= k < |all|
    requires forall j :: 0 <= j < |all| ==> all[j].tags == LaunchTags
    ensures all[k].id !in RunningServerIdsAsWritten(Ok(all)).value
    ensures RunningServerIdsAsWritten(Ok(all)) == Ok({})
  {
    assert "type" != "Type" by { assert "type"[0] != "Type"[0]; }
    assert "type" != "Name" by { assert "type"[0] != "Name"[0]; }
    assert "type" !in LaunchTags;
    assert forall j :: 0 <= j < |all| ==> "type" !in all[j].tags;
    assert TaggedLiveIds(all, "type") == {};
  }

  /** `get_running_server_ids` with the tag key the launch writes. */
  function RunningServerIds(listing: Result<seq<Ec2Instance>>): (r: Result<set<string>>)
    ensures r.Ok? <==> listing.Ok?
    ensures r.Ok? ==> forall k :: 0 <= k < |listing.value| && listing.value[k].tags == LaunchTags
                                  && (listing.value[k].stateCode == Ec2PendingCode || listing.value[k].stateCode == Ec2RunningCode)
                                  ==> listing.value[k].id in r.value
    ensures r.Ok? ==> forall id :: id in r.value ==>
              exists k :: 0 <= k < |listing.value| && listing.value[k].id == id
                          && (listing.value[k].stateCode == Ec2PendingCode || listing.value[k].stateCode == Ec2RunningCode)
  {
    var all :- listing;
    Ok(TaggedLiveIds(all, "Type"))
  }

  // ---------------------------------------------------------------------
  // shutdown_instances

  /** The instances' ids, in input order. */
  function InstanceIds(xs: seq<Instance>): seq<string>
  {
    seq(|xs|, k requires 0 <= k < |xs| => xs[k].instanceId)
  }

  /** The ids the shutdown passes to `terminate_instances`, in input order. */
  function TerminateIds(xs: seq<Instance>, live: set<string>): (ids: seq<string>)
    ensures forall k :: 0 <= k < |ids| ==> ids[k] in live
    ensures forall k :: 0 <= k < |ids| ==> ids[k] in InstanceIds(xs)
    ensures forall x :: x in xs && x.instanceId in live ==> x.instanceId in ids
    ensures |ids| <= |xs|
    ensures |ids| == 0 <==> forall x :: x in xs ==> x.instanceId !in live
    decreases |xs|
  {
    if |xs| == 0 then []
    else
      var rest := TerminateIds(xs[1..], live);
      assert forall x :: x in xs <==> x == xs[0] || x in xs[1..];
      var ids := if xs[0].instanceId in live then [xs[0].instanceId] + rest else rest;
      IdsOfTail(xs);
      ids
  }

  /** The head's id and every id of the tail are ids of the instances. */
  lemma IdsOfTail(xs: seq<Instance>)
    requires |xs| > 0
    ensures xs[0].instanceId in InstanceIds(xs)
    ensures forall y :: y in InstanceIds(xs[1..]) ==> y in InstanceIds(xs)
  {
    assert InstanceIds(xs) == [xs[0].instanceId] + InstanceIds(xs[1..]);
  }

  /** The ids handed to `terminate_instances` are the instances' ids kept
      in their order: the list comprehension filters, it never reorders. */
  lemma {:induction false} TerminateIdsInOrder(xs: seq<Instance>, live: set<string>)
    ensures IsSubsequence(TerminateIds(xs, live), InstanceIds(xs))
    decreases |xs|
  {
    if |xs| > 0 {
      var rest := TerminateIds(xs[1..], live);
      TerminateIdsInOrder(xs[1..], live);
      assert InstanceIds(xs)[1..] == InstanceIds(xs[1..]);
      if xs[0].instanceId in live {
        var ids := TerminateIds(xs, live);
        assert ids[0] == InstanceIds(xs)[0] && ids[1..] == rest;
      } else {
        SubsequenceDrop(rest, InstanceIds(xs));
      }
    }
  }

  /** The effect of one shutdown: no call at all, or one terminate call. */
  datatype Termination = NoCall | TerminateCall(ids: seq<string>)

  /** `shutdown_instances`, given what `get_running_server_ids` returned
      (`live`): only servers reported live are terminated, and no call is
      made when there are none.  A failing terminate is swallowed; a failing
      listing is not, since it happens outside the try. */
  function ShutdownInstances(xs: seq<Instance>, live: Result<set<string>>): (r: Result<Termination>)
    ensures live.Err? ==> r == Err(live.error)
    ensures r.Ok? <==> live.Ok?
    ensures r.Ok? ==> (r.value.NoCall? <==> forall x :: x in xs ==> x.instanceId !in live.value)
    ensures r.Ok? && r.value.TerminateCall? ==>
              && |r.value.ids| > 0
              && (forall k :: 0 <= k < |r.value.ids| ==> r.value.ids[k] in live.value)
              && (forall k :: 0 <= k < |r.value.ids| ==> r.value.ids[k] in InstanceIds(xs))
              && (forall x :: x in xs && x.instanceId in live.value ==> x.instanceId in r.value.ids)
  {
    var running :- live;
    var ids := TerminateIds(xs, running);
    if |ids| == 0 then Ok(NoCall) else Ok(TerminateCall(ids))
  }

  /** A terminate call names the instances' live ids in their input order. */
  lemma ShutdownTerminatesInOrder(xs: seq<Instance>, live: set<string>)
    ensures var r := ShutdownInstances(xs, Ok(live));
            r.value.TerminateCall? ==> IsSubsequence(r.value.ids, InstanceIds(xs))
  {
    TerminateIdsInOrder(xs, live);
  }

  /** As written, the listing filters on tag `type`, so a shutdown of
      instances the provider launched itself never calls terminate: they
      keep running. */
  lemma ShutdownAsWrittenNeverTerminates(xs: seq<Instance>, all: seq<Ec2Instance>)
    requires forall j :: 0 <= j < |all| ==> all[j].tags == LaunchTags
    ensures ShutdownInstances(xs, RunningServerIdsAsWritten(Ok(all))) == Ok(NoCall)
  {
    if |all| > 0 {
      AsWrittenMissesOwnLaunches(all, 0);
    } else {
      assert TaggedLiveIds(all, "type") == {};
    }
  }

  /** With the tag key the launch writes, an instance the provider launched
      and EC2 reports pending or running is terminated. */
  lemma ShutdownTerminatesLaunched(xs: seq<Instance>, all: seq<Ec2Instance>, i: int, k: int)
    requires 0 <= i < |xs| && 0 <= k < |all|
    requires all[k].tags == LaunchTags && all[k].id == xs[i].instanceId
    requires all[k].stateCode == Ec2PendingCode || all[k].stateCode == Ec2RunningCode
    ensures var r := ShutdownInstances(xs, RunningServerIds(Ok(all)));
            r.Ok? && r.value.TerminateCall? && xs[i].instanceId in r.value.ids
  {
    assert xs[i] in xs;
    assert xs[i].instanceId in RunningServerIds(Ok(all)).value;
  }

  // ---------------------------------------------------------------------
  // prepare_instance and get_instance_cpus

  /** The replies `prepare_instance` gets: the launched instance's id and
      address once it runs (or the failure of `run_instances` or of the
      wait), and whether tagging it succeeded. */
  datatype LaunchReplies = LaunchReplies(launched: Result<(string, string)>, tagged: bool)

  /** `prepare_instance` for Amazon: the id and address are recorded only at
      the very end, and the instance is not marked UP. */
  function PrepareInstance(replies: LaunchReplies): (p: Provider.Provision)
    ensures p.Provisioned? <==> replies.launched.Ok? && replies.tagged
    ensures p.Provisioned? ==> p.serverId == replies.launched.value.0 && p.ip == replies.launched.value.1
    ensures p.Provisioned? ==> !p.markedUp
    ensures p.ProvisionFailed? ==> p.acquired.None?
  {
    match replies.launched
    case Err(_) => Provider.ProvisionFailed(None)
    case Ok((id, ip)) => if replies.tagged then Provider.Provisioned(id, ip, false) else Provider.ProvisionFailed(None)
  }

  /** `get_instance_cpus`: every Amazon instance is single-core. */
  function GetInstanceCpus(sim: Simulation): (cpus: int)
    ensures cpus == 1
  {
    InstanceCpus
  }
}

=== FILE: capstan.dfy ===
/** The solver tables used to build an OSv image with capstan, and the
    argument lists of the two capstan invocations. */
module Capstan {
  import opened Common

  /** The seven supported solvers, in table order. */
  const Solvers: seq<string> := [
    "openfoam.pimplefoam", "openfoam.pisofoam", "openfoam.poroussimplefoam",
    "openfoam.potentialfoam", "openfoam.rhoporoussimplefoam", "openfoam.rhosimplefoam",
    "openfoam.simplefoam"]

  /** Packages every image needs besides the solver itself. */
  const CommonDeps: seq<string> := ["osv.cli", "osv.nfs", "ompi-1.10"]

  /** The solver table: each solver's own dependencies and its shared object. */
  function SolverConfig(solver: string): Option<(seq<string>, string)>
  {
    if solver == "openfoam.pimplefoam" then Some((["openfoam.pimplefoam-2.4.0"], "pimpleFoam.so"))
    else if solver == "openfoam.pisofoam" then Some((["openfoam.pisofoam-2.4.0"], "pisoFoam.so"))
    else if solver == "openfoam.poroussimplefoam" then Some((["openfoam.poroussimplefoam-2.4.0"], "poroussimpleFoam.so"))
    else if solver == "openfoam.potentialfoam" then Some((["openfoam.potentialfoam-2.4.0"], "potentialFoam.so"))
    else if solver == "openfoam.rhoporoussimplefoam" then Some((["openfoam.rhoporoussimplefoam-2.4.0"], "rhoporoussimpleFoam.so"))
    else if solver == "openfoam.rhosimplefoam" then Some((["openfoam.rhosimplefoam-2.4.0"], "rhosimpleFoam.so"))
    else if solver == "openfoam.simplefoam" then Some((["openfoam.simplefoam-2.4.0"], "simpleFoam.so"))
    else None
  }

  /** `get_solver_deps`: the solver's own package, pinned to 2.4.0, then the
      common packages; an unknown solver raises KeyError. */
  function SolverDeps(solver: string): (r: Result<seq<string>>)
    ensures r.Ok? <==> solver in Solvers
    ensures r.Ok? ==> r.value == [solver + "-2.4.0"] + CommonDeps
    ensures r.Err? ==> r.error == KeyError
  {
    TableRows(solver);
    TablePinsVersion(solver);
    match SolverConfig(solver)
    case None => Err(KeyError)
    case Some((deps, _)) => Ok(deps + CommonDeps)
  }

  /** The table has a row for exactly the listed solvers. */
  lemma TableRows(solver: string)
    ensures SolverConfig(solver).Some? <==> solver in Solvers
  {
  }

  /** Every table row names its own solver package at version 2.4.0. */
  lemma TablePinsVersion(solver: string)
    ensures SolverConfig(solver).Some? ==> SolverConfig(solver).value.0 == [solver + "-2.4.0"]
  {
    if solver == "openfoam.pimplefoam" {
      assert solver + "-2.4.0" == "openfoam.pimplefoam-2.4.0";
    } else if solver == "openfoam.pisofoam" {
      assert solver + "-2.4.0" == "openfoam.pisofoam-2.4.0";
    } else if solver == "openfoam.poroussimplefoam" {
      assert solver + "-2.4.0" == "openfoam.poroussimplefoam-2.4.0";
    } else if solver == "openfoam.potentialfoam" {
      assert solver + "-2.4.0" == "openfoam.potentialfoam-2.4.0";
    } else if solver == "openfoam.rhoporoussimplefoam" {
      assert solver + "-2.4.0" == "openfoam.rhoporoussimplefoam-2.4.0";
    } else if solver == "openfoam.rhosimplefoam" {
      assert solver + "-2.4.0" == "openfoam.rhosimplefoam-2.4.0";
    } else if solver == "openfoam.simplefoam" {
      assert solver + "-2.4.0" == "openfoam.simplefoam-2.4.0";
    }
  }

  /** `get_solver_so`: the solver's shared object; an unknown solver raises KeyError. */
  function SolverSo(solver: string): (r: Result<string>)
    ensures r.Ok? <==> solver in Solvers
    ensures r.Ok? ==> |r.value| > 0
    ensures r.Err? ==> r.error == KeyError
  {
    TableRows(solver);
    match SolverConfig(solver)
    case None => Err(KeyError)
    case Some((_, so)) => Ok(so)
  }

  /** Both lookups fail on exactly the same solver names; the simpleFoam and
      pimpleFoam clauses are worked examples of the two tables. */
  lemma LookupsAgree(solver: string)
    ensures SolverDeps(solver).Ok? <==> SolverSo(solver).Ok?
    ensures solver == "openfoam.simplefoam" ==> SolverSo(solver) == Ok("simpleFoam.so")
    ensures solver == "openfoam.pimplefoam" ==> SolverSo(solver) == Ok("pimpleFoam.so")
    ensures solver == "openfoam.simplefoam" ==>
              SolverDeps(solver) == Ok(["openfoam.simplefoam-2.4.0", "osv.cli", "osv.nfs", "ompi-1.10"])
  {
    if solver == "openfoam.simplefoam" {
      var d := SolverDeps(solver).value;
      assert d == [solver + "-2.4.0"] + CommonDeps;
      assert solver + "-2.4.0" == "openfoam.simplefoam-2.4.0";
      assert d == ["openfoam.simplefoam-2.4.0"] + ["osv.cli", "osv.nfs", "ompi-1.10"];
      assert d == ["openfoam.simplefoam-2.4.0", "osv.cli", "osv.nfs", "ompi-1.10"];
    }
  }

  /** `os.path.basename`: the text after the last separator. */
  function Basename(path: string): (b: string)
    ensures |b| <= |path| && b == path[|path| - |b|..]
    ensures forall j :: 0 <= j < |b| ==> b[j] != '/'
    ensures |b| < |path| ==> path[|path| - |b| - 1] == '/'
  {
    path[RFind(path, '/') + 1..]
  }

  /** The image name capstan composes: `temp/<basename of the package folder>`. */
  function ImageName(packageFolder: string): (name: string)
    ensures |name| >= 5 && name[..5] == "temp/"
    ensures name[5..] == Basename(packageFolder)
  {
    "temp/" + Basename(packageFolder)
  }

  /** One `--require <package>` pair per dependency, in order. */
  function RequireArgs(deps: seq<string>): (args: seq<string>)
    ensures |args| == 2 * |deps|
    ensures forall k :: 0 <= k < |deps| ==> args[2 * k] == "--require" && args[2 * k + 1] == deps[k]
  {
    if |deps| == 0 then []
    else
      var rest := RequireArgs(deps[1..]);
      var args := ["--require", deps[0]] + rest;
      RequireArgsShift(deps, rest);
      args
  }

  /** The pairs after the first are those of the remaining dependencies. */
  lemma RequireArgsShift(deps: seq<string>, rest: seq<string>)
    requires |deps| > 0 && |rest| == 2 * (|deps| - 1)
    requires forall k :: 0 <= k < |deps| - 1 ==> rest[2 * k] == "--require" && rest[2 * k + 1] == deps[1..][k]
    ensures var args := ["--require", deps[0]] + rest;
            forall k :: 0 <= k < |deps| ==> args[2 * k] == "--require" && args[2 * k + 1] == deps[k]
  {
    var args := ["--require", deps[0]] + rest;
    forall k | 1 <= k < |deps|
      ensures args[2 * k] == "--require" && args[2 * k + 1] == deps[k]
    {
      assert args[2 * k] == rest[2 * (k - 1)];
      assert args[2 * k + 1] == rest[2 * (k - 1) + 1];
      assert deps[1..][k - 1] == deps[k];
    }
  }

  /** The `capstan package init` argument list for a simulation. */
  function InitCommand(simulationName: string, tenant: string, solver: string, packageFolder: string): (r: Result<seq<string>>)
    ensures r.Ok? <==> solver in Solvers
    ensures r.Ok? ==>
      && |r.value| == 9 + 2 * (1 + |CommonDeps|) + 1
      && r.value[..3] == ["capstan", "package", "init"]
      && r.value[9] == "--require" && r.value[10] == solver + "-2.4.0"
      && r.value[|r.value| - 1] == packageFolder
  {
    var deps :- SolverDeps(solver);
    Ok(["capstan", "package", "init", "--name", simulationName, "--title", simulationName, "--author", tenant]
       + RequireArgs(deps) + [packageFolder])
  }

  /** The `capstan package compose` argument list for an image. */
  function ComposeCommand(imageName: string): seq<string>
  {
    ["capstan", "package", "compose", "--size", "500M", "--run", "--redirect=>>/run.log /cli/cli.so",
     "--pull-missing", imageName]
  }
}

=== FILE: case_utils.dfy ===
/** The case-file transforms: the per-variable rewrite of an OpenFOAM
    dictionary, the update-key split and grouping, the decomposeParDict
    placeholder substitution and the NFS case paths.  Files are strings;
    reading and writing them is left to the caller. */
module CaseUtils {
  import opened Common
  import opened Models

  // ---------------------------------------------------------------------
  // The rewrite `re.sub('^[ \t]*<var>\s+.*$', '<var> <value>;', data, MULTILINE)`

  /** The characters `[ \t]` matches. */
  const Blank: set<char> := {' ', '\t'}

  /** The end of the run of characters from `cs` that starts at `i`. */
  function RunEnd(s: string, i: nat, cs: set<char>): (j: nat)
    requires i <= |s|
    ensures i <= j <= |s|
    ensures forall k :: i <= k < j ==> s[k] in cs
    ensures j == |s| || s[j] !in cs
    decreases |s| - i
  {
    if i < |s| && s[i] in cs then RunEnd(s, i + 1, cs) else i
  }

  /** The end of the line holding position `i`: the next newline, or the end. */
  function LineEnd(s: string, i: nat): (j: nat)
    requires i <= |s|
    ensures i <= j <= |s|
    ensures forall k :: i <= k < j ==> s[k] != '\n'
    ensures j == |s| || s[j] == '\n'
    decreases |s| - i
  {
    if i < |s| && s[i] != '\n' then LineEnd(s, i + 1) else i
  }

  /** `<var>\s` matches at `i`: the name, then at least one `\s` character. */
  predicate VarAt(s: string, v: string, i: int)
  {
    OccursAt(s, v, i) && i + |v| < |s| && s[i + |v|] in Whitespace
  }

  /** Where `[ \t]*` hands over to `<var>`: the star is greedy, so the
      last position at or below `i` that is followed by the name and a `\s`. */
  function VarStart(s: string, v: string, i: nat): (r: Option<nat>)
    requires i <= |s|
    ensures r.Some? ==> r.value <= i && VarAt(s, v, r.value)
    ensures r.None? ==> forall k :: 0 <= k <= i ==> !VarAt(s, v, k)
  {
    if VarAt(s, v, i) then Some(i)
    else if i == 0 then None
    else VarStart(s, v, i - 1)
  }

  /** The end of the match at the start of `s` (a line start), if there is
      one: `\s+` is greedy and may run over newlines, and `.*$` then takes
      the rest of the line it stops in. */
  function MatchAt(s: string, v: string): (r: Option<nat>)
    ensures r.Some? ==> 0 < r.value <= |s| && (r.value == |s| || s[r.value] == '\n')
  {
    match VarStart(s, v, RunEnd(s, 0, Blank))
    case None => None
    case Some(i) => Some(LineEnd(s, RunEnd(s, i + |v|, Whitespace)))
  }

  /** `re.sub` with the pattern above, line by line from the start of `s`:
      where the pattern matches, the text up to the match end becomes `rep`;
      other lines are copied. */
  function Sub(s: string, v: string, rep: string): string
    decreases |s|
  {
    if |s| == 0 then ""
    else
      match MatchAt(s, v)
      case Some(e) => if e == |s| then rep else rep + "\n" + Sub(s[e + 1..], v, rep)
      case None =>
        var n := LineEnd(s, 0);
        if n == |s| then s else s[..n] + "\n" + Sub(s[n + 1..], v, rep)
  }

  /** A variable name the rewrite lemmas are stated for: it does not start
      with a blank or a tab and holds no newline. */
  predicate PlainName(v: string)
  {
    |v| > 0 && v[0] !in Blank && '\n' !in v
  }

  /** One line `<var><blank>...;` holding no newline, the shape the rewrite
      itself writes. */
  predicate AssignmentLine(v: string, line: string)
  {
    && PlainName(v)
    && |line| >= |v| + 2 && line[..|v|] == v && line[|v|] in Blank
    && line[|line| - 1] == ';' && '\n' !in line
  }

  /** `t` starts with `line`, followed by a newline or by nothing. */
  predicate LineThen(t: string, line: string)
  {
    |line| <= |t| && t[..|line|] == line && (|t| == |line| || t[|line|] == '\n')
  }

  lemma LineEndAt(t: string, i: nat, n: nat)
    requires i <= n <= |t|
    requires forall k :: i <= k < n ==> t[k] != '\n'
    requires n == |t| || t[n] == '\n'
    ensures LineEnd(t, i) == n
  {
  }

  lemma RunEndAt(t: string, i: nat, cs: set<char>, n: nat)
    requires i <= n <= |t|
    requires forall k :: i <= k < n ==> t[k] in cs
    requires n == |t| || t[n] !in cs
    ensures RunEnd(t, i, cs) == n
  {
  }

  /** An assignment line at the start of a text matches, up to its own end. */
  lemma AssignmentMatches(t: string, v: string, line: string)
    requires AssignmentLine(v, line) && LineThen(t, line)
    ensures MatchAt(t, v) == Some(|line|)
  {
    assert t[..|v|] == line[..|v|];
    RunEndAt(t, 0, Blank, 0);
    assert VarAt(t, v, 0);
    var j := RunEnd(t, |v|, Whitespace);
    assert t[|line| - 1] == line[|line| - 1];
    assert |v| < j <= |line| - 1;
    assert forall k :: j <= k < |line| ==> t[k] == line[k];
    LineEndAt(t, j, |line|);
  }

  /** With a name that holds no newline, `<var>\s` at a position of the
      first line depends only on that line and the newline ending it. */
  lemma VarAtWithinLine(s: string, t: string, v: string, k: nat, n: nat)
    requires '\n' !in v && k <= n < |s| && n < |t| && s[n] == '\n'
    requires s[..n + 1] == t[..n + 1]
    ensures VarAt(s, v, k) ==> VarAt(t, v, k)
  {
    if VarAt(s, v, k) {
      assert forall q :: k <= q < k + |v| ==> s[q] == v[q - k];
      assert k + |v| <= n;
      assert forall q :: k <= q <= k + |v| ==> s[q] == t[q];
      assert t[k..k + |v|] == s[k..k + |v|];
    }
  }

  /** A first line the pattern does not match stays unmatched whatever
      follows its newline. */
  lemma NoMatchKept(s: string, t: string, v: string)
    requires '\n' !in v && |s| > 0 && MatchAt(s, v).None?
    requires LineEnd(s, 0) < |s| && LineEnd(s, 0) < |t|
    requires s[..LineEnd(s, 0) + 1] == t[..LineEnd(s, 0) + 1]
    ensures MatchAt(t, v).None? && LineEnd(t, 0) == LineEnd(s, 0)
  {
    var n := LineEnd(s, 0);
    var b := RunEnd(s, 0, Blank);
    assert b <= n;
    assert forall k :: 0 <= k <= n ==> s[k] == t[k];
    RunEndAt(t, 0, Blank, b);
    forall k | 0 <= k <= b
      ensures !VarAt(t, v, k)
    {
      VarAtWithinLine(t, s, v, k, n);
    }
    LineEndAt(t, 0, n);
  }

  /** Rewriting with `rep1` and then with `rep2` is rewriting with `rep2`:
      the lines the first pass wrote match again, and no other line does. */
  lemma {:induction false} RewriteTwice(s: string, v: string, rep1: string, rep2: string)
    requires AssignmentLine(v, rep1)
    ensures Sub(Sub(s, v, rep1), v, rep2) == Sub(s, v, rep2)
    decreases |s|, 1
  {
    if |s| > 0 {
      match MatchAt(s, v)
      case Some(e) => RewriteTwiceAtMatch(s, v, rep1, rep2, e);
      case None => RewriteTwiceAtPlainLine(s, v, rep1, rep2);
    }
  }

  /** A first line the pattern matches is replaced by `rep`. */
  lemma SubMatched(s: string, v: string, rep: string, e: nat)
    requires |s| > 0 && MatchAt(s, v) == Some(e)
    ensures e == |s| ==> Sub(s, v, rep) == rep
    ensures e < |s| ==> Sub(s, v, rep) == rep + "\n" + Sub(s[e + 1..], v, rep)
  {
  }

  lemma {:induction false} RewriteTwiceAtMatch(s: string, v: string, rep1: string, rep2: string, e: nat)
    requires AssignmentLine(v, rep1) && |s| > 0 && MatchAt(s, v) == Some(e)
    ensures Sub(Sub(s, v, rep1), v, rep2) == Sub(s, v, rep2)
    decreases |s|, 0
  {
    var t := Sub(s, v, rep1);
    SubMatched(s, v, rep1, e);
    SubMatched(s, v, rep2, e);
    if e < |s| {
      var rest := Sub(s[e + 1..], v, rep1);
      assert t == rep1 + "\n" + rest;
      assert LineThen(t, rep1);
      AssignmentMatches(t, v, rep1);
      SubMatched(t, v, rep2, |rep1|);
      assert t[|rep1| + 1..] == rest;
      RewriteTwice(s[e + 1..], v, rep1, rep2);
    } else {
      assert t == rep1;
      assert LineThen(t, rep1);
      AssignmentMatches(t, v, rep1);
      SubMatched(t, v, rep2, |rep1|);
    }
  }

  /** Keeping a text's first line and its newline and replacing what
      follows leaves the first line in place. */
  lemma SplitAtNewline(s: string, n: nat, rest: string)
    requires n < |s| && s[n] == '\n'
    ensures (s[..n] + "\n" + rest)[..n + 1] == s[..n + 1]
    ensures (s[..n] + "\n" + rest)[..n] == s[..n]
    ensures (s[..n] + "\n" + rest)[n + 1..] == rest
  {
  }

  /** A text is its first line, the newline, and the rest. */
  lemma RejoinAtNewline(s: string, n: nat)
    requires n < |s| && s[n] == '\n'
    ensures s == s[..n] + "\n" + s[n + 1..]
  {
    assert s == s[..n] + s[n..];
  }

  lemma {:induction false} RewriteTwiceAtPlainLine(s: string, v: string, rep1: string, rep2: string)
    requires AssignmentLine(v, rep1) && |s| > 0 && MatchAt(s, v).None?
    ensures Sub(Sub(s, v, rep1), v, rep2) == Sub(s, v, rep2)
    decreases |s|, 0
  {
    var t := Sub(s, v, rep1);
    var n := LineEnd(s, 0);
    if n < |s| {
      UnmatchedLineCopied(s, v, rep1);
      UnmatchedLineCopied(s, v, rep2);
      var rest := Sub(s[n + 1..], v, rep1);
      SplitAtNewline(s, n, rest);
      NoMatchKept(s, t, v);
      UnmatchedLineCopied(t, v, rep2);
      RewriteTwice(s[n + 1..], v, rep1, rep2);
    } else {
      UnmatchedLastLineCopied(s, v, rep1);
      UnmatchedLastLineCopied(s, v, rep2);
    }
  }

  lemma AbsentNameNoMatch(s: string, v: string)
    requires !Contains(s, v)
    ensures MatchAt(s, v).None?
  {
    forall k | 0 <= k <= |s|
      ensures !VarAt(s, v, k)
    {
      OccursContains(s, v, k);
    }
  }

  /** A first line the pattern does not match is copied. */
  lemma UnmatchedLineCopied(s: string, v: string, rep: string)
    requires |s| > 0 && MatchAt(s, v).None? && LineEnd(s, 0) < |s|
    ensures Sub(s, v, rep) == s[..LineEnd(s, 0)] + "\n" + Sub(s[LineEnd(s, 0) + 1..], v, rep)
  {
  }

  lemma UnmatchedLastLineCopied(s: string, v: string, rep: string)
    requires |s| > 0 && MatchAt(s, v).None? && LineEnd(s, 0) == |s|
    ensures Sub(s, v, rep) == s
  {
  }

  /** A text where the name does not occur is left as it is. */
  lemma {:induction false} AbsentNameKeepsText(s: string, v: string, rep: string)
    requires !Contains(s, v)
    ensures Sub(s, v, rep) == s
    decreases |s|
  {
    if |s| > 0 {
      AbsentNameNoMatch(s, v);
      var n := LineEnd(s, 0);
      if n < |s| {
        var rest := s[n + 1..];
        assert !Contains(rest, v) by { ContainsSuffix(s, v, n + 1); }
        AbsentNameKeepsText(rest, v, rep);
        UnmatchedLineCopied(s, v, rep);
        RejoinAtNewline(s, n);
      } else {
        UnmatchedLastLineCopied(s, v, rep);
      }
    }
  }

  /** The replacement text `'%s %s;' % (var, value)`. */
  function Assignment(v: string, value: JsonValue): string
  {
    v + " " + Str(value) + ";"
  }

  /** One variable's rewrite of a whole file. */
  function RewriteVar(data: string, v: string, value: JsonValue): string
  {
    Sub(data, v, Assignment(v, value))
  }

  /** The replacement text is an assignment line whenever the name is plain
      and the value's text holds no newline. */
  lemma AssignmentIsLine(v: string, value: JsonValue)
    requires PlainName(v) && '\n' !in Str(value)
    ensures AssignmentLine(v, Assignment(v, value))
  {
    var a := Assignment(v, value);
    assert a == v + " " + Str(value) + ";";
    assert a[..|v|] == v && a[|v|] == ' ' && a[|a| - 1] == ';';
    assert forall k :: 0 <= k < |a| ==> a[k] != '\n' by {
      forall k | 0 <= k < |a| ensures a[k] != '\n' {
        if k < |v| { assert a[k] == v[k]; }
        else if k == |v| { }
        else if k < |a| - 1 { assert a[k] == Str(value)[k - |v| - 1]; }
      }
    }
  }

  /** Rewriting the same variable twice with the same value changes nothing
      the first rewrite did not. */
  lemma RewriteIdempotent(data: string, v: string, value: JsonValue)
    requires PlainName(v) && '\n' !in Str(value)
    ensures RewriteVar(RewriteVar(data, v, value), v, value) == RewriteVar(data, v, value)
  {
    AssignmentIsLine(v, value);
    RewriteTwice(data, v, Assignment(v, value), Assignment(v, value));
  }

  /** A later value for a variable overrides an earlier one completely. */
  lemma LaterValueWins(data: string, v: string, first: JsonValue, second: JsonValue)
    requires PlainName(v) && '\n' !in Str(first)
    ensures RewriteVar(RewriteVar(data, v, first), v, second) == RewriteVar(data, v, second)
  {
    AssignmentIsLine(v, first);
    RewriteTwice(data, v, Assignment(v, first), Assignment(v, second));
  }

  /** `\s+` also matches newlines: a line that holds only the name takes
      the next line with it into the replacement. */
  lemma BareNameTakesNextLine()
    ensures Sub("endTime\n10;\n", "endTime", "endTime 5;") == "endTime 5;\n"
  {
    var s := "endTime\n10;\n";
    var v := "endTime";
    assert s[..7] == v;
    RunEndAt(s, 0, Blank, 0);
    assert VarAt(s, v, 0);
    RunEndAt(s, 7, Whitespace, 8);
    LineEndAt(s, 8, 11);
    assert MatchAt(s, v) == Some(11);
    assert s[12..] == "";
  }

  /** A first line `[ \t]*<var><spaces><text>`, where the spaces hold no
      newline and the text starts with a non-space character, is replaced
      whole by `rep`; the rewrite goes on after its newline, and a last
      line of that shape becomes `rep` alone. */
  lemma AssignmentReplaced(blanks: string, v: string, ws: string, text: string, rest: string, rep: string)
    requires PlainName(v)
    requires forall k :: 0 <= k < |blanks| ==> blanks[k] in Blank
    requires |ws| > 0 && forall k :: 0 <= k < |ws| ==> ws[k] in Whitespace && ws[k] != '\n'
    requires |text| > 0 && text[0] !in Whitespace && '\n' !in text
    ensures Sub(blanks + v + ws + text + "\n" + rest, v, rep) == rep + "\n" + Sub(rest, v, rep)
    ensures Sub(blanks + v + ws + text, v, rep) == rep
  {
    var line := blanks + v + ws + text;
    IndentedAssignmentMatches(line + "\n" + rest, blanks, v, ws, text);
    assert (line + "\n" + rest)[|line| + 1..] == rest;
    IndentedAssignmentMatches(line, blanks, v, ws, text);
  }

  /** The match of an indented assignment line ends where its text does. */
  lemma IndentedAssignmentMatches(s: string, blanks: string, v: string, ws: string, text: string)
    requires PlainName(v)
    requires forall k :: 0 <= k < |blanks| ==> blanks[k] in Blank
    requires |ws| > 0 && forall k :: 0 <= k < |ws| ==> ws[k] in Whitespace && ws[k] != '\n'
    requires |text| > 0 && text[0] !in Whitespace && '\n' !in text
    requires LineThen(s, blanks + v + ws + text)
    ensures MatchAt(s, v) == Some(|blanks + v + ws + text|)
  {
    var line := blanks + v + ws + text;
    var b, w := |blanks|, |blanks| + |v|;
    var t := w + |ws|;
    AssignmentPieces(blanks, v, ws, text);
    assert forall k :: 0 <= k < |line| ==> s[k] == line[k] by {
      forall k | 0 <= k < |line| ensures s[k] == line[k] { assert s[..|line|][k] == s[k]; }
    }
    RunEndAt(s, 0, Blank, b);
    assert s[b..w] == line[b..w];
    assert VarAt(s, v, b);
    RunEndAt(s, w, Whitespace, t);
    LineEndAt(s, t, |line|);
  }

  /** Where the pieces of an indented assignment line sit in it. */
  lemma AssignmentPieces(blanks: string, v: string, ws: string, text: string)
    requires |v| > 0 && |ws| > 0 && |text| > 0
    ensures var line := blanks + v + ws + text;
            var b, w := |blanks|, |blanks| + |v|;
            var t := w + |ws|;
            && (forall k :: 0 <= k < b ==> line[k] == blanks[k])
            && line[b..w] == v && line[b] == v[0]
            && (forall k :: w <= k < t ==> line[k] == ws[k - w])
            && (forall k :: t <= k < |line| ==> line[k] == text[k - t])
  {
  }

  // ---------------------------------------------------------------------
  // update_case_files

  /** `key.rfind('/')` splits an update key into a file and a variable.  A
      key without a slash gives the key less its last character as the file
      (the slice `key[0:-1]`) and the whole key as the variable. */
  function SplitUpdateKey(key: string): (r: (string, string))
    ensures '/' in key ==> key == r.0 + "/" + r.1 && '/' !in r.1
    ensures '/' !in key ==> r.1 == key && r.0 == SliceTo(key, -1)
  {
    var k := RFind(key, '/');
    assert '/' in key ==> k >= 0 && key == key[..k] + "/" + key[k + 1..];
    (SliceTo(key, k), key[k + 1..])
  }

  /** Joining a file and a slash-free variable with `/` gives a key that
      splits back into the two. */
  lemma UpdateKeyRoundTrip(file: string, v: string)
    requires '/' !in v
    ensures SplitUpdateKey(file + "/" + v) == (file, v)
  {
    var key := file + "/" + v;
    assert key[|file|] == '/';
    var k := RFind(key, '/');
    assert forall j :: |file| < j < |key| ==> key[j] == v[j - |file| - 1];
    assert k == |file|;
    assert key[..k] == file && key[k + 1..] == v;
  }

  function FileOf(key: string): string { SplitUpdateKey(key).0 }

  /** A file's share of the updates, as (variable, value) pairs in input order. */
  datatype FileUpdates = FileUpdates(file: string, vars: seq<(string, JsonValue)>)

  predicate DistinctFiles(groups: seq<FileUpdates>)
  {
    forall i, j :: 0 <= i < j < |groups| ==> groups[i].file != groups[j].file
  }

  /** Reference definition: the updates that fall in `file`, in input order. */
  function VarsFor(updates: seq<(string, JsonValue)>, file: string): seq<(string, JsonValue)>
    decreases |updates|
  {
    if |updates| == 0 then []
    else
      var last := updates[|updates| - 1];
      VarsFor(updates[..|updates| - 1], file)
        + (if FileOf(last.0) == file then [(SplitUpdateKey(last.0).1, last.1)] else [])
  }

  /** Some group is for file `f`. */
  predicate HasGroup(groups: seq<FileUpdates>, f: string)
  {
    exists i :: 0 <= i < |groups| && groups[i].file == f
  }

  /** One step of the grouping loop: the entry joins its file's group, or
      opens a new group at the end. */
  function AddUpdate(groups: seq<FileUpdates>, file: string, entry: (string, JsonValue)): (r: seq<FileUpdates>)
    requires DistinctFiles(groups)
    ensures DistinctFiles(r)
    ensures |r| == |groups| || (|r| == |groups| + 1 && r[|groups|] == FileUpdates(file, [entry]))
    ensures |r| == |groups| <==> HasGroup(groups, file)
    ensures forall i :: 0 <= i < |groups| ==>
              r[i].file == groups[i].file
              && r[i].vars == groups[i].vars + (if groups[i].file == file then [entry] else [])
    decreases |groups|
  {
    if |groups| == 0 then [FileUpdates(file, [entry])]
    else if groups[0].file == file then
      var r := [groups[0].(vars := groups[0].vars + [entry])] + groups[1..];
      AddUpdateHere(groups, file, entry);
      r
    else
      DistinctTail(groups);
      var rest := AddUpdate(groups[1..], file, entry);
      AddUpdateCons(groups, file, entry, rest);
      [groups[0]] + rest
  }

  lemma DistinctTail(groups: seq<FileUpdates>)
    requires |groups| > 0 && DistinctFiles(groups)
    ensures DistinctFiles(groups[1..])
  {
    assert forall i :: 0 <= i < |groups| - 1 ==> groups[1..][i] == groups[i + 1];
  }

  /** The entry joins the first group, which is its file's. */
  lemma AddUpdateHere(groups: seq<FileUpdates>, file: string, entry: (string, JsonValue))
    requires DistinctFiles(groups) && |groups| > 0 && groups[0].file == file
    ensures var r := [groups[0].(vars := groups[0].vars + [entry])] + groups[1..];
            && DistinctFiles(r) && |r| == |groups| && HasGroup(groups, file)
            && forall i :: 0 <= i < |groups| ==>
                 r[i].file == groups[i].file
                 && r[i].vars == groups[i].vars + (if groups[i].file == file then [entry] else [])
  {
    var r := [groups[0].(vars := groups[0].vars + [entry])] + groups[1..];
    assert forall i :: 0 < i < |groups| ==> r[i] == groups[i] && groups[i].file != file;
    assert r[0].file == groups[0].file;
  }

  /** The entry goes past a first group of another file. */
  lemma AddUpdateCons(groups: seq<FileUpdates>, file: string, entry: (string, JsonValue), rest: seq<FileUpdates>)
    requires DistinctFiles(groups) && |groups| > 0 && groups[0].file != file
    requires DistinctFiles(rest)
    requires |rest| == |groups| - 1 || (|rest| == |groups| && rest[|groups| - 1] == FileUpdates(file, [entry]))
    requires |rest| == |groups| - 1 <==> HasGroup(groups[1..], file)
    requires forall i :: 0 <= i < |groups| - 1 ==>
               rest[i].file == groups[i + 1].file
               && rest[i].vars == groups[i + 1].vars + (if groups[i + 1].file == file then [entry] else [])
    ensures var r := [groups[0]] + rest;
            && DistinctFiles(r)
            && (|r| == |groups| || (|r| == |groups| + 1 && r[|groups|] == FileUpdates(file, [entry])))
            && (|r| == |groups| <==> HasGroup(groups, file))
            && forall i :: 0 <= i < |groups| ==>
                 r[i].file == groups[i].file
                 && r[i].vars == groups[i].vars + (if groups[i].file == file then [entry] else [])
  {
    var r := [groups[0]] + rest;
    HasGroupCons(groups, file);
    forall i | 0 <= i < |groups|
      ensures r[i].file == groups[i].file
      ensures r[i].vars == groups[i].vars + (if groups[i].file == file then [entry] else [])
    {
      if i > 0 { assert r[i] == rest[i - 1]; }
    }
    assert |r| > |groups| ==> r[|groups|] == rest[|groups| - 1];
    forall i | 0 <= i < |rest|
      ensures rest[i].file != groups[0].file
    {
      if i < |groups| - 1 {
        assert rest[i].file == groups[i + 1].file;
      }
    }
    DistinctCons(groups[0], rest);
  }

  lemma DistinctCons(g: FileUpdates, rest: seq<FileUpdates>)
    requires DistinctFiles(rest)
    requires forall i :: 0 <= i < |rest| ==> rest[i].file != g.file
    ensures DistinctFiles([g] + rest)
  {
    var r := [g] + rest;
    assert forall i :: 0 < i < |r| ==> r[i] == rest[i - 1];
  }

  lemma HasGroupCons(groups: seq<FileUpdates>, f: string)
    requires |groups| > 0
    ensures HasGroup(groups, f) <==> groups[0].file == f || HasGroup(groups[1..], f)
  {
    if HasGroup(groups, f) && groups[0].file != f {
      var i :| 0 <= i < |groups| && groups[i].file == f;
      assert groups[1..][i - 1].file == f;
    }
    if HasGroup(groups[1..], f) {
      var i :| 0 <= i < |groups| - 1 && groups[1..][i].file == f;
      assert groups[i + 1].file == f;
    }
  }

  /** After a step, the groups are for the files before it and the entry's. */
  lemma AddUpdateFiles(groups: seq<FileUpdates>, file: string, entry: (string, JsonValue), f: string)
    requires DistinctFiles(groups)
    ensures HasGroup(AddUpdate(groups, file, entry), f) <==> HasGroup(groups, f) || f == file
  {
    var r := AddUpdate(groups, file, entry);
    if HasGroup(groups, f) {
      var i :| 0 <= i < |groups| && groups[i].file == f;
      assert r[i].file == f;
    }
    if HasGroup(r, f) {
      var i :| 0 <= i < |r| && r[i].file == f;
      if i < |groups| { assert groups[i].file == f; }
    }
    if f == file && |r| == |groups| {
      var i :| 0 <= i < |groups| && groups[i].file == file;
      assert r[i].file == f;
    }
    if f == file && |r| > |groups| {
      assert r[|groups|].file == f;
    }
  }

  /** The file part of each update key, in input order. */
  function KeyFiles(updates: seq<(string, JsonValue)>): (fs: seq<string>)
    ensures |fs| == |updates|
    decreases |updates|
  {
    if |updates| == 0 then []
    else KeyFiles(updates[..|updates| - 1]) + [FileOf(updates[|updates| - 1].0)]
  }

  lemma {:induction false} KeyFilesAt(updates: seq<(string, JsonValue)>, k: nat)
    requires k < |updates|
    ensures KeyFiles(updates)[k] == FileOf(updates[k].0)
    decreases |updates|
  {
    if k < |updates| - 1 {
      var init := updates[..|updates| - 1];
      KeyFilesAt(init, k);
      assert init[k] == updates[k];
    }
  }

  /** Some update falls in file `f`. */
  predicate Touches(updates: seq<(string, JsonValue)>, f: string)
  {
    f in KeyFiles(updates)
  }

  lemma TouchesAt(updates: seq<(string, JsonValue)>, f: string, k: nat)
    requires k < |updates| && FileOf(updates[k].0) == f
    ensures Touches(updates, f)
  {
    KeyFilesAt(updates, k);
  }

  /** An update that puts a touched file there. */
  lemma TouchesIndex(updates: seq<(string, JsonValue)>, f: string) returns (k: nat)
    requires Touches(updates, f)
    ensures k < |updates| && FileOf(updates[k].0) == f
  {
    k :| 0 <= k < |updates| && KeyFiles(updates)[k] == f;
    KeyFilesAt(updates, k);
  }

  /** What the grouping promises: each touched file once, holding exactly
      its own updates in input order. */
  ghost predicate GroupedBy(groups: seq<FileUpdates>, updates: seq<(string, JsonValue)>)
  {
    && DistinctFiles(groups)
    && (forall i :: 0 <= i < |groups| ==> groups[i].vars == VarsFor(updates, groups[i].file))
    && (forall f :: HasGroup(groups, f) <==> Touches(updates, f))
  }

  lemma {:induction false} UntouchedHasNoVars(updates: seq<(string, JsonValue)>, f: string)
    requires !Touches(updates, f)
    ensures VarsFor(updates, f) == []
    decreases |updates|
  {
    if |updates| > 0 {
      var init := updates[..|updates| - 1];
      assert forall k :: 0 <= k < |init| ==> init[k] == updates[k];
      UntouchedHasNoVars(init, f);
    }
  }

  lemma {:induction false} GroupVarsStep(updates: seq<(string, JsonValue)>, before: seq<FileUpdates>, r: seq<FileUpdates>)
    requires |updates| > 0 && DistinctFiles(before)
    requires forall i :: 0 <= i < |before| ==> before[i].vars == VarsFor(updates[..|updates| - 1], before[i].file)
    requires var file := FileOf(updates[|updates| - 1].0);
             HasGroup(before, file) || !Touches(updates[..|updates| - 1], file)
    requires var last := updates[|updates| - 1];
             r == AddUpdate(before, FileOf(last.0), (SplitUpdateKey(last.0).1, last.1))
    ensures forall i :: 0 <= i < |r| ==> r[i].vars == VarsFor(updates, r[i].file)
  {
    var init := updates[..|updates| - 1];
    var last := updates[|updates| - 1];
    var file := FileOf(last.0);
    var entry := (SplitUpdateKey(last.0).1, last.1);
    forall i | 0 <= i < |r|
      ensures r[i].vars == VarsFor(updates, r[i].file)
    {
      if i < |before| {
        GroupVarsKept(updates, before[i], r[i]);
      } else {
        assert !HasGroup(before, file);
        UntouchedHasNoVars(init, file);
        assert r[i] == FileUpdates(file, [entry]);
      }
    }
  }

  /** A group that was there before the last update keeps its variables and
      gains the update when it is for its file. */
  lemma GroupVarsKept(updates: seq<(string, JsonValue)>, g: FileUpdates, rg: FileUpdates)
    requires |updates| > 0
    requires g.vars == VarsFor(updates[..|updates| - 1], g.file)
    requires var last := updates[|updates| - 1];
             && rg.file == g.file
             && rg.vars == g.vars + (if g.file == FileOf(last.0) then [(SplitUpdateKey(last.0).1, last.1)] else [])
    ensures rg.vars == VarsFor(updates, rg.file)
  {
  }

  lemma TouchesStep(updates: seq<(string, JsonValue)>, f: string)
    requires |updates| > 0
    ensures Touches(updates, f) <==> Touches(updates[..|updates| - 1], f) || FileOf(updates[|updates| - 1].0) == f
  {
  }

  /** The grouping loop over the updates, in input order. */
  function GroupByFile(updates: seq<(string, JsonValue)>): (groups: seq<FileUpdates>)
    ensures GroupedBy(groups, updates)
    decreases |updates|
  {
    if |updates| == 0 then []
    else
      var last := updates[|updates| - 1];
      var before := GroupByFile(updates[..|updates| - 1]);
      var r := AddUpdate(before, FileOf(last.0), (SplitUpdateKey(last.0).1, last.1));
      assert HasGroup(before, FileOf(last.0)) <==> Touches(updates[..|updates| - 1], FileOf(last.0));
      GroupVarsStep(updates, before, r);
      forall f
        ensures HasGroup(r, f) <==> Touches(updates, f)
      {
        TouchesStep(updates, f);
        AddUpdateFiles(before, FileOf(last.0), (SplitUpdateKey(last.0).1, last.1), f);
      }
      r
  }

  /** Apply a file's updates in order to its text. */
  function RewriteAll(data: string, vars: seq<(string, JsonValue)>): string
    decreases |vars|
  {
    if |vars| == 0 then data
    else RewriteAll(RewriteVar(data, vars[0].0, vars[0].1), vars[1..])
  }

  /** The path of group `i`. */
  function GroupPath(casePath: string, groups: seq<FileUpdates>, i: nat): string
    requires i < |groups|
  {
    PathJoin(casePath, groups[i].file)
  }

  /** No other group writes the path of group `i`. */
  predicate OwnPath(casePath: string, groups: seq<FileUpdates>, i: nat)
    requires i < |groups|
  {
    forall j :: 0 <= j < |groups| && j != i ==> GroupPath(casePath, groups, j) != GroupPath(casePath, groups, i)
  }

  /** The file loop: each group's file, joined to the case path, is read,
      rewritten with its updates in order and written back; a file that is
      not there raises IOError. */
  function ApplyGroups(casePath: string, groups: seq<FileUpdates>, files: map<string, string>): (r: Result<map<string, string>>)
    ensures r.Ok? <==> forall i :: 0 <= i < |groups| ==> GroupPath(casePath, groups, i) in files
    ensures r.Err? ==> r.error == IoError
    ensures r.Ok? ==> r.value.Keys == files.Keys
    decreases |groups|
  {
    if |groups| == 0 then Ok(files)
    else
      var path := GroupPath(casePath, groups, 0);
      if path !in files then Err(IoError)
      else
        var next := files[path := RewriteAll(files[path], groups[0].vars)];
        assert next.Keys == files.Keys;
        GroupPathsShift(casePath, groups);
        assert forall i :: 1 <= i < |groups| ==> GroupPath(casePath, groups, i) == GroupPath(casePath, groups[1..], i - 1);
        ApplyGroups(casePath, groups[1..], next)
  }

  lemma GroupPathsShift(casePath: string, groups: seq<FileUpdates>)
    requires |groups| > 0
    ensures forall j :: 0 <= j < |groups| - 1 ==> GroupPath(casePath, groups[1..], j) == GroupPath(casePath, groups, j + 1)
  {
    forall j | 0 <= j < |groups| - 1
      ensures GroupPath(casePath, groups[1..], j) == GroupPath(casePath, groups, j + 1)
    {
      assert groups[1..][j] == groups[j + 1];
    }
  }

  /** Files no group names are left as they were. */
  lemma {:induction false} ApplyGroupsFrame(casePath: string, groups: seq<FileUpdates>, files: map<string, string>, p: string)
    requires ApplyGroups(casePath, groups, files).Ok?
    requires p in files && forall i :: 0 <= i < |groups| ==> GroupPath(casePath, groups, i) != p
    ensures ApplyGroups(casePath, groups, files).value[p] == files[p]
    decreases |groups|
  {
    if |groups| > 0 {
      var path := GroupPath(casePath, groups, 0);
      var next := files[path := RewriteAll(files[path], groups[0].vars)];
      GroupPathsShift(casePath, groups);
      ApplyGroupsFrame(casePath, groups[1..], next, p);
    }
  }

  /** A file only its own group names ends up rewritten with exactly that
      group's updates, in order. */
  lemma {:induction false} ApplyGroupsContent(casePath: string, groups: seq<FileUpdates>, files: map<string, string>, i: nat)
    requires ApplyGroups(casePath, groups, files).Ok?
    requires i < |groups| && OwnPath(casePath, groups, i)
    ensures ApplyGroups(casePath, groups, files).value[GroupPath(casePath, groups, i)]
            == RewriteAll(files[GroupPath(casePath, groups, i)], groups[i].vars)
    decreases |groups|
  {
    var path := GroupPath(casePath, groups, 0);
    var next := files[path := RewriteAll(files[path], groups[0].vars)];
    GroupPathsShift(casePath, groups);
    if i == 0 {
      ApplyGroupsFrame(casePath, groups[1..], next, path);
    } else {
      forall j | 0 <= j < |groups| - 1 && j != i - 1
        ensures GroupPath(casePath, groups[1..], j) != GroupPath(casePath, groups[1..], i - 1)
      {
        assert GroupPath(casePath, groups, j + 1) != GroupPath(casePath, groups, i);
      }
      ApplyGroupsContent(casePath, groups[1..], next, i - 1);
    }
  }

  /** The files the groups name. */
  function FileSet(groups: seq<FileUpdates>): (fs: set<string>)
    ensures forall f :: f in fs <==> HasGroup(groups, f)
  {
    set i | 0 <= i < |groups| :: groups[i].file
  }

  /** What `update_case_files` leaves behind: the map from each touched
      file to its path, and the rewritten file contents. */
  datatype CaseFilesUpdate = CaseFilesUpdate(outputFiles: map<string, string>, files: map<string, string>)

  /** `update_case_files` over the case's files, given as a map from path to
      text: updates are grouped by the file part of their key, and each file
      is rewritten with its own updates.  A missing file raises IOError. */
  function UpdateCaseFiles(casePath: string, updates: seq<(string, JsonValue)>, files: map<string, string>): (r: Result<CaseFilesUpdate>)
    ensures r.Ok? <==> forall k :: 0 <= k < |updates| ==> PathJoin(casePath, FileOf(updates[k].0)) in files
    ensures r.Err? ==> r.error == IoError
    ensures r.Ok? ==> forall f :: f in r.value.outputFiles <==> Touches(updates, f)
    ensures r.Ok? ==> forall f :: f in r.value.outputFiles ==> r.value.outputFiles[f] == PathJoin(casePath, f)
    ensures r.Ok? ==> r.value.files.Keys == files.Keys
  {
    var groups := GroupByFile(updates);
    PresenceAgrees(casePath, updates, groups, files);
    var written :- ApplyGroups(casePath, groups, files);
    Ok(CaseFilesUpdate(map f | f in FileSet(groups) :: PathJoin(casePath, f), written))
  }

  /** The group holding a touched file. */
  lemma GroupOf(groups: seq<FileUpdates>, updates: seq<(string, JsonValue)>, f: string) returns (i: nat)
    requires GroupedBy(groups, updates) && Touches(updates, f)
    ensures i < |groups| && groups[i].file == f
  {
    assert HasGroup(groups, f);
    i :| 0 <= i < |groups| && groups[i].file == f;
  }

  /** An update whose key names a group's file. */
  lemma KeyOfGroup(groups: seq<FileUpdates>, updates: seq<(string, JsonValue)>, i: nat) returns (k: nat)
    requires GroupedBy(groups, updates) && i < |groups|
    ensures k < |updates| && FileOf(updates[k].0) == groups[i].file
  {
    assert HasGroup(groups, groups[i].file);
    k := TouchesIndex(updates, groups[i].file);
  }

  lemma PresenceAgrees(casePath: string, updates: seq<(string, JsonValue)>, groups: seq<FileUpdates>, files: map<string, string>)
    requires GroupedBy(groups, updates)
    ensures (forall i :: 0 <= i < |groups| ==> GroupPath(casePath, groups, i) in files)
            <==> (forall k :: 0 <= k < |updates| ==> PathJoin(casePath, FileOf(updates[k].0)) in files)
  {
    if forall i :: 0 <= i < |groups| ==> GroupPath(casePath, groups, i) in files {
      forall k | 0 <= k < |updates|
        ensures PathJoin(casePath, FileOf(updates[k].0)) in files
      {
        TouchesAt(updates, FileOf(updates[k].0), k);
        var i := GroupOf(groups, updates, FileOf(updates[k].0));
        assert GroupPath(casePath, groups, i) in files;
      }
    }
    if forall k :: 0 <= k < |updates| ==> PathJoin(casePath, FileOf(updates[k].0)) in files {
      forall i | 0 <= i < |groups|
        ensures GroupPath(casePath, groups, i) in files
      {
        var k := KeyOfGroup(groups, updates, i);
        assert PathJoin(casePath, FileOf(updates[k].0)) in files;
      }
    }
  }

  /** A file no update key points at is not touched. */
  lemma UpdateLeavesOtherFiles(casePath: string, updates: seq<(string, JsonValue)>, files: map<string, string>, p: string)
    requires UpdateCaseFiles(casePath, updates, files).Ok?
    requires p in files && forall k :: 0 <= k < |updates| ==> PathJoin(casePath, FileOf(updates[k].0)) != p
    ensures UpdateCaseFiles(casePath, updates, files).value.files[p] == files[p]
  {
    var groups := GroupByFile(updates);
    forall i | 0 <= i < |groups|
      ensures GroupPath(casePath, groups, i) != p
    {
      var k := KeyOfGroup(groups, updates, i);
    }
    ApplyGroupsFrame(casePath, groups, files, p);
  }

  /** No update key names an absolute file. */
  predicate RelativeFiles(updates: seq<(string, JsonValue)>)
  {
    forall k :: 0 <= k < |updates| ==> !StartsWith(FileOf(updates[k].0), "/")
  }

  /** With relative file names, each touched file ends up rewritten with
      exactly its own updates, in input order. */
  lemma UpdateRewritesEachFile(casePath: string, updates: seq<(string, JsonValue)>, files: map<string, string>, k: nat)
    requires UpdateCaseFiles(casePath, updates, files).Ok?
    requires RelativeFiles(updates) && k < |updates|
    ensures var path := PathJoin(casePath, FileOf(updates[k].0));
            && path in files
            && UpdateCaseFiles(casePath, updates, files).value.files[path]
               == RewriteAll(files[path], VarsFor(updates, FileOf(updates[k].0)))
  {
    var f := FileOf(updates[k].0);
    var groups := GroupByFile(updates);
    TouchesAt(updates, f, k);
    var i := GroupOf(groups, updates, f);
    forall j | 0 <= j < |groups| && j != i
      ensures GroupPath(casePath, groups, j) != GroupPath(casePath, groups, i)
    {
      DistinctGroupPaths(casePath, updates, groups, i, j);
    }
    ApplyGroupsContent(casePath, groups, files, i);
  }

  /** Under relative file names, two groups write two different paths. */
  lemma DistinctGroupPaths(casePath: string, updates: seq<(string, JsonValue)>, groups: seq<FileUpdates>, i: nat, j: nat)
    requires GroupedBy(groups, updates) && RelativeFiles(updates)
    requires i < |groups| && j < |groups| && i != j
    ensures GroupPath(casePath, groups, j) != GroupPath(casePath, groups, i)
  {
    assert groups[j].file != groups[i].file;
    var ki := KeyOfGroup(groups, updates, i);
    var kj := KeyOfGroup(groups, updates, j);
    if GroupPath(casePath, groups, j) == GroupPath(casePath, groups, i) {
      PathJoinInjective(casePath, groups[j].file, groups[i].file);
    }
  }


  /** Variables that do not occur in a text leave it as it is. */
  lemma {:induction false} AbsentNamesKeepText(data: string, vars: seq<(string, JsonValue)>)
    requires forall k :: 0 <= k < |vars| ==> !Contains(data, vars[k].0)
    ensures RewriteAll(data, vars) == data
    decreases |vars|
  {
    if |vars| > 0 {
      AbsentNameKeepsText(data, vars[0].0, Assignment(vars[0].0, vars[0].1));
      AbsentNamesKeepText(data, vars[1..]);
    }
  }

  // ---------------------------------------------------------------------
  // decomposeParDict substitution in prepare_case_files

  /** A template keyword, the decomposition field that replaces it, and
      whether a set field uncomments the template's optional lines. */
  datatype Placeholder = Placeholder(keyword: string, field: string, optional: bool)

  /** The decomposition methods that have a table. */
  const DecompositionMethods: seq<string> := ["simple", "hierarchical", "scotch", "manual"]

  /** The replacement table, per method, in declaration order. */
  function Placeholders(m: string): Option<seq<Placeholder>>
  {
    if m == "simple" then
      Some([Placeholder("{number_of_subdomains}", "subdomains", false),
            Placeholder("{coeffs_n}", "n", false),
            Placeholder("{coeffs_delta}", "delta", false)])
    else if m == "hierarchical" then
      Some([Placeholder("{number_of_subdomains}", "subdomains", false),
            Placeholder("{coeffs_n}", "n", false),
            Placeholder("{coeffs_delta}", "delta", false),
            Placeholder("{coeffs_order}", "order", false)])
    else if m == "scotch" then
      Some([Placeholder("{number_of_subdomains}", "subdomains", false),
            Placeholder("{coeffs_processor_weights}", "processor_weights", true),
            Placeholder("{coeffs_strategy}", "strategy", true)])
    else if m == "manual" then
      Some([Placeholder("{number_of_subdomains}", "subdomains", false),
            Placeholder("{coeffs_datafile}", "datafile", false)])
    else None
  }

  /** Every method has a table whose first entry takes the subdomain count
      from `subdomains`; only scotch has optional entries; no keyword is empty. */
  lemma TableShape(m: string)
    ensures Placeholders(m).Some? <==> m in DecompositionMethods
    ensures Placeholders(m).Some? ==>
              var t := Placeholders(m).value;
              && |t| > 0 && t[0] == Placeholder("{number_of_subdomains}", "subdomains", false)
              && (forall k :: 0 <= k < |t| ==> |t[k].keyword| > 0)
              && (forall k :: 0 <= k < |t| && t[k].optional ==> m == "scotch")
  {
  }

  /** The fields a table needs are there, and optional ones hold text
      (`len` of a number raises TypeError). */
  predicate FieldsFit(entries: seq<Placeholder>, d: map<string, JsonValue>)
  {
    forall k :: 0 <= k < |entries| ==>
      entries[k].field in d && (entries[k].optional ==> d[entries[k].field].JText?)
  }

  /** One template line through every placeholder, in table order: the
      keyword is replaced by the field's text, and an optional field with
      a non-empty value removes every `//` from the line. */
  function FillLine(line: string, entries: seq<Placeholder>, d: map<string, JsonValue>): (r: Result<string>)
    requires forall k :: 0 <= k < |entries| ==> |entries[k].keyword| > 0
    ensures r.Ok? <==> FieldsFit(entries, d)
    ensures r.Err? ==> r.error == KeyError || r.error == TypeError
    decreases |entries|
  {
    if |entries| == 0 then Ok(line)
    else
      var e := entries[0];
      if e.field !in d then Err(KeyError)
      else
        var value := d[e.field];
        var replaced := Replace(line, e.keyword, Str(value));
        if !e.optional then FillLine(replaced, entries[1..], d)
        else
          match value
          case JNumber(_) => Err(TypeError)
          case JText(t) => FillLine(if |t| > 0 then Replace(replaced, "//", "") else replaced, entries[1..], d)
  }

  /** The template, line by line; the table is looked up for every line,
      so an unknown method fails only on a non-empty template. */
  function FillTemplate(lines: seq<string>, table: Option<seq<Placeholder>>, d: map<string, JsonValue>): (r: Result<seq<string>>)
    requires table.Some? ==> forall k :: 0 <= k < |table.value| ==> |table.value[k].keyword| > 0
    ensures r.Ok? ==> |r.value| == |lines|
    ensures r.Ok? <==> |lines| == 0 || (table.Some? && FieldsFit(table.value, d))
    ensures r.Ok? ==> forall k :: 0 <= k < |lines| ==> r.value[k] == FillLine(lines[k], table.value, d).value
    decreases |lines|
  {
    if |lines| == 0 then Ok([])
    else if table.None? then Err(KeyError)
    else
      match FillLine(lines[0], table.value, d)
      case Err(e) => Err(e)
      case Ok(first) =>
        match FillTemplate(lines[1..], table, d)
        case Err(e) => Err(e)
        case Ok(rest) => Ok([first] + rest)
  }

  /** The decomposeParDict step of `prepare_case_files`: nothing happens
      for one core; otherwise the decomposition JSON must be there, name its
      method, and that method's template is filled.  `caseHasDict` is
      whether the case ships a `system/decomposeParDict` to remove, and
      `templates` the method templates that exist, as lines. */
  function DecomposeParDict(cpus: int, decomposition: Option<map<string, JsonValue>>, caseHasDict: bool,
                            templates: map<string, seq<string>>): (r: Result<Option<seq<string>>>)
    ensures cpus <= 1 <==> r == Ok(None)
    ensures cpus > 1 && decomposition.None? <==> r == Err(ValueError)
    ensures r.Ok? && cpus > 1 ==>
              && decomposition.Some? && "decomposition_method" in decomposition.value
              && var m := Str(decomposition.value["decomposition_method"]);
                 m in templates && r.value.Some? && |r.value.value| == |templates[m]|
    ensures r.Ok? && cpus > 1 ==>
              var d := decomposition.value;
              var m := Str(d["decomposition_method"]);
              forall k :: 0 <= k < |r.value.value| ==>
                && Placeholders(m).Some? && FillLine(templates[m][k], Placeholders(m).value, d).Ok?
                && r.value.value[k] == FillLine(templates[m][k], Placeholders(m).value, d).value
    ensures cpus > 1 && decomposition.Some? ==>
              (r.Ok? <==>
                 var d := decomposition.value;
                 && "decomposition_method" in d && caseHasDict
                 && var m := Str(d["decomposition_method"]);
                    && m in templates
                    && (|templates[m]| == 0 || (Placeholders(m).Some? && FieldsFit(Placeholders(m).value, d))))
  {
    if cpus <= 1 then Ok(None)
    else if decomposition.None? then Err(ValueError)
    else
      var d := decomposition.value;
      if "decomposition_method" !in d then Err(KeyError)
      else if !caseHasDict then Err(IoError)
      else
        var m := Str(d["decomposition_method"]);
        if m !in templates then Err(IoError)
        else
          TableShape(m);
          var lines :- FillTemplate(templates[m], Placeholders(m), d);
          Ok(Some(lines))
  }

  /** Once the last entry is optional and set, no `//` is left on the line. */
  lemma {:induction false} LastOptionalUncomments(line: string, entries: seq<Placeholder>, d: map<string, JsonValue>)
    requires forall k :: 0 <= k < |entries| ==> |entries[k].keyword| > 0
    requires |entries| > 0 && FillLine(line, entries, d).Ok?
    requires var last := entries[|entries| - 1];
             last.optional && last.field in d && d[last.field].JText? && |d[last.field].text| > 0
    ensures !Contains(FillLine(line, entries, d).value, "//")
    decreases |entries|
  {
    var e := entries[0];
    var value := d[e.field];
    var replaced := Replace(line, e.keyword, Str(value));
    if |entries| == 1 {
      RemoveSlashesComplete(replaced);
    } else {
      assert entries[1..][|entries| - 2] == entries[|entries| - 1];
      if !e.optional {
        LastOptionalUncomments(replaced, entries[1..], d);
      } else if |value.text| > 0 {
        LastOptionalUncomments(Replace(replaced, "//", ""), entries[1..], d);
      } else {
        LastOptionalUncomments(replaced, entries[1..], d);
      }
    }
  }

  /** With scotch and a non-empty `strategy`, every line of the filled
      template is uncommented, whether or not it holds a placeholder. */
  lemma ScotchStrategyUncommentsEveryLine(cpus: int, d: map<string, JsonValue>, templates: map<string, seq<string>>)
    requires cpus > 1 && "decomposition_method" in d && Str(d["decomposition_method"]) == "scotch"
    requires "strategy" in d && d["strategy"].JText? && |d["strategy"].text| > 0
    requires DecomposeParDict(cpus, Some(d), true, templates).Ok?
    ensures var out := DecomposeParDict(cpus, Some(d), true, templates).value.value;
            forall k :: 0 <= k < |out| ==> !Contains(out[k], "//")
  {
    var table := Placeholders("scotch").value;
    var lines := templates["scotch"];
    assert table[|table| - 1] == Placeholder("{coeffs_strategy}", "strategy", true);
    ScotchLines(lines, table, d);
  }

  lemma {:induction false} ScotchLines(lines: seq<string>, table: seq<Placeholder>, d: map<string, JsonValue>)
    requires forall k :: 0 <= k < |table| ==> |table[k].keyword| > 0
    requires |table| > 0 && table[|table| - 1].optional
    requires table[|table| - 1].field in d && d[table[|table| - 1].field].JText?
    requires |d[table[|table| - 1].field].text| > 0
    requires FillTemplate(lines, Some(table), d).Ok?
    ensures var out := FillTemplate(lines, Some(table), d).value;
            forall k :: 0 <= k < |out| ==> !Contains(out[k], "//")
    decreases |lines|
  {
    if |lines| > 0 {
      LastOptionalUncomments(lines[0], table, d);
      ScotchLines(lines[1..], table, d);
    }
  }

  /** A line holding none of the keywords is copied as it is when no
      optional field is set. */
  lemma {:induction false} PlainLineKept(line: string, entries: seq<Placeholder>, d: map<string, JsonValue>)
    requires forall k :: 0 <= k < |entries| ==> |entries[k].keyword| > 0
    requires FieldsFit(entries, d)
    requires forall k :: 0 <= k < |entries| ==> !Contains(line, entries[k].keyword)
    requires forall k :: 0 <= k < |entries| && entries[k].optional ==> d[entries[k].field] == JText("")
    ensures FillLine(line, entries, d) == Ok(line)
    decreases |entries|
  {
    if |entries| > 0 {
      ReplaceAbsent(line, entries[0].keyword, Str(d[entries[0].field]));
      PlainLineKept(line, entries[1..], d);
    }
  }

  /** A keyword of the shape the tables use: `{name}` with no brace inside. */
  predicate Braced(kw: string)
  {
    && |kw| >= 2 && kw[0] == '{' && kw[|kw| - 1] == '}'
    && forall k :: 0 < k < |kw| - 1 ==> kw[k] != '{' && kw[k] != '}'
  }

  /** The keywords of a table are braced and pairwise distinct. */
  predicate BracedKeywords(entries: seq<Placeholder>)
  {
    && (forall k :: 0 <= k < |entries| ==> Braced(entries[k].keyword))
    && (forall j, k :: 0 <= j < k < |entries| ==> entries[j].keyword != entries[k].keyword)
  }

  /** Every method's table has braced, distinct keywords. */
  lemma TablesBraced(m: string)
    requires Placeholders(m).Some?
    ensures BracedKeywords(Placeholders(m).value)
  {
    if m == "simple" {
      SharedKeywordsBraced();
    } else if m == "hierarchical" {
      SharedKeywordsBraced();
      assert "{coeffs_delta}"[8] != "{coeffs_order}"[8];
    } else {
      OtherKeywordsBraced();
    }
  }

  lemma SharedKeywordsBraced()
    ensures Braced("{number_of_subdomains}") && Braced("{coeffs_n}")
    ensures Braced("{coeffs_delta}") && Braced("{coeffs_order}")
  {
  }

  lemma OtherKeywordsBraced()
    ensures Braced("{number_of_subdomains}") && Braced("{coeffs_processor_weights}")
    ensures Braced("{coeffs_strategy}") && Braced("{coeffs_datafile}")
  {
  }

  /** Text without an opening brace holds no braced keyword. */
  lemma OpenBraceNeeded(s: string, kw: string)
    requires '{' !in s && |kw| > 0 && kw[0] == '{'
    ensures !Contains(s, kw)
  {
    forall j | 0 <= j && j + |kw| <= |s|
      ensures !OccursAt(s, kw, j)
    {
      assert s[j..j + |kw|][0] == s[j];
    }
    var r := FindSub(s, kw);
  }

  /** In `pre + ki + post`, with no opening brace in `pre` or `post`, a braced
      keyword other than `ki` does not occur: it would have to start at `ki`'s
      brace, and its closing brace would then fall inside one of the two. */
  lemma OtherKeywordAbsent(pre: string, ki: string, post: string, kj: string)
    requires Braced(ki) && Braced(kj) && ki != kj
    requires '{' !in pre && '{' !in post
    ensures !Contains(pre + ki + post, kj)
  {
    var s := pre + ki + post;
    forall p | 0 <= p && p + |kj| <= |s|
      ensures !OccursAt(s, kj, p)
    {
      OtherKeywordNotAt(pre, ki, post, kj, p);
    }
    var r := FindSub(s, kj);
  }

  lemma OtherKeywordNotAt(pre: string, ki: string, post: string, kj: string, p: nat)
    requires Braced(ki) && Braced(kj) && ki != kj
    requires '{' !in pre && '{' !in post
    requires p + |kj| <= |pre + ki + post|
    ensures (pre + ki + post)[p..p + |kj|] != kj
  {
    var s := pre + ki + post;
    var w := s[p..p + |kj|];
    var b := |pre|;
    assert w[0] == s[p];
    if p < b {
      assert s[p] == pre[p];
    } else if p >= b + |ki| {
      assert s[p] == post[p - b - |ki|];
    } else if p > b {
      assert s[p] == ki[p - b];
    } else if |kj| < |ki| {
      assert w[|kj| - 1] == ki[|kj| - 1];
    } else if |kj| > |ki| {
      assert w[|ki| - 1] == ki[|ki| - 1];
    } else {
      assert forall x :: 0 <= x < |kj| ==> w[x] == ki[x];
    }
  }

  lemma {:induction false} ReplaceOnce(pre: string, kw: string, post: string, v: string)
    requires Braced(kw) && '{' !in pre && '{' !in post
    ensures Replace(pre + kw + post, kw, v) == pre + v + post
    decreases |pre|
  {
    if |pre| == 0 {
      assert pre + kw + post == kw + post;
      ReplaceAtStart(kw, post, v);
    } else {
      var s := pre + kw + post;
      assert s[0] == pre[0] && s[1..] == pre[1..] + kw + post;
      ReplaceSkips(s, kw, v);
      ReplaceOnce(pre[1..], kw, post, v);
      assert [pre[0]] + (pre[1..] + v + post) == pre + v + post;
    }
  }

  lemma ReplaceAtStart(kw: string, post: string, v: string)
    requires Braced(kw) && '{' !in post
    ensures Replace(kw + post, kw, v) == v + post
  {
    var s := kw + post;
    assert s[..|kw|] == kw && s[|kw|..] == post;
    OpenBraceNeeded(post, kw);
    ReplaceAbsent(post, kw, v);
  }

  /** A first character that cannot start the pattern is copied. */
  lemma ReplaceSkips(s: string, kw: string, v: string)
    requires |s| > 0 && |kw| > 0 && s[0] != kw[0]
    ensures Replace(s, kw, v) == [s[0]] + Replace(s[1..], kw, v)
  {
    if |s| >= |kw| {
      assert s[..|kw|][0] == s[0];
    }
  }

  /** A template line holding one placeholder, with no other opening brace
      in it or in the field's text, comes out with the field's text in the
      placeholder's place, when every optional field is left empty. */
  lemma {:induction false} PlaceholderFilled(pre: string, post: string, entries: seq<Placeholder>,
                                             d: map<string, JsonValue>, i: nat)
    requires i < |entries| && BracedKeywords(entries) && FieldsFit(entries, d)
    requires forall k :: 0 <= k < |entries| && entries[k].optional ==> d[entries[k].field] == JText("")
    requires '{' !in pre && '{' !in post && '{' !in Str(d[entries[i].field])
    ensures FillLine(pre + entries[i].keyword + post, entries, d) == Ok(pre + Str(d[entries[i].field]) + post)
    decreases |entries|
  {
    var e := entries[0];
    var line := pre + entries[i].keyword + post;
    var filled := pre + Str(d[entries[i].field]) + post;
    if i == 0 {
      ReplaceOnce(pre, e.keyword, post, Str(d[e.field]));
      forall k | 0 <= k < |entries| - 1
        ensures !Contains(filled, entries[1..][k].keyword)
      {
        OpenBraceNeeded(filled, entries[k + 1].keyword);
      }
      PlainLineKept(filled, entries[1..], d);
    } else {
      OtherKeywordAbsent(pre, entries[i].keyword, post, e.keyword);
      ReplaceAbsent(line, e.keyword, Str(d[e.field]));
      PlaceholderFilled(pre, post, entries[1..], d, i - 1);
    }
  }

  /** In the written decomposeParDict, a template line holding one of the
      method's placeholders carries the decomposition field's text in its
      place, when no optional field is set. */
  lemma DictLineFilled(cpus: int, d: map<string, JsonValue>, templates: map<string, seq<string>>,
                       k: nat, pre: string, post: string, i: nat)
    requires cpus > 1 && "decomposition_method" in d
    requires var m := Str(d["decomposition_method"]);
             && m in templates && k < |templates[m]| && Placeholders(m).Some? && i < |Placeholders(m).value|
             && templates[m][k] == pre + Placeholders(m).value[i].keyword + post
             && '{' !in pre && '{' !in post
    requires var t := Placeholders(Str(d["decomposition_method"])).value;
             && (forall j :: 0 <= j < |t| && t[j].optional ==> t[j].field in d && d[t[j].field] == JText(""))
             && (t[i].field in d ==> '{' !in Str(d[t[i].field]))
    requires DecomposeParDict(cpus, Some(d), true, templates).Ok?
    ensures var t := Placeholders(Str(d["decomposition_method"])).value;
            DecomposeParDict(cpus, Some(d), true, templates).value.value[k] == pre + Str(d[t[i].field]) + post
  {
    var m := Str(d["decomposition_method"]);
    var t := Placeholders(m).value;
    TablesBraced(m);
    assert FillLine(templates[m][k], t, d).Ok?;
    PlaceholderFilled(pre, post, t, d, i);
  }

  // ---------------------------------------------------------------------
  // copy_case_files_to_nfs_location

  /** Where the scheduler sees an instance's case: `<mount>/<id>/case`. */
  function LocalCaseLocation(mount: string, id: string): string
  {
    mount + "/" + id + "/case"
  }

  /** Where the NFS server exports it: `<nfs folder>/<id>/case`. */
  function NfsCaseLocation(folder: string, id: string): string
  {
    folder + "/" + id + "/case"
  }

  /** The two locations recorded on the instance; nothing else changes. */
  function WithCaseLocations(inst: Instance, mount: string, folder: string): (r: Instance)
    ensures StartsWith(r.localCaseLocation, mount + "/") && EndsWith(r.localCaseLocation, "/" + inst.id + "/case")
    ensures StartsWith(r.nfsCaseLocation, folder + "/") && EndsWith(r.nfsCaseLocation, "/" + inst.id + "/case")
    ensures r.(localCaseLocation := inst.localCaseLocation, nfsCaseLocation := inst.nfsCaseLocation) == inst
  {
    var local := LocalCaseLocation(mount, inst.id);
    var nfs := NfsCaseLocation(folder, inst.id);
    assert local == (mount + "/") + (inst.id + "/case") && local == mount + ("/" + inst.id + "/case");
    assert nfs == (folder + "/") + (inst.id + "/case") && nfs == folder + ("/" + inst.id + "/case");
    inst.(localCaseLocation := local, nfsCaseLocation := nfs)
  }

  /** Both locations name the same case below their own root, so what the
      scheduler writes under the mount is what the VM reads over NFS. */
  lemma SameCaseBelowBothRoots(mount: string, folder: string, id: string)
    ensures LocalCaseLocation(mount, id)[|mount|..] == NfsCaseLocation(folder, id)[|folder|..]
    ensures LocalCaseLocation(mount, id)[|mount|..] == "/" + id + "/case"
  {
    assert LocalCaseLocation(mount, id) == mount + ("/" + id + "/case");
    assert NfsCaseLocation(folder, id) == folder + ("/" + id + "/case");
  }
}

=== FILE: common.dfy ===
/** Shared vocabulary of the model: optional and failing results, and the
    handful of Python string operations the scheduler and the OSv helpers
    rely on (`find`, `rfind`, `replace`, `strip`, `split`, `int()`, `%d`). */
module Common {

  datatype Option<+T> = None | Some(value: T)

  /** The Python exceptions the modelled code raises or catches.  The model
      only needs to know that an exception happened and, loosely, why. */
  datatype Error =
    | KeyError        // dict or table lookup of a missing key
    | ValueError      // malformed text given to int() or to tuple unpacking
    | IndexError      // list index out of range
    | TypeError       // len() of a number, filtering None
    | FieldError      // ORM filter on a field the model does not have
    | IoError         // file missing or unreadable
    | RemoteError     // a call into a cloud SDK, the VM REST API or the metrics service failed

  datatype Result<+T> = Ok(value: T) | Err(error: Error) {
    predicate IsFailure() { Err? }

    function PropagateFailure<U>(): Result<U>
      requires Err?
    {
      Err(error)
    }

    function Extract(): T
      requires Ok?
    {
      value
    }
  }

  function Min(a: int, b: int): int { if a <= b then a else b }

  // ---------------------------------------------------------------------
  // Prefixes, suffixes and occurrences

  predicate StartsWith(s: string, p: string) { |p| <= |s| && s[..|p|] == p }

  predicate EndsWith(s: string, p: string) { |p| <= |s| && s[|s| - |p|..] == p }

  /** A concatenation starts with its first part and ends with its second. */
  lemma Affixes(a: string, b: string)
    ensures StartsWith(a + b, a) && EndsWith(a + b, b)
  {
    assert (a + b)[..|a|] == a && (a + b)[|a|..] == b;
  }

  lemma EndsWithTrans(s: string, x: string, y: string)
    requires EndsWith(s, x) && EndsWith(x, y)
    ensures EndsWith(s, y)
  {
    assert s[|s| - |y|..] == s[|s| - |x|..][|x| - |y|..];
  }

  /** `p` occurs in `s` starting at index `j`. */
  predicate OccursAt(s: string, p: string, j: int)
  {
    0 <= j && j + |p| <= |s| && s[j..j + |p|] == p
  }

  /** Python's `p in s` for strings. */
  predicate Contains(s: string, p: string)
    decreases |s|
  {
    StartsWith(s, p) || (|s| > 0 && Contains(s[1..], p))
  }

  /** Python's `s.find(p)`: the first index where `p` occurs, or -1. */
  function FindSub(s: string, p: string): (r: int)
    ensures -1 <= r <= |s| - |p| || r == -1
    ensures r >= 0 <==> Contains(s, p)
    ensures r >= 0 ==> OccursAt(s, p, r)
    ensures r >= 0 ==> forall j :: 0 <= j < r ==> !OccursAt(s, p, j)
    decreases |s|
  {
    if StartsWith(s, p) then 0
    else if |s| == 0 then -1
    else
      var r := FindSub(s[1..], p);
      if r < 0 then -1
      else
        assert forall j :: 1 <= j < r + 1 ==> OccursAt(s, p, j) == OccursAt(s[1..], p, j - 1);
        r + 1
  }

  lemma FindSubZeroIsPrefix(s: string, p: string)
    ensures FindSub(s, p) == 0 <==> StartsWith(s, p)
  {
  }

  /** Python's `s.find(c)` for a single character. */
  function Find(s: string, c: char): (r: int)
    ensures -1 <= r < |s|
    ensures r >= 0 ==> s[r] == c
    ensures forall j :: 0 <= j < |s| && (r < 0 || j < r) ==> s[j] != c
    decreases |s|
  {
    if |s| == 0 then -1
    else if s[0] == c then 0
    else
      var r := Find(s[1..], c);
      if r < 0 then -1 else r + 1
  }

  /** Python's `s.rfind(c)`: the last index of `c`, or -1. */
  function RFind(s: string, c: char): (r: int)
    ensures -1 <= r < |s|
    ensures r >= 0 ==> s[r] == c
    ensures forall j :: r < j < |s| ==> s[j] != c
    decreases |s|
  {
    if |s| == 0 then -1
    else if s[|s| - 1] == c then |s| - 1
    else RFind(s[..|s| - 1], c)
  }

  /** Python slice `s[:k]` for a possibly negative `k` (counted from the end). */
  function SliceTo(s: string, k: int): (r: string)
    ensures |r| <= |s|
    ensures 0 <= k <= |s| ==> r == s[..k]
    ensures k < 0 && -k <= |s| ==> r == s[..|s| + k]
  {
    if k >= 0 then (if k <= |s| then s[..k] else s)
    else if -k <= |s| then s[..|s| + k]
    else []
  }

  // ---------------------------------------------------------------------
  // str.replace

  /** Python's `s.replace(pat, rep)` for a non-empty pattern: every
      non-overlapping occurrence, scanning from the left, is replaced. */
  function Replace(s: string, pat: string, rep: string): string
    requires |pat| > 0
    decreases |s|
  {
    if |s| < |pat| then s
    else if s[..|pat|] == pat then rep + Replace(s[|pat|..], pat, rep)
    else [s[0]] + Replace(s[1..], pat, rep)
  }

  lemma {:induction false} ReplaceAbsent(s: string, pat: string, rep: string)
    requires |pat| > 0
    requires !Contains(s, pat)
    ensures Replace(s, pat, rep) == s
    decreases |s|
  {
    if |s| < |pat| {
    } else {
      assert !StartsWith(s, pat);
      ReplaceAbsent(s[1..], pat, rep);
    }
  }

  /** An occurrence anywhere makes `p in s` true. */
  lemma {:induction false} OccursContains(s: string, p: string, j: int)
    ensures OccursAt(s, p, j) ==> Contains(s, p)
    decreases |s|
  {
    if OccursAt(s, p, j) && j > 0 {
      assert s[1..][j - 1..j - 1 + |p|] == s[j..j + |p|];
      OccursContains(s[1..], p, j - 1);
    }
  }

  /** What a suffix contains, the whole text contains. */
  lemma {:induction false} ContainsSuffix(s: string, p: string, j: nat)
    requires j <= |s|
    ensures Contains(s[j..], p) ==> Contains(s, p)
    decreases j
  {
    if j > 0 {
      assert s[j..] == s[1..][j - 1..];
      ContainsSuffix(s[1..], p, j - 1);
    }
  }

  lemma ContainsCons(c: char, t: string, p: string)
    ensures Contains([c] + t, p) <==> StartsWith([c] + t, p) || Contains(t, p)
  {
    assert ([c] + t)[1..] == t;
  }

  /** Removing `//` with `replace("//", "")` leaves a text whose first
      character is a slash only if the text itself starts with a single one. */
  lemma {:induction false} RemoveSlashesHead(s: string)
    requires |s| == 0 || s[0] != '/'
    ensures var r := Replace(s, "//", ""); |r| == 0 || r[0] != '/'
  {
    if |s| >= 2 {
      assert s[..2] != "//";
    }
  }

  /** After `replace("//", "")` no `//` is left. */
  lemma {:induction false} RemoveSlashesComplete(s: string)
    ensures !Contains(Replace(s, "//", ""), "//")
    decreases |s|
  {
    var r := Replace(s, "//", "");
    if |s| < 2 {
      assert r == s;
      if |s| == 1 { ContainsCons(s[0], [], "//"); }
    } else if s[..2] == "//" {
      RemoveSlashesComplete(s[2..]);
      assert r == Replace(s[2..], "//", "");
    } else {
      var t := s[1..];
      var rt := Replace(t, "//", "");
      assert r == [s[0]] + rt;
      RemoveSlashesComplete(t);
      ContainsCons(s[0], rt, "//");
      if s[0] == '/' {
        assert t[0] != '/';
        RemoveSlashesHead(t);
      }
      assert !StartsWith([s[0]] + rt, "//");
    }
  }

  // ---------------------------------------------------------------------
  // str.strip with a set of characters

  /** Python's `s.lstrip(chars)`. */
  function LStrip(s: string, cs: set<char>): (r: string)
    ensures |r| <= |s| && r == s[|s| - |r|..]
    ensures |r| > 0 ==> r[0] !in cs
    ensures forall i :: 0 <= i < |s| - |r| ==> s[i] in cs
    decreases |s|
  {
    if |s| > 0 && s[0] in cs then LStrip(s[1..], cs) else s
  }

  /** Python's `s.rstrip(chars)`. */
  function RStrip(s: string, cs: set<char>): (r: string)
    ensures |r| <= |s| && r == s[..|r|]
    ensures |r| > 0 ==> r[|r| - 1] !in cs
    ensures forall i :: |r| <= i < |s| ==> s[i] in cs
    decreases |s|
  {
    if |s| > 0 && s[|s| - 1] in cs then RStrip(s[..|s| - 1], cs) else s
  }

  /** Python's `s.strip(chars)`. */
  function Strip(s: string, cs: set<char>): string
  {
    RStrip(LStrip(s, cs), cs)
  }

  /** Stripping a text already free of the characters at both ends is the identity. */
  lemma StripClean(s: string, cs: set<char>)
    requires |s| > 0 ==> s[0] !in cs && s[|s| - 1] !in cs
    ensures Strip(s, cs) == s
  {
  }

  /** Stripping quotes undoes any number of surrounding quotes. */
  lemma {:induction false} StripSurrounded(v: string, cs: set<char>, pre: string, post: string)
    requires |v| > 0 ==> v[0] !in cs && v[|v| - 1] !in cs
    requires forall i :: 0 <= i < |pre| ==> pre[i] in cs
    requires forall i :: 0 <= i < |post| ==> post[i] in cs
    requires |v| > 0
    ensures Strip(pre + v + post, cs) == v
    decreases |pre| + |post|
  {
    var s := pre + v + post;
    if |pre| > 0 {
      assert s[0] == pre[0];
      StripDropFirst(s, cs);
      assert s[1..] == pre[1..] + v + post;
      StripSurrounded(v, cs, pre[1..], post);
    } else {
      assert s == v + post;
      StripTrailing(v, cs, post);
    }
  }

  lemma {:induction false} StripTrailing(v: string, cs: set<char>, post: string)
    requires |v| > 0 && v[0] !in cs && v[|v| - 1] !in cs
    requires forall i :: 0 <= i < |post| ==> post[i] in cs
    ensures Strip(v + post, cs) == v
    decreases |post|
  {
    if |post| > 0 {
      StripTrailing(v, cs, post[..|post| - 1]);
      StripLastOfTrailing(v, cs, post);
    } else {
      assert v + post == v;
      StripClean(v, cs);
    }
  }

  lemma StripLastOfTrailing(v: string, cs: set<char>, post: string)
    requires |v| > 0 && v[0] !in cs && |post| > 0 && post[|post| - 1] in cs
    ensures Strip(v + post, cs) == Strip(v + post[..|post| - 1], cs)
  {
    var s := v + post;
    assert s[0] == v[0] && s[|s| - 1] == post[|post| - 1];
    DropLastOfConcat(v, post);
    StripDropLast(s, v + post[..|post| - 1], cs);
  }

  lemma DropLastOfConcat(a: string, b: string)
    requires |b| > 0
    ensures (a + b)[..|a + b| - 1] == a + b[..|b| - 1]
  {
  }

  /** A stripped character at the front goes. */
  lemma StripDropFirst(s: string, cs: set<char>)
    requires |s| > 0 && s[0] in cs
    ensures Strip(s, cs) == Strip(s[1..], cs)
  {
  }

  /** A stripped character at the back goes, once the front is clean. */
  lemma StripDropLast(s: string, t: string, cs: set<char>)
    requires |s| > 1 && s[0] !in cs && s[|s| - 1] in cs && t == s[..|s| - 1]
    ensures Strip(s, cs) == Strip(t, cs)
  {
    assert t[0] == s[0];
    assert LStrip(s, cs) == s && LStrip(t, cs) == t;
  }


  // ---------------------------------------------------------------------
  // str.split with an explicit separator, and its inverse

  /** Python's `s.split(sep)` for a non-empty separator: consecutive
      separators produce empty fields, and there is always at least one field. */
  function Split(s: string, sep: string): (parts: seq<string>)
    requires |sep| > 0
    ensures |parts| >= 1
    ensures |parts| == 1 <==> !Contains(s, sep)
    decreases |s|
  {
    var i := FindSub(s, sep);
    if i < 0 then [s]
    else [s[..i]] + Split(s[i + |sep|..], sep)
  }

  /** `sep.join(parts)`. */
  function Join(parts: seq<string>, sep: string): string
    decreases |parts|
  {
    if |parts| == 0 then ""
    else if |parts| == 1 then parts[0]
    else parts[0] + sep + Join(parts[1..], sep)
  }

  /** Splitting and joining again with the same separator gives back the text. */
  lemma {:induction false} JoinSplit(s: string, sep: string)
    requires |sep| > 0
    ensures Join(Split(s, sep), sep) == s
    decreases |s|
  {
    var i := FindSub(s, sep);
    if i >= 0 {
      var rest := s[i + |sep|..];
      var tail := Split(rest, sep);
      assert Split(s, sep) == [s[..i]] + tail;
      JoinSplit(rest, sep);
      JoinCons(s[..i], tail, sep);
      SplitAround(s, sep, i);
      calc {
        Join(Split(s, sep), sep);
        s[..i] + sep + Join(tail, sep);
        s[..i] + sep + rest;
        s;
      }
    } else {
      assert Split(s, sep) == [s];
    }
  }

  lemma JoinCons(head: string, tail: seq<string>, sep: string)
    requires |tail| > 0
    ensures Join([head] + tail, sep) == head + sep + Join(tail, sep)
  {
    assert ([head] + tail)[1..] == tail;
  }

  /** A text is what comes before an occurrence, the occurrence, and what follows. */
  lemma SplitAround(s: string, sep: string, i: nat)
    requires OccursAt(s, sep, i)
    ensures s == s[..i] + sep + s[i + |sep|..]
  {
    assert s == s[..i] + s[i..i + |sep|] + s[i + |sep|..];
  }


  /** No field produced by `split` contains the separator. */
  lemma {:induction false} SplitFieldsClean(s: string, sep: string)
    requires |sep| > 0
    ensures forall k :: 0 <= k < |Split(s, sep)| ==> !Contains(Split(s, sep)[k], sep)
    decreases |s|
  {
    var i := FindSub(s, sep);
    if i >= 0 {
      SplitFieldsClean(s[i + |sep|..], sep);
      PrefixBeforeFirstClean(s, sep, i);
    }
  }

  /** The text before the first occurrence of `p` does not contain `p`. */
  lemma {:induction false} PrefixBeforeFirstClean(s: string, p: string, i: int)
    requires 0 <= i <= |s|
    requires forall j :: 0 <= j < i ==> !OccursAt(s, p, j)
    requires |p| > 0
    ensures !Contains(s[..i], p)
    decreases i
  {
    if i > 0 {
      assert !OccursAt(s, p, 0);
      assert !StartsWith(s[..i], p);
      forall j | 0 <= j < i - 1
        ensures !OccursAt(s[1..], p, j)
      {
        assert !OccursAt(s, p, j + 1);
      }
      PrefixBeforeFirstClean(s[1..], p, i - 1);
      assert s[..i][1..] == s[1..][..i - 1];
    }
  }

  // ---------------------------------------------------------------------
  // Decimal text: `%d` and `int()`

  function DigitChar(d: nat): char
    requires d < 10
  {
    "0123456789"[d]
  }

  predicate IsDigit(c: char) { '0' <= c <= '9' }

  function DigitValue(c: char): nat
    requires IsDigit(c)
  {
    (c as int - '0' as int) as nat
  }

  /** `'%d' % n` for a natural number. */
  function NatToString(n: nat): (s: string)
    ensures |s| > 0
    ensures forall i :: 0 <= i < |s| ==> IsDigit(s[i])
    decreases n
  {
    if n < 10 then [DigitChar(n)] else NatToString(n / 10) + [DigitChar(n % 10)]
  }

  /** `'%d' % n` (and `str(n)`) for any integer. */
  function IntToString(n: int): string
  {
    if n < 0 then "-" + NatToString(-n) else NatToString(n)
  }

  predicate AllDigits(s: string) { forall i :: 0 <= i < |s| ==> IsDigit(s[i]) }

  /** Value of a non-empty run of decimal digits. */
  function DigitsValue(s: string): nat
    requires AllDigits(s)
    decreases |s|
  {
    if |s| == 0 then 0 else DigitsValue(s[..|s| - 1]) * 10 + DigitValue(s[|s| - 1])
  }

  /** The whitespace Python's `int()` tolerates around a number. */
  const Whitespace: set<char> := {' ', '\t', '\n', '\r', '\U{B}', '\U{C}'}

  /** Python's `int(s)` on text: surrounding whitespace, an optional sign and
      at least one decimal digit; anything else is a ValueError. */
  function ParseInt(s: string): (r: Result<int>)
    ensures r.Ok? ==> var t := Strip(s, Whitespace); |t| > 0
  {
    var t := Strip(s, Whitespace);
    if |t| > 0 && (t[0] == '-' || t[0] == '+') then
      var digits := t[1..];
      if |digits| > 0 && AllDigits(digits) then
        var v: int := DigitsValue(digits);
        Ok(if t[0] == '-' then -v else v)
      else Err(ValueError)
    else if |t| > 0 && AllDigits(t) then Ok(DigitsValue(t))
    else Err(ValueError)
  }

  lemma {:induction false} DigitsOfNat(n: nat)
    ensures DigitsValue(NatToString(n)) == n
    decreases n
  {
    var s := NatToString(n);
    if n >= 10 {
      DigitsOfNat(n / 10);
      assert s[..|s| - 1] == NatToString(n / 10);
    }
  }

  /** `int('%d' % n) == n`: formatting and parsing a number are inverse. */
  lemma ParseIntToString(n: int)
    ensures ParseInt(IntToString(n)) == Ok(n)
  {
    if n < 0 {
      ParseNegativeToString(n);
    } else {
      DigitsOfNat(n);
      ParseDigits(NatToString(n));
    }
  }

  lemma ParseNegativeToString(n: int)
    requires n < 0
    ensures ParseInt(IntToString(n)) == Ok(n)
  {
    var s := IntToString(n);
    NegativeText(n);
    DigitIsNoSpace(s[|s| - 1]);
    ParseMinusText(s);
  }

  /** The text of a negative number is a minus sign and the digits of its
      magnitude. */
  lemma NegativeText(n: int)
    requires n < 0
    ensures var s := IntToString(n);
            |s| > 1 && s[0] == '-' && AllDigits(s[1..]) && IsDigit(s[|s| - 1]) && DigitsValue(s[1..]) == -n
  {
    DigitsOfNat(-n);
    MinusThenDigits(NatToString(-n), -n);
  }

  lemma MinusThenDigits(t: string, m: nat)
    requires |t| > 0 && AllDigits(t) && DigitsValue(t) == m
    ensures var s := "-" + t;
            |s| > 1 && s[0] == '-' && AllDigits(s[1..]) && IsDigit(s[|s| - 1]) && DigitsValue(s[1..]) == m
  {
    var s := "-" + t;
    assert s[1..] == t;
    assert s[|s| - 1] == t[|t| - 1];
  }

  /** A bare run of digits parses to its value. */
  lemma ParseDigits(t: string)
    requires |t| > 0 && AllDigits(t)
    ensures ParseInt(t) == Ok(DigitsValue(t))
  {
    DigitIsNoSpace(t[0]);
    DigitIsNoSpace(t[|t| - 1]);
    StripClean(t, Whitespace);
  }

  lemma DigitIsNoSpace(c: char)
    requires IsDigit(c)
    ensures c !in Whitespace && c != '-' && c != '+'
  {
  }

  /** A minus sign and a run of digits parse to the negated value. */
  lemma ParseMinusText(s: string)
    requires |s| > 1 && s[0] == '-' && s[|s| - 1] !in Whitespace && AllDigits(s[1..])
    ensures ParseInt(s) == Ok(-(DigitsValue(s[1..]) as int))
  {
    StripClean(s, Whitespace);
  }

  // ---------------------------------------------------------------------
  // Paths

  /** Python's `os.path.join(a, b)` for two components. */
  function PathJoin(a: string, b: string): (r: string)
    ensures StartsWith(b, "/") ==> r == b
    ensures !StartsWith(b, "/") ==> EndsWith(r, b) && StartsWith(r, a)
  {
    if StartsWith(b, "/") then b
    else if a == [] || EndsWith(a, "/") then a + b
    else a + "/" + b
  }

  /** Distinct file names that are not absolute join to distinct paths. */
  lemma PathJoinInjective(a: string, b1: string, b2: string)
    requires !StartsWith(b1, "/") && !StartsWith(b2, "/")
    requires PathJoin(a, b1) == PathJoin(a, b2)
    ensures b1 == b2
  {
    var pre := if a == [] || EndsWith(a, "/") then a else a + "/";
    assert PathJoin(a, b1) == pre + b1 && PathJoin(a, b2) == pre + b2;
    assert b1 == (pre + b1)[|pre|..] && b2 == (pre + b2)[|pre|..];
  }

  // ---------------------------------------------------------------------
  // Order-preserving filters

  /** `xs` is an order-preserving merge of `a` and `b`: each element of `xs`
      is taken from the front of exactly one of them. */
  predicate Interleaves<T(==)>(xs: seq<T>, a: seq<T>, b: seq<T>)
    decreases |xs|
  {
    if |xs| == 0 then a == [] && b == []
    else
      || (|a| > 0 && a[0] == xs[0] && Interleaves(xs[1..], a[1..], b))
      || (|b| > 0 && b[0] == xs[0] && Interleaves(xs[1..], a, b[1..]))
  }

  /** `a` is `xs` with some elements left out and the rest in their order. */
  predicate IsSubsequence<T(==)>(a: seq<T>, xs: seq<T>)
    decreases |xs|
  {
    if |a| == 0 then true
    else if |xs| == 0 then false
    else (a[0] == xs[0] && IsSubsequence(a[1..], xs[1..])) || IsSubsequence(a, xs[1..])
  }

  /** An interleaving splits its input without losing or duplicating anything. */
  lemma {:induction false} InterleavesPartition<T>(xs: seq<T>, a: seq<T>, b: seq<T>)
    requires Interleaves(xs, a, b)
    ensures |xs| == |a| + |b|
    ensures multiset(xs) == multiset(a) + multiset(b)
    ensures IsSubsequence(a, xs) && IsSubsequence(b, xs)
    decreases |xs|
  {
    if |xs| > 0 {
      if |a| > 0 && a[0] == xs[0] && Interleaves(xs[1..], a[1..], b) {
        InterleavesPartition(xs[1..], a[1..], b);
        assert xs == [xs[0]] + xs[1..] && a == [a[0]] + a[1..];
        SubsequenceDrop(b, xs);
      } else {
        InterleavesPartition(xs[1..], a, b[1..]);
        assert xs == [xs[0]] + xs[1..] && b == [b[0]] + b[1..];
        SubsequenceDrop(a, xs);
      }
    }
  }

  /** Leaving out the head of the longer sequence keeps a subsequence a subsequence. */
  lemma SubsequenceDrop<T>(a: seq<T>, xs: seq<T>)
    requires |xs| > 0 && IsSubsequence(a, xs[1..])
    ensures IsSubsequence(a, xs)
  {
  }

  /** Elements of a subsequence are elements of the whole. */
  lemma {:induction false} SubsequenceMembers<T>(a: seq<T>, xs: seq<T>)
    requires IsSubsequence(a, xs)
    ensures forall x :: x in a ==> x in xs
    decreases |xs|
  {
    if |a| > 0 {
      if a[0] == xs[0] && IsSubsequence(a[1..], xs[1..]) {
        SubsequenceMembers(a[1..], xs[1..]);
        assert a == [a[0]] + a[1..];
      } else {
        SubsequenceMembers(a, xs[1..]);
      }
    }
  }
}

=== FILE: lifecycle.dfy ===
/** The instance lifecycle helpers the scheduler passes call: creating the
    instances of a simulation, launching one PENDING instance on the first
    provider that admits it, the launch-failure handler with its retry
    counter and cascading simulation failure, bulk status updates and the
    test for a finished solver thread.  Every answer from a provider, the
    object store, capstan or a VM is a parameter. */
module Lifecycle {
  import opened Common
  import opened Models
  import Capstan
  import CaseUtils
  import Provider

  // ---------------------------------------------------------------------
  // create_simulation

  /** The cases a simulation is created with: a blank `cases` column
      becomes one case named after the simulation, with no updates. */
  function EffectiveCases(sim: Simulation): (cs: seq<Case>)
    ensures sim.cases.CaseList? ==> cs == sim.cases.cases
  {
    match sim.cases
    case BlankCases => [Case(sim.simulationName, [])]
    case CaseList(cases) => cases
  }

  /** `create_simulation`: the stored simulation, whose blank `cases` is
      replaced by the default, and one new instance per case, in case order,
      named `<simulation name>-<case name>` and configured with that case's
      updates.  `ids` supplies the fresh primary keys. */
  function CreateSimulation(sim: Simulation, ids: nat -> string): (r: (Simulation, seq<Instance>))
    ensures r.0.cases.CaseList? && r.0.(cases := sim.cases) == sim
    ensures sim.cases.CaseList? ==> r.0 == sim
    ensures |r.1| == |r.0.cases.cases|
    ensures forall k :: 0 <= k < |r.1| ==>
              && r.1[k].name == sim.simulationName + "-" + r.0.cases.cases[k].name
              && r.1[k].config == r.0.cases.cases[k].updates
              && r.1[k].simulation == sim.id && r.1[k].id == ids(k)
              && r.1[k].status == Pending && r.1[k].retryAttempts == 0 && !Multicore(r.1[k])
  {
    var cases := EffectiveCases(sim);
    var stored := sim.(cases := CaseList(cases));
    var created := seq(|cases|, k requires 0 <= k < |cases| =>
                       NewInstance(ids(k), sim.simulationName + "-" + cases[k].name, cases[k].updates, sim.id));
    assert forall k :: 0 <= k < |created| ==>
             created[k] == NewInstance(ids(k), sim.simulationName + "-" + cases[k].name, cases[k].updates, sim.id);
    (stored, created)
  }

  /** A simulation created without cases runs exactly one instance, named
      after the simulation twice, with no updates. */
  lemma BlankCasesRunOnce(sim: Simulation, ids: nat -> string)
    requires sim.cases.BlankCases?
    ensures var r := CreateSimulation(sim, ids);
            && |r.1| == 1
            && r.1[0].name == sim.simulationName + "-" + sim.simulationName
            && r.1[0].config == []
  {
    var r := CreateSimulation(sim, ids);
    assert r.0.cases.cases == [Case(sim.simulationName, [])];
  }

  /** An explicit empty case list is not blank: it creates no instance. */
  lemma EmptyCaseListRunsNothing(sim: Simulation, ids: nat -> string)
    requires sim.cases == CaseList([])
    ensures CreateSimulation(sim, ids).1 == []
  {
  }

  /** Instance names tell cases apart: the case name is what follows the
      simulation name and the dash, so cases with different names get
      instances with different names. */
  lemma InstanceNamesKeepCaseNames(sim: Simulation, ids: nat -> string, i: int, j: int)
    requires var r := CreateSimulation(sim, ids); 0 <= i < |r.1| && 0 <= j < |r.1|
    ensures var r := CreateSimulation(sim, ids);
            && r.1[i].name[|sim.simulationName| + 1..] == r.0.cases.cases[i].name
            && (r.0.cases.cases[i].name != r.0.cases.cases[j].name ==> r.1[i].name != r.1[j].name)
  {
    var r := CreateSimulation(sim, ids);
    var prefix := sim.simulationName + "-";
    assert r.1[i].name == prefix + r.0.cases.cases[i].name;
    assert r.1[j].name == prefix + r.0.cases.cases[j].name;
    assert r.1[i].name[|prefix|..] == r.0.cases.cases[i].name;
    assert r.1[j].name[|prefix|..] == r.0.cases.cases[j].name;
  }

  // ---------------------------------------------------------------------
  // update_instance_status

  /** The instance ids a list of instances names. */
  predicate Listed(xs: seq<Instance>, id: string)
  {
    exists x :: x in xs && x.id == id
  }

  /** `update_instance_status`: every stored row whose id is listed takes the
      status; no other row and no other column changes. */
  function UpdateInstanceStatus(db: seq<Instance>, xs: seq<Instance>, status: InstanceStatus): (r: seq<Instance>)
    ensures |r| == |db|
    ensures forall k :: 0 <= k < |db| ==> r[k].(status := db[k].status) == db[k]
    ensures forall k :: 0 <= k < |db| && Listed(xs, db[k].id) ==> r[k].status == status
    ensures forall k :: 0 <= k < |db| && !Listed(xs, db[k].id) ==> r[k] == db[k]
    decreases |db|
  {
    if |db| == 0 then []
    else
      var head := if Listed(xs, db[0].id) then db[0].(status := status) else db[0];
      var rest := UpdateInstanceStatus(db[1..], xs, status);
      assert forall k :: 1 <= k < |db| ==> ([head] + rest)[k] == rest[k - 1] && db[1..][k - 1] == db[k];
      [head] + rest
  }

  /** Two updates of the same rows: the later status is the one kept. */
  lemma UpdateLaterStatusWins(db: seq<Instance>, xs: seq<Instance>, first: InstanceStatus, second: InstanceStatus)
    ensures UpdateInstanceStatus(UpdateInstanceStatus(db, xs, first), xs, second)
            == UpdateInstanceStatus(db, xs, second)
  {
    var once := UpdateInstanceStatus(db, xs, first);
    var twice := UpdateInstanceStatus(once, xs, second);
    var direct := UpdateInstanceStatus(db, xs, second);
    forall k | 0 <= k < |db|
      ensures twice[k] == direct[k]
    {
      assert once[k].id == db[k].id;
    }
  }

  /** After an update only rows that already had the status or were listed
      have it, and every row keeps its id. */
  lemma UpdateSelectsListed(db: seq<Instance>, xs: seq<Instance>, status: InstanceStatus, k: int)
    requires 0 <= k < |db|
    ensures var r := UpdateInstanceStatus(db, xs, status);
            r[k].id == db[k].id && (r[k].status == status <==> Listed(xs, db[k].id) || db[k].status == status)
  {
  }

  // ---------------------------------------------------------------------
  // The solver thread test

  /** A thread as the VM's thread listing reports it. */
  datatype OsvThread = OsvThread(id: int, status: string)

  /** The threads carrying the recorded thread id, in listing order.  A
      missing thread id (null) matches no thread. */
  function Matching(threads: seq<OsvThread>, threadId: Option<int>): (m: seq<OsvThread>)
    ensures |m| == 0 <==> forall k :: 0 <= k < |threads| ==> Some(threads[k].id) != threadId
    ensures |m| > 0 ==> exists k :: 0 <= k < |threads| && m[0] == threads[k] && Some(threads[k].id) == threadId
                                    && forall j :: 0 <= j < k ==> Some(threads[j].id) != threadId
    decreases |threads|
  {
    if |threads| == 0 then []
    else
      var rest := Matching(threads[1..], threadId);
      if Some(threads[0].id) == threadId then [threads[0]] + rest
      else
        assert forall k :: 1 <= k < |threads| ==> threads[1..][k - 1] == threads[k];
        rest
  }

  /** The first thread carrying the id is terminated, or there is none. */
  predicate FirstMatchTerminated(threads: seq<OsvThread>, threadId: Option<int>)
  {
    forall k :: 0 <= k < |threads| && Some(threads[k].id) == threadId
                && (forall j :: 0 <= j < k ==> Some(threads[j].id) != threadId)
                ==> threads[k].status == "terminated"
  }

  /** `__is_openfoam_thread_finished`.  `threads` is None when the thread
      listing could not be fetched or read; filtering the missing list then
      raises TypeError. */
  function IsThreadFinished(threads: Option<seq<OsvThread>>, threadId: Option<int>): (r: Result<bool>)
    ensures r.Err? <==> threads.None?
    ensures r.Ok? ==> (r.value <==> FirstMatchTerminated(threads.value, threadId))
  {
    match threads
    case None => Err(TypeError)
    case Some(ts) =>
      var m := Matching(ts, threadId);
      if |m| == 0 then Ok(true) else Ok(m[0].status == "terminated")
  }

  /** A VM whose solver thread has left the listing counts as finished. */
  lemma VanishedThreadIsFinished(threads: seq<OsvThread>, threadId: Option<int>)
    requires forall k :: 0 <= k < |threads| ==> Some(threads[k].id) != threadId
    ensures IsThreadFinished(Some(threads), threadId) == Ok(true)
    ensures IsThreadFinished(Some(threads), None) == Ok(true)
  {
    assert |Matching(threads, None)| == 0;
  }

  /** `get_instances_with_finished_openfoam_thread`: the instances whose
      thread is finished, in input order.  `threadsAt` gives the thread
      listing of the VM at an address; an instance whose test raises is left
      out. */
  function FinishedInstances(xs: seq<Instance>, threadsAt: string -> Option<seq<OsvThread>>): (r: seq<Instance>)
    ensures IsSubsequence(r, xs)
    ensures forall x :: x in r <==> x in xs && IsThreadFinished(threadsAt(x.ip), x.threadId) == Ok(true)
    decreases |xs|
  {
    if |xs| == 0 then []
    else
      var rest := FinishedInstances(xs[1..], threadsAt);
      assert forall x :: x in xs <==> x == xs[0] || x in xs[1..];
      if IsThreadFinished(threadsAt(xs[0].ip), xs[0].threadId) == Ok(true) then
        assert ([xs[0]] + rest)[1..] == rest;
        [xs[0]] + rest
      else rest
  }

  // ---------------------------------------------------------------------
  // __handle_launch_instance_exception

  /** The handler's verdict on the instance in memory: one more attempt is
      counted; the instance goes back to PENDING while attempts remain and
      to FAILED once they are used up.  Nothing else changes. */
  function RetryOrFail(inst: Instance, maxRetries: int): (r: Instance)
    ensures r.retryAttempts == inst.retryAttempts + 1
    ensures r.status == Pending <==> r.retryAttempts < maxRetries
    ensures r.status == Failed <==> r.retryAttempts >= maxRetries
    ensures r.(retryAttempts := inst.retryAttempts, status := inst.status) == inst
  {
    var counted := inst.(retryAttempts := inst.retryAttempts + 1);
    if counted.retryAttempts < maxRetries then counted.(status := Pending)
    else counted.(status := Failed)
  }

  /** An instance whose launches keep failing, `n` times in a row. */
  function FailedLaunches(inst: Instance, maxRetries: int, n: nat): Instance
    decreases n
  {
    if n == 0 then inst else RetryOrFail(FailedLaunches(inst, maxRetries, n - 1), maxRetries)
  }

  /** The retry bound: a new instance is relaunched while fewer than
      `maxRetries` launches have failed, and is FAILED from the
      `maxRetries`-th failure on (from the first, when the bound is below 1). */
  lemma {:induction false} RetriesRunOut(inst: Instance, maxRetries: int, n: nat)
    requires inst.retryAttempts == 0
    ensures FailedLaunches(inst, maxRetries, n).retryAttempts == n
    ensures n > 0 ==> (FailedLaunches(inst, maxRetries, n).status == Pending <==> n < maxRetries)
    ensures n > 0 ==> (FailedLaunches(inst, maxRetries, n).status == Failed <==> n >= maxRetries)
    decreases n
  {
    if n > 0 {
      RetriesRunOut(inst, maxRetries, n - 1);
    }
  }

  /** The handler's loop over the simulation's stored instances, which stops
      at the first one that is not FAILED. */
  function AllFailed(db: seq<Instance>, simId: string): (r: bool)
    ensures r <==> forall k :: 0 <= k < |db| && db[k].simulation == simId ==> db[k].status == Failed
    decreases |db|
  {
    if |db| == 0 then true
    else if db[0].simulation == simId && db[0].status != Failed then false
    else
      var rest := AllFailed(db[1..], simId);
      assert forall k :: 1 <= k < |db| ==> db[1..][k - 1] == db[k];
      rest
  }

  /** `__handle_launch_instance_exception` on the stored rows.  `inst` is the
      instance as it stood in memory when the launch failed and `sim` the
      simulation the launch loaded (its key is the instance's `simulation`).
      A server already acquired is shut down first; when that shutdown
      raises, the handler stops before saving anything.  Otherwise the
      instance is saved PENDING or FAILED, and once it is FAILED the
      simulation is saved FAILED when every stored instance of it is. */
  function HandleLaunchException(store: Store, sim: Simulation, inst: Instance, maxRetries: int,
                                 shutdownOk: bool): (r: Result<Store>)
    ensures r.Err? <==> inst.instanceId != "" && !shutdownOk
    ensures r.Ok? ==> r.value.instances == SaveInstance(store.instances, RetryOrFail(inst, maxRetries))
    ensures r.Ok? ==>
              var cascade := && inst.retryAttempts + 1 >= maxRetries
                             && forall k :: 0 <= k < |r.value.instances| && r.value.instances[k].simulation == inst.simulation
                                            ==> r.value.instances[k].status == Failed;
              && (cascade ==> r.value.simulations == store.simulations[inst.simulation := sim.(status := SimFailed)])
              && (!cascade ==> r.value.simulations == store.simulations)
  {
    if inst.instanceId != "" && !shutdownOk then Err(RemoteError)
    else
      var handled := RetryOrFail(inst, maxRetries);
      var db := SaveInstance(store.instances, handled);
      if handled.status == Failed && AllFailed(db, inst.simulation) then
        Ok(Store(db, store.simulations[inst.simulation := sim.(status := SimFailed)]))
      else
        Ok(store.(instances := db))
  }

  /** The last instance of a simulation to fail takes the simulation with
      it, and a simulation with an instance still alive is never failed. */
  lemma CascadeIffAllFailed(store: Store, sim: Simulation, inst: Instance, maxRetries: int, shutdownOk: bool)
    requires inst.simulation in store.simulations && store.simulations[inst.simulation].status != SimFailed
    requires HandleLaunchException(store, sim, inst, maxRetries, shutdownOk).Ok?
    ensures var after := HandleLaunchException(store, sim, inst, maxRetries, shutdownOk).value;
            after.simulations[inst.simulation].status == SimFailed
            <==> (forall k :: (0 <= k < |store.instances| && store.instances[k].simulation == inst.simulation
                               && store.instances[k].id != inst.id) ==> store.instances[k].status == Failed)
                 && inst.retryAttempts + 1 >= maxRetries
  {
    var after := HandleLaunchException(store, sim, inst, maxRetries, shutdownOk).value;
    var handled := RetryOrFail(inst, maxRetries);
    var db := after.instances;
    var others := forall k :: (0 <= k < |store.instances| && store.instances[k].simulation == inst.simulation
                               && store.instances[k].id != inst.id) ==> store.instances[k].status == Failed;
    var stored := forall k :: 0 <= k < |db| && db[k].simulation == inst.simulation ==> db[k].status == Failed;
    if handled.status == Failed {
      if others {
        forall k | 0 <= k < |db| && db[k].simulation == inst.simulation
          ensures db[k].status == Failed
        {
          if db[k].id != inst.id {
            assert k < |store.instances| && db[k] == store.instances[k];
          }
        }
      } else {
        var k :| 0 <= k < |store.instances| && store.instances[k].simulation == inst.simulation
                 && store.instances[k].id != inst.id && store.instances[k].status != Failed;
        assert db[k] == store.instances[k];
        assert !stored;
      }
    }
  }

  // ---------------------------------------------------------------------
  // prepare_simulation_instance

  /** The settings of one provider the launch reads. */
  datatype ProviderInfo = ProviderInfo(id: string, localNfsMount: string, nfsServerFolder: string)

  /** What the outside world answers during one launch on one provider. */
  datatype LaunchReplies = LaunchReplies(
    /** `get_instance_cpus`, which never raises. */
    cpus: int,
    /** The case archive was fetched from the object store and unpacked. */
    caseFetched: bool,
    /** The unpacked case has `system/decomposeParDict` to remove. */
    caseHasDict: bool,
    /** The decomposeParDict templates by method, as lines. */
    templates: map<string, seq<string>>,
    /** The case was copied onto the NFS mount. */
    copied: bool,
    /** Both capstan subprocesses ran. */
    packaged: bool,
    /** The provider's `prepare_instance`. */
    provision: Provider.Provision,
    /** The case files on the NFS mount, by path, for `update_case_files`. */
    caseFiles: map<string, string>,
    /** The NFS mount request and the six environment requests went through. */
    envSet: bool,
    snap: Provider.SnapReply,
    decompose: Result<string>,
    /** The handler's `shutdown_instances` returned normally. */
    shutdownOk: bool)

  /** One provider as the admission loop meets it: its settings, the answer
      of its admission check, and what a launch on it would meet. */
  datatype Attempt = Attempt(provider: ProviderInfo, admission: Result<bool>, replies: LaunchReplies)

  /** How a launch ended: both records ready, or the exception together with
      the instance in memory and the instance as it was last saved. */
  datatype LaunchOutcome =
    | Launched(instance: Instance, simulation: Simulation)
    | LaunchFailed(instance: Instance, saved: Instance)

  /** The body of the `try` in `prepare_simulation_instance`, from the core
      count to `prepare_instance_env`.  `deploying` is the instance as saved
      DEPLOYING against the provider, `sim` the simulation as loaded. */
  function Launch(deploying: Instance, sim: Simulation, p: ProviderInfo, rep: LaunchReplies): (r: LaunchOutcome)
    ensures r.instance.(status := deploying.status, parallelisation := deploying.parallelisation,
                        localCaseLocation := deploying.localCaseLocation, nfsCaseLocation := deploying.nfsCaseLocation,
                        instanceId := deploying.instanceId, ip := deploying.ip, threadId := deploying.threadId,
                        snapTaskId := deploying.snapTaskId) == deploying
    ensures r.instance.parallelisation == rep.cpus
    ensures r.LaunchFailed? ==> r.saved.id == deploying.id && r.saved.retryAttempts == deploying.retryAttempts
                                && (r.saved.status == deploying.status || r.saved.status == Up)
    ensures r.Launched? ==>
              && rep.caseFetched && rep.copied && rep.packaged && sim.solver in Capstan.Solvers
              && rep.provision.Provisioned?
              && r.instance.instanceId == rep.provision.serverId && r.instance.ip == rep.provision.ip
              && r.instance.localCaseLocation == CaseUtils.LocalCaseLocation(p.localNfsMount, deploying.id)
              && r.instance.nfsCaseLocation == CaseUtils.NfsCaseLocation(p.nfsServerFolder, deploying.id)
              && CaseUtils.UpdateCaseFiles(r.instance.localCaseLocation, deploying.config, rep.caseFiles).Ok?
    ensures r.Launched? ==> r.simulation == sim.(status := SimRunning)
    ensures r.Launched? ==> (r.instance.status == Decomposing <==> rep.cpus > 1)
    ensures r.Launched? ==> (r.instance.status == Ready <==> rep.cpus <= 1)
    ensures r.Launched? ==> CoresAgree(r.instance)
    ensures r.Launched? && rep.cpus > 1 ==>
              CaseUtils.DecomposeParDict(rep.cpus, sim.decomposition, rep.caseHasDict, rep.templates).Ok?
  {
    var sized := deploying.(parallelisation := rep.cpus);
    if !rep.caseFetched
       || CaseUtils.DecomposeParDict(sized.parallelisation, sim.decomposition, rep.caseHasDict, rep.templates).Err?
       || !rep.copied
    then LaunchFailed(sized, sized)
    else
      var placed := CaseUtils.WithCaseLocations(sized, p.localNfsMount, p.nfsServerFolder);
      if Capstan.SolverDeps(sim.solver).Err? || !rep.packaged then LaunchFailed(placed, placed)
      else
        var provisioned := Provider.ApplyProvision(placed, rep.provision);
        if rep.provision.ProvisionFailed? then LaunchFailed(provisioned, placed)
        else
          var saved := if rep.provision.markedUp then provisioned else placed;
          var setupOk := CaseUtils.UpdateCaseFiles(provisioned.localCaseLocation, provisioned.config, rep.caseFiles).Ok?
                         && rep.envSet;
          match Provider.PrepareInstanceEnv(provisioned, sim, Provider.EnvReplies(setupOk, rep.snap, rep.decompose))
          case EnvReady(i, s) => Launched(i, s)
          case EnvFailed(i) => LaunchFailed(i, saved)
  }

  /** When every step answers, the launch goes through. */
  lemma LaunchGoesThrough(deploying: Instance, sim: Simulation, p: ProviderInfo, rep: LaunchReplies)
    requires rep.caseFetched && rep.copied && rep.packaged && rep.envSet && sim.solver in Capstan.Solvers
    requires CaseUtils.DecomposeParDict(rep.cpus, sim.decomposition, rep.caseHasDict, rep.templates).Ok?
    requires rep.provision.Provisioned?
    requires CaseUtils.UpdateCaseFiles(CaseUtils.LocalCaseLocation(p.localNfsMount, deploying.id),
                                       deploying.config, rep.caseFiles).Ok?
    requires rep.snap.SnapTask? || rep.snap.SnapRequestFailed?
    requires rep.cpus > 1 ==> rep.decompose.Ok? && Provider.ParseThreadId(rep.decompose.value).Ok?
    ensures Launch(deploying, sim, p, rep).Launched?
  {
    var sized := deploying.(parallelisation := rep.cpus);
    var placed := CaseUtils.WithCaseLocations(sized, p.localNfsMount, p.nfsServerFolder);
    assert placed.localCaseLocation == CaseUtils.LocalCaseLocation(p.localNfsMount, deploying.id);
    var provisioned := Provider.ApplyProvision(placed, rep.provision);
    assert provisioned.localCaseLocation == placed.localCaseLocation && provisioned.config == deploying.config;
    assert Multicore(provisioned) <==> rep.cpus > 1;
    var env := Provider.PrepareInstanceEnv(provisioned, sim, Provider.EnvReplies(true, rep.snap, rep.decompose));
    assert env.EnvReady?;
  }

  /** How `prepare_simulation_instance` ended. */
  datatype PrepareOutcome =
    /** No provider admitted the instance; nothing was written. */
    | NotAdmitted
    /** The instance was launched; the stored rows and the returned instance. */
    | Prepared(store: Store, instance: Instance)
    /** The launch failed and the failure handler ran to its end. */
    | Handled(store: Store)
    /** An exception left the function: an admission check or the loading
        of the simulation raised, or the handler's own shutdown did. */
    | Aborted(store: Store, error: Error)

  /** The launch on the provider that admitted the instance: the simulation
      is saved DEPLOYING, the instance DEPLOYING against the provider, then
      the launch runs; a failure goes to the handler. */
  function LaunchOn(store: Store, inst: Instance, a: Attempt, maxRetries: int): (r: PrepareOutcome)
    ensures !r.NotAdmitted?
    ensures inst.simulation !in store.simulations <==> r == Aborted(store, KeyError)
  {
    if inst.simulation !in store.simulations then Aborted(store, KeyError)
    else
      var sim := store.simulations[inst.simulation].(status := SimDeploying);
      var deploying := inst.(provider := a.provider.id, status := Deploying);
      var started := Store(SaveInstance(store.instances, deploying), store.simulations[inst.simulation := sim]);
      match Launch(deploying, sim, a.provider, a.replies)
      case Launched(i, s) =>
        Prepared(Store(SaveInstance(started.instances, i), started.simulations[inst.simulation := s]), i)
      case LaunchFailed(i, saved) =>
        var failed := started.(instances := SaveInstance(started.instances, saved));
        match HandleLaunchException(failed, sim, i, maxRetries, a.replies.shutdownOk)
        case Ok(after) => Handled(after)
        case Err(e) => Aborted(failed, e)
  }

  /** A launched instance is READY, or DECOMPOSING when it has several
      cores, and is recorded against the admitting provider with its retry
      count unchanged. */
  lemma LaunchedInstance(store: Store, inst: Instance, a: Attempt, maxRetries: int)
    requires LaunchOn(store, inst, a, maxRetries).Prepared?
    ensures var i := LaunchOn(store, inst, a, maxRetries).instance;
            && (i.status == Ready <==> !Multicore(i))
            && (i.status == Decomposing <==> Multicore(i))
            && CoresAgree(i)
            && i.provider == a.provider.id && i.id == inst.id && i.retryAttempts == inst.retryAttempts
  {
    var sim := store.simulations[inst.simulation].(status := SimDeploying);
    var deploying := inst.(provider := a.provider.id, status := Deploying);
    var l := Launch(deploying, sim, a.provider, a.replies);
    assert l.Launched?;
    assert LaunchOn(store, inst, a, maxRetries).instance == l.instance;
  }

  /** After a launch the instance's row is the instance returned and its
      simulation is RUNNING; no other row changes. */
  lemma LaunchedRecords(store: Store, inst: Instance, a: Attempt, maxRetries: int)
    requires LaunchOn(store, inst, a, maxRetries).Prepared?
    ensures var r := LaunchOn(store, inst, a, maxRetries);
            && r.store.instances == SaveInstance(store.instances, r.instance)
            && inst.simulation in store.simulations
            && r.store.simulations
               == store.simulations[inst.simulation := store.simulations[inst.simulation].(status := SimRunning)]
  {
    var sim := store.simulations[inst.simulation].(status := SimDeploying);
    var deploying := inst.(provider := a.provider.id, status := Deploying);
    var l := Launch(deploying, sim, a.provider, a.replies);
    assert l.Launched?;
    var key := inst.simulation;
    var r := LaunchOn(store, inst, a, maxRetries);
    assert r == Prepared(Store(SaveInstance(SaveInstance(store.instances, deploying), l.instance),
                               store.simulations[key := sim][key := l.simulation]), l.instance);
    SaveLastWins(store.instances, deploying, l.instance);
    assert store.simulations[key := sim][key := l.simulation] == store.simulations[key := l.simulation];
  }

  /** After a failed launch whose handler ran to its end, the instance's row
      counts one more attempt, stays recorded against the admitting provider
      and is PENDING or FAILED by the retry bound; its simulation is
      DEPLOYING or FAILED, and no other row changes. */
  lemma HandledRecords(store: Store, inst: Instance, a: Attempt, maxRetries: int)
    requires LaunchOn(store, inst, a, maxRetries).Handled?
    ensures var r := LaunchOn(store, inst, a, maxRetries).store;
            && HasRow(r.instances, inst.id)
            && (forall k :: 0 <= k < |r.instances| && r.instances[k].id == inst.id ==>
                  && r.instances[k].retryAttempts == inst.retryAttempts + 1
                  && r.instances[k].provider == a.provider.id
                  && (r.instances[k].status == Pending <==> inst.retryAttempts + 1 < maxRetries)
                  && (r.instances[k].status == Failed <==> inst.retryAttempts + 1 >= maxRetries))
            && (forall k :: 0 <= k < |store.instances| && store.instances[k].id != inst.id ==>
                  k < |r.instances| && r.instances[k] == store.instances[k])
            && inst.simulation in r.simulations
            && (r.simulations[inst.simulation].status == SimDeploying || r.simulations[inst.simulation].status == SimFailed)
            && (forall id :: id in store.simulations && id != inst.simulation ==>
                  id in r.simulations && r.simulations[id] == store.simulations[id])
  {
    var sim := store.simulations[inst.simulation].(status := SimDeploying);
    var deploying := inst.(provider := a.provider.id, status := Deploying);
    var l := Launch(deploying, sim, a.provider, a.replies);
    var handled := RetryOrFail(l.instance, maxRetries);
    SaveLastWins(store.instances, deploying, l.saved);
    SaveLastWins(store.instances, l.saved, handled);
  }

  /** When the handler's own shutdown raises, the instance's row is left
      DEPLOYING or UP, a status no pass selects, so it is never retried. */
  lemma ShutdownRaiseStrandsInstance(store: Store, inst: Instance, a: Attempt, maxRetries: int)
    requires LaunchOn(store, inst, a, maxRetries).Aborted?
    requires inst.simulation in store.simulations
    ensures var r := LaunchOn(store, inst, a, maxRetries).store;
            && HasRow(r.instances, inst.id)
            && forall k :: 0 <= k < |r.instances| && r.instances[k].id == inst.id ==>
                 r.instances[k].status == Deploying || r.instances[k].status == Up
  {
  }

  /** The index of the first provider whose admission check did not say
      no, if any. */
  function FirstDecisive(attempts: seq<Attempt>): (r: Option<nat>)
    ensures r.None? <==> forall k :: 0 <= k < |attempts| ==> attempts[k].admission == Ok(false)
    ensures r.Some? ==> r.value < |attempts| && attempts[r.value].admission != Ok(false)
                        && forall k :: 0 <= k < r.value ==> attempts[k].admission == Ok(false)
    decreases |attempts|
  {
    if |attempts| == 0 then None
    else if attempts[0].admission != Ok(false) then Some(0)
    else
      match FirstDecisive(attempts[1..])
      case None =>
        assert forall k :: 1 <= k < |attempts| ==> attempts[1..][k - 1] == attempts[k];
        None
      case Some(j) =>
        assert forall k :: 1 <= k < |attempts| ==> attempts[1..][k - 1] == attempts[k];
        Some(j + 1)
  }

  /** `prepare_simulation_instance`: the providers are asked in order; the
      first that admits the instance is the one it is launched on and no
      later provider is asked.  An admission check that raises ends the
      call, since it sits outside the `try`. */
  function PrepareSimulationInstance(store: Store, inst: Instance, attempts: seq<Attempt>, maxRetries: int): (r: PrepareOutcome)
    ensures r.NotAdmitted? <==> forall k :: 0 <= k < |attempts| ==> attempts[k].admission == Ok(false)
    decreases |attempts|
  {
    if |attempts| == 0 then NotAdmitted
    else
      var a := attempts[0];
      match a.admission
      case Err(e) => Aborted(store, e)
      case Ok(admitted) =>
        if admitted then LaunchOn(store, inst, a, maxRetries)
        else
          assert forall k :: 1 <= k < |attempts| ==> attempts[1..][k - 1] == attempts[k];
          PrepareSimulationInstance(store, inst, attempts[1..], maxRetries)
  }

  /** Only the first provider whose check did not say no matters: the
      outcome is the launch on it when it admitted, the unchanged rows with
      its exception when its check raised, and NotAdmitted when every check
      said no. */
  lemma {:induction false} FirstAdmittingProviderDecides(store: Store, inst: Instance, attempts: seq<Attempt>, maxRetries: int)
    ensures var r := PrepareSimulationInstance(store, inst, attempts, maxRetries);
            match FirstDecisive(attempts)
            case None => r == NotAdmitted
            case Some(k) =>
              if attempts[k].admission.Err? then r == Aborted(store, attempts[k].admission.error)
              else r == LaunchOn(store, inst, attempts[k], maxRetries)
    decreases |attempts|
  {
    if |attempts| > 0 && attempts[0].admission == Ok(false) {
      FirstAdmittingProviderDecides(store, inst, attempts[1..], maxRetries);
      assert forall k :: 1 <= k < |attempts| ==> attempts[1..][k - 1] == attempts[k];
    }
  }

  /** A provider that did not say no, after providers that all did, is the
      deciding one. */
  lemma FirstDecisiveAt(attempts: seq<Attempt>, k: int)
    ensures (&& 0 <= k < |attempts| && attempts[k].admission != Ok(false)
             && forall j :: 0 <= j < k ==> attempts[j].admission == Ok(false))
            ==> FirstDecisive(attempts) == Some(k)
  {
  }

  /** Whatever the providers after the deciding one would answer, the
      outcome is the same. */
  lemma LaterProvidersIgnored(store: Store, inst: Instance, attempts: seq<Attempt>, later: seq<Attempt>, maxRetries: int)
    requires FirstDecisive(attempts).Some?
    ensures var k := FirstDecisive(attempts).value;
            PrepareSimulationInstance(store, inst, attempts[..k + 1] + later, maxRetries)
            == PrepareSimulationInstance(store, inst, attempts, maxRetries)
  {
    var k := FirstDecisive(attempts).value;
    var other := attempts[..k + 1] + later;
    assert forall j :: 0 <= j <= k ==> other[j] == attempts[j];
    FirstDecisiveAt(other, k);
    FirstAdmittingProviderDecides(store, inst, attempts, maxRetries);
    FirstAdmittingProviderDecides(store, inst, other, maxRetries);
  }
}

=== FILE: models.dfy ===
/** The two persisted entities, Simulation and Instance, with their status
    domains.  Statuses are stored in the database by enum member NAME, so
    each status comes with its name and the inverse lookup. */
module Models {
  import opened Common

  datatype SimulationStatus = SimPending | SimDeploying | SimRunning | SimComplete | SimFailed
  {
    function Name(): string
    {
      match this
      case SimPending => "PENDING"
      case SimDeploying => "DEPLOYING"
      case SimRunning => "RUNNING"
      case SimComplete => "COMPLETE"
      case SimFailed => "FAILED"
    }
  }

  datatype InstanceStatus =
    | Pending | Deploying | Up | Ready | Decomposing
    | Running | RunningMpi | Reconstructing | Complete | Failed
  {
    function Name(): string
    {
      match this
      case Pending => "PENDING"
      case Deploying => "DEPLOYING"
      case Up => "UP"
      case Ready => "READY"
      case Decomposing => "DECOMPOSING"
      case Running => "RUNNING"
      case RunningMpi => "RUNNING_MPI"
      case Reconstructing => "RECONSTRUCTING"
      case Complete => "COMPLETE"
      case Failed => "FAILED"
    }
  }

  /** The enum members in declaration order. */
  const SimulationStatuses: seq<SimulationStatus> :=
    [SimPending, SimDeploying, SimRunning, SimComplete, SimFailed]

  const InstanceStatuses: seq<InstanceStatus> :=
    [Pending, Deploying, Up, Ready, Decomposing, Running, RunningMpi, Reconstructing, Complete, Failed]

  /** `Simulation.Status[name]`: the member stored under a name, if any. */
  function SimulationStatusNamed(name: string): (r: Option<SimulationStatus>)
    ensures r.Some? ==> r.value.Name() == name
    ensures r.None? ==> forall k :: 0 <= k < |SimulationStatuses| ==> SimulationStatuses[k].Name() != name
  {
    if name == "PENDING" then Some(SimPending)
    else if name == "DEPLOYING" then Some(SimDeploying)
    else if name == "RUNNING" then Some(SimRunning)
    else if name == "COMPLETE" then Some(SimComplete)
    else if name == "FAILED" then Some(SimFailed)
    else None
  }

  /** `Instance.Status[name]`: the member stored under a name, if any. */
  function InstanceStatusNamed(name: string): (r: Option<InstanceStatus>)
    ensures r.Some? ==> r.value.Name() == name
    ensures r.None? ==> forall k :: 0 <= k < |InstanceStatuses| ==> InstanceStatuses[k].Name() != name
  {
    if name == "PENDING" then Some(Pending)
    else if name == "DEPLOYING" then Some(Deploying)
    else if name == "UP" then Some(Up)
    else if name == "READY" then Some(Ready)
    else if name == "DECOMPOSING" then Some(Decomposing)
    else if name == "RUNNING" then Some(Running)
    else if name == "RUNNING_MPI" then Some(RunningMpi)
    else if name == "RECONSTRUCTING" then Some(Reconstructing)
    else if name == "COMPLETE" then Some(Complete)
    else if name == "FAILED" then Some(Failed)
    else None
  }

  /** The Simulation status domain is exactly the five listed members, each
      stored under a distinct name that reads back as the same member. */
  lemma SimulationStatusDomain(s: SimulationStatus)
    ensures s in SimulationStatuses
    ensures SimulationStatusNamed(s.Name()) == Some(s)
    ensures |SimulationStatuses| == 5
    ensures forall i, j :: 0 <= i < j < |SimulationStatuses| ==>
              SimulationStatuses[i].Name() != SimulationStatuses[j].Name()
  {
  }

  /** The Instance status domain is exactly the ten listed members, each
      stored under a distinct name that reads back as the same member. */
  lemma InstanceStatusDomain(s: InstanceStatus)
    ensures s in InstanceStatuses
    ensures InstanceStatusNamed(s.Name()) == Some(s)
    ensures |InstanceStatuses| == 10
    ensures forall i, j :: 0 <= i < j < |InstanceStatuses| ==>
              InstanceStatuses[i].Name() != InstanceStatuses[j].Name()
  {
    InstanceNameReadsBack(s);
    forall i, j | 0 <= i < j < |InstanceStatuses|
      ensures InstanceStatuses[i].Name() != InstanceStatuses[j].Name()
    {
      InstanceNameReadsBack(InstanceStatuses[i]);
      InstanceNameReadsBack(InstanceStatuses[j]);
    }
  }

  /** Every Instance status reads back from its stored name. */
  lemma InstanceNameReadsBack(s: InstanceStatus)
    ensures InstanceStatusNamed(s.Name()) == Some(s)
  {
  }

  /** A JSON scalar as it arrives in a case update or in the decomposition
      settings.  Floating point numbers are not modelled. */
  datatype JsonValue = JText(text: string) | JNumber(number: int)

  /** Python's `str(v)` for a JSON scalar. */
  function Str(v: JsonValue): string
  {
    match v
    case JText(t) => t
    case JNumber(n) => IntToString(n)
  }

  /** One case of a simulation: a name and the variable overrides, keyed
      `<file path>/<variable>`, in the order they are listed. */
  datatype Case = Case(name: string, updates: seq<(string, JsonValue)>)

  /** The `cases` text column: blank, or a JSON list of cases. */
  datatype CasesField = BlankCases | CaseList(cases: seq<Case>)

  datatype Simulation = Simulation(
    id: string,
    simulationName: string,
    image: string,
    flavor: string,
    solver: string,
    instanceCount: int,
    containerName: string,
    inputDataObject: string,
    cases: CasesField,
    status: SimulationStatus,
    /** The `decomposition` JSON object, None when the column is blank. */
    decomposition: Option<map<string, JsonValue>>)

  datatype Instance = Instance(
    id: string,
    name: string,
    /** The case updates; the column stores them JSON-encoded. */
    config: seq<(string, JsonValue)>,
    ip: string,
    /** The provider-assigned server id; blank until a server is acquired. */
    instanceId: string,
    provider: string,
    simulation: string,
    snapTaskId: string,
    status: InstanceStatus,
    localCaseLocation: string,
    nfsCaseLocation: string,
    retryAttempts: int,
    threadId: Option<int>,
    parallelisation: int)

  /** `Instance.multicore`. */
  predicate Multicore(i: Instance) { i.parallelisation > 1 }

  /** What the Instance status documentation promises about cores:
      DECOMPOSING, RUNNING_MPI and RECONSTRUCTING happen only on multicore
      instances, RUNNING only on single-core ones. */
  predicate CoresAgree(i: Instance)
  {
    && (i.status == Decomposing || i.status == RunningMpi || i.status == Reconstructing ==> Multicore(i))
    && (i.status == Running ==> !Multicore(i))
  }

  /** A freshly created Simulation row: every field as given, status at its default. */
  function NewSimulation(id: string, name: string, image: string, flavor: string, solver: string,
                         count: int, container: string, inputObject: string, cases: CasesField,
                         decomposition: Option<map<string, JsonValue>>): (s: Simulation)
    ensures s.status == SimPending
    ensures s.id == id && s.simulationName == name && s.flavor == flavor && s.solver == solver
    ensures s.cases == cases && s.decomposition == decomposition
  {
    Simulation(id, name, image, flavor, solver, count, container, inputObject, cases, SimPending, decomposition)
  }

  /** A freshly created Instance row: name, config and owner as given, every
      other column at its default. */
  function NewInstance(id: string, name: string, config: seq<(string, JsonValue)>, simulation: string): (i: Instance)
    ensures i.status == Pending && i.retryAttempts == 0 && i.parallelisation == 1 && i.threadId == None
    ensures !Multicore(i)
    ensures i.instanceId == "" && i.provider == "" && i.ip == "" && i.snapTaskId == ""
    ensures i.id == id && i.name == name && i.config == config && i.simulation == simulation
  {
    Instance(id, name, config, "", "", "", simulation, "", Pending, "", "", 0, None, 1)
  }

  // ---------------------------------------------------------------------
  // The stored rows

  /** The two tables: the instance rows in the order a query returns them,
      and the simulation rows by id. */
  datatype Store = Store(instances: seq<Instance>, simulations: map<string, Simulation>)

  /** Some stored row has this id. */
  predicate HasRow(db: seq<Instance>, id: string)
  {
    exists k :: 0 <= k < |db| && db[k].id == id
  }

  /** `instance.save()`: the row with the instance's id takes every field of
      the instance in memory, and an instance not stored yet is added. */
  function SaveInstance(db: seq<Instance>, x: Instance): (r: seq<Instance>)
    ensures HasRow(r, x.id)
    ensures forall k :: 0 <= k < |r| && r[k].id == x.id ==> r[k] == x
    ensures forall k :: 0 <= k < |db| ==> k < |r| && (db[k].id != x.id ==> r[k] == db[k])
    ensures |r| == if HasRow(db, x.id) then |db| else |db| + 1
  {
    if HasRow(db, x.id) then
      var r := seq(|db|, k requires 0 <= k < |db| => if db[k].id == x.id then x else db[k]);
      assert forall k :: 0 <= k < |db| && db[k].id == x.id ==> r[k].id == x.id;
      r
    else
      var r := db + [x];
      assert r[|db|] == x;
      r
  }

  /** At most one stored row carries the id, and a row that does is PENDING:
      the state of an instance the prepare pass is about to admit. */
  predicate PendingIfStored(db: seq<Instance>, id: string)
  {
    forall i, j :: 0 <= i < |db| && 0 <= j < |db| && db[i].id == id && db[j].id == id ==>
      i == j && db[i].status == Pending
  }

  /** Saving over the only row with the id replaces that row in place. */
  lemma SaveAt(db: seq<Instance>, x: Instance, k: nat)
    requires k < |db| && db[k].id == x.id
    requires forall j :: 0 <= j < |db| && db[j].id == x.id ==> j == k
    ensures SaveInstance(db, x) == db[..k] + [x] + db[k + 1..]
  {
    assert HasRow(db, x.id);
    var r := SaveInstance(db, x);
    var t := db[..k] + [x] + db[k + 1..];
    assert |r| == |t|;
    forall j | 0 <= j < |r|
      ensures r[j] == t[j]
    {
      if j < k { assert t[j] == db[j]; }
      else if j > k { assert t[j] == db[j]; }
    }
  }

  /** Saving the same record twice keeps only the second save. */
  lemma SaveLastWins(db: seq<Instance>, x: Instance, y: Instance)
    requires x.id == y.id
    ensures SaveInstance(SaveInstance(db, x), y) == SaveInstance(db, y)
  {
    var once := SaveInstance(db, x);
    var twice := SaveInstance(once, y);
    var direct := SaveInstance(db, y);
    assert |twice| == |direct|;
    forall k | 0 <= k < |twice|
      ensures twice[k] == direct[k]
    {
      if k < |db| {
        if db[k].id != x.id {
          assert once[k] == db[k];
        }
      }
    }
  }

  /** `Instance.objects.filter(status=...)`: the rows with that status, in
      query order. */
  function WithStatus(db: seq<Instance>, status: InstanceStatus): (r: seq<Instance>)
    ensures IsSubsequence(r, db)
    ensures forall x :: x in r <==> x in db && x.status == status
    decreases |db|
  {
    if |db| == 0 then []
    else
      var rest := WithStatus(db[1..], status);
      assert forall x :: x in db <==> x == db[0] || x in db[1..];
      if db[0].status == status then
        assert ([db[0]] + rest)[1..] == rest;
        [db[0]] + rest
      else rest
  }

  /** `Instance.objects.filter(status=..., provider=...)`: the rows with that
      status recorded against that provider, in query order. */
  function OwnedWithStatus(db: seq<Instance>, status: InstanceStatus, providerId: string): (r: seq<Instance>)
    ensures IsSubsequence(r, db)
    ensures forall x :: x in r <==> x in db && x.status == status && x.provider == providerId
    decreases |db|
  {
    if |db| == 0 then []
    else
      var rest := OwnedWithStatus(db[1..], status, providerId);
      assert forall x :: x in db <==> x == db[0] || x in db[1..];
      if db[0].status == status && db[0].provider == providerId then
        assert ([db[0]] + rest)[1..] == rest;
        [db[0]] + rest
      else rest
  }
}

=== FILE: openstack_provider.dfy ===
/** The OpenStack provider: the admission check against the tenant quota,
    the unique-name check and floating-IP choice of `prepare_instance`,
    server shutdown and the core count.  Nova, Neutron and the database
    are read once per call; their answers are parameters. */
module OpenstackProvider {
  import opened Common
  import opened Models
  import opened OpenstackUtils
  import Provider

  /** The provider's settings: its name and the two usage caps. */
  datatype Config = Config(id: string, maxCpuUsage: int, maxInstanceUsage: int)

  /** A Neutron floating IP; it is in use when it has a fixed address. */
  datatype NeutronFloatingIp = NeutronFloatingIp(address: string, fixedIpAddress: Option<string>)

  /** What Nova and Neutron report during one admission check. */
  datatype CloudView = CloudView(flavors: seq<Flavor>, floatingIps: seq<NeutronFloatingIp>,
                                 servers: seq<Server>, quota: Quota)

  // ---------------------------------------------------------------------
  // is_simulation_instance_runnable

  /** The floating IPs bound to a fixed address, in listing order. */
  function UsedFloatingIps(fips: seq<NeutronFloatingIp>): (r: seq<NeutronFloatingIp>)
    ensures forall f :: f in r <==> f in fips && f.fixedIpAddress.Some?
    ensures |r| <= |fips|
    decreases |fips|
  {
    if |fips| == 0 then []
    else
      var rest := UsedFloatingIps(fips[1..]);
      assert forall f :: f in fips <==> f == fips[0] || f in fips[1..];
      if fips[0].fixedIpAddress.Some? then [fips[0]] + rest else rest
  }

  /** The instances this provider is still deploying, in store order. */
  function OwnDeploying(db: seq<Instance>, providerId: string): (r: seq<Instance>)
    ensures |r| <= |db|
    decreases |db|
  {
    if |db| == 0 then []
    else
      var rest := OwnDeploying(db[1..], providerId);
      if db[0].status == Deploying && db[0].provider == providerId then [db[0]] + rest else rest
  }

  /** The reserved instances are exactly this provider's DEPLOYING rows. */
  lemma {:induction false} OwnDeployingMembers(db: seq<Instance>, providerId: string)
    ensures forall x :: x in OwnDeploying(db, providerId) <==>
              x in db && x.status == Deploying && x.provider == providerId
    decreases |db|
  {
    if |db| > 0 {
      OwnDeployingMembers(db[1..], providerId);
      assert forall x :: x in db <==> x == db[0] || x in db[1..];
    }
  }

  /** The flavor id of each deploying instance's simulation; an instance
      whose simulation row is missing raises. */
  function DeployingFlavors(deploying: seq<Instance>, sims: map<string, Simulation>): (r: Result<seq<string>>)
    ensures r.Ok? <==> forall k :: 0 <= k < |deploying| ==> deploying[k].simulation in sims
    ensures r.Ok? ==> |r.value| == |deploying|
    ensures r.Ok? ==> forall k :: 0 <= k < |deploying| ==> r.value[k] == sims[deploying[k].simulation].flavor
    decreases |deploying|
  {
    if |deploying| == 0 then Ok([])
    else if deploying[0].simulation !in sims then Err(KeyError)
    else
      var rest := DeployingFlavors(deploying[1..], sims);
      assert (forall k :: 0 <= k < |deploying| ==> deploying[k].simulation in sims) <==>
             (forall k :: 0 <= k < |deploying| - 1 ==> deploying[1..][k].simulation in sims) by {
        forall k | 0 <= k < |deploying| - 1 ensures deploying[1..][k] == deploying[k + 1] { }
      }
      match rest
      case Err(e) => Err(e)
      case Ok(ids) => Ok([sims[deploying[0].simulation].flavor] + ids)
  }

  /** The stricter of the configured caps and the tenant quota. */
  function Ceiling(cfg: Config, q: Quota): (c: Quota)
    ensures c.cores <= q.cores && c.cores <= cfg.maxCpuUsage
    ensures c.cores == q.cores || c.cores == cfg.maxCpuUsage
    ensures c.instances <= q.instances && c.instances <= cfg.maxInstanceUsage
    ensures c.instances == q.instances || c.instances == cfg.maxInstanceUsage
    ensures c.(cores := q.cores, instances := q.instances) == q
  {
    q.(cores := Min(cfg.maxCpuUsage, q.cores), instances := Min(cfg.maxInstanceUsage, q.instances))
  }

  /** `is_simulation_instance_runnable` for OpenStack.  The candidate fits
      when, after the live servers, this provider's deploying instances and
      the candidate itself (its flavor, one instance, one floating IP) are
      taken from the ceiling, no counter is negative.  `view` is Err when a
      Nova or Neutron listing raised; every exception propagates. */
  function IsRunnable(cfg: Config, view: Result<CloudView>, db: seq<Instance>,
                      sims: map<string, Simulation>, candidate: Instance): (r: Result<bool>)
    ensures view.Err? ==> r == Err(view.error)
    ensures r.Ok? <==>
      && view.Ok? && candidate.simulation in sims
      && sims[candidate.simulation].flavor in BuildFlavorDict(view.value.flavors)
      && DeployingFlavors(OwnDeploying(db, cfg.id), sims).Ok?
      && AllKnown(ServerFlavors(view.value.servers), BuildFlavorDict(view.value.flavors))
      && AllKnown(DeployingFlavors(OwnDeploying(db, cfg.id), sims).value, BuildFlavorDict(view.value.flavors))
    ensures r.Ok? ==>
      var v := view.value;
      var flavors := BuildFlavorDict(v.flavors);
      var c := Ceiling(cfg, v.quota);
      var deploying := DeployingFlavors(OwnDeploying(db, cfg.id), sims);
      var want := sims[candidate.simulation].flavor;
      && want in flavors && deploying.Ok?
      && AllKnown(ServerFlavors(v.servers), flavors) && AllKnown(deploying.value, flavors)
      && (r.value <==>
            && TotalVcpus(ServerFlavors(v.servers), flavors) + TotalVcpus(deploying.value, flavors)
               + flavors[want].vcpus <= c.cores
            && TotalRam(ServerFlavors(v.servers), flavors) + TotalRam(deploying.value, flavors)
               + flavors[want].ram <= c.ram
            && |v.servers| + |deploying.value| + 1 <= c.instances
            && |UsedFloatingIps(v.floatingIps)| + |deploying.value| + 1 <= c.floatingIps)
  {
    var v :- view;
    var flavors := BuildFlavorDict(v.flavors);
    var used := UsedFloatingIps(v.floatingIps);
    var deploying := OwnDeploying(db, cfg.id);
    if candidate.simulation !in sims then Err(KeyError)
    else
      var want := sims[candidate.simulation].flavor;
      if want !in flavors then Err(KeyError)
      else
        var wanted := flavors[want];
        var deployingFlavors :- DeployingFlavors(deploying, sims);
        var avail :- AvailableResources(Ceiling(cfg, v.quota), v.servers, deployingFlavors, flavors, |used|);
        var left := avail.(cores := avail.cores - wanted.vcpus, floatingIps := avail.floatingIps - 1,
                           instances := avail.instances - 1, ram := avail.ram - wanted.ram);
        Ok(left.cores >= 0 && left.floatingIps >= 0 && left.instances >= 0 && left.ram >= 0)
  }

  /** Reference definition: the instances a check reserves against, given
      by their flavors. */
  function Reserved(cfg: Config, db: seq<Instance>, sims: map<string, Simulation>): Result<seq<string>>
  {
    DeployingFlavors(OwnDeploying(db, cfg.id), sims)
  }

  /** Only this provider's DEPLOYING instances are reserved against: any
      record that is not one of them can be replaced by another that is not
      one of them without changing the verdict. */
  lemma {:induction false} OnlyOwnDeployingReserved(cfg: Config, view: Result<CloudView>, db: seq<Instance>,
                                                    sims: map<string, Simulation>, candidate: Instance,
                                                    k: int, other: Instance)
    requires 0 <= k < |db|
    requires !(db[k].status == Deploying && db[k].provider == cfg.id)
    requires !(other.status == Deploying && other.provider == cfg.id)
    ensures IsRunnable(cfg, view, db[k := other], sims, candidate) == IsRunnable(cfg, view, db, sims, candidate)
  {
    OwnDeployingIgnoresOthers(db, cfg.id, k, other);
  }

  lemma {:induction false} OwnDeployingIgnoresOthers(db: seq<Instance>, providerId: string, k: int, other: Instance)
    requires 0 <= k < |db|
    requires !(db[k].status == Deploying && db[k].provider == providerId)
    requires !(other.status == Deploying && other.provider == providerId)
    ensures OwnDeploying(db[k := other], providerId) == OwnDeploying(db, providerId)
    decreases |db|
  {
    var u := db[k := other];
    OwnDeployingStep(u, providerId);
    OwnDeployingStep(db, providerId);
    if k > 0 {
      assert u[0] == db[0];
      assert u[1..] == db[1..][k - 1 := other];
      OwnDeployingIgnoresOthers(db[1..], providerId, k - 1, other);
    } else {
      assert u[1..] == db[1..];
    }
  }

  lemma OwnDeployingStep(db: seq<Instance>, providerId: string)
    requires |db| > 0
    ensures OwnDeploying(db, providerId)
            == (if db[0].status == Deploying && db[0].provider == providerId then [db[0]] else [])
               + OwnDeploying(db[1..], providerId)
  {
  }

  /** Saving an admitted candidate DEPLOYING on this provider, over its
      PENDING row or as a new row, adds exactly its flavor to the
      reservations. */
  lemma ReservationGrowsByCandidate(cfg: Config, db: seq<Instance>, sims: map<string, Simulation>, c: Instance)
    requires Reserved(cfg, db, sims).Ok? && c.simulation in sims
    requires PendingIfStored(db, c.id)
    ensures var after := Reserved(cfg, SaveInstance(db, c.(status := Deploying, provider := cfg.id)), sims);
            && after.Ok?
            && multiset(after.value) == multiset(Reserved(cfg, db, sims).value) + multiset{sims[c.simulation].flavor}
  {
    var a, b := ReservedAroundCandidate(cfg, db, sims, c);
    var want := sims[c.simulation].flavor;
    assert multiset(a + [want] + b) == multiset(a + b) + multiset{want};
  }

  /** The reservations before and after the save, split where the candidate
      lands: its flavor goes in between, nothing else changes. */
  lemma ReservedAroundCandidate(cfg: Config, db: seq<Instance>, sims: map<string, Simulation>, c: Instance)
      returns (a: seq<string>, b: seq<string>)
    requires Reserved(cfg, db, sims).Ok? && c.simulation in sims
    requires PendingIfStored(db, c.id)
    ensures Reserved(cfg, db, sims) == Ok(a + b)
    ensures Reserved(cfg, SaveInstance(db, c.(status := Deploying, provider := cfg.id)), sims)
            == Ok(a + [sims[c.simulation].flavor] + b)
  {
    var admitted := c.(status := Deploying, provider := cfg.id);
    var want := sims[c.simulation].flavor;
    if HasRow(db, c.id) {
      var k :| 0 <= k < |db| && db[k].id == c.id;
      SaveAt(db, admitted, k);
      OwnDeployingAroundRow(db, k, admitted, cfg.id);
      var p, q := OwnDeploying(db[..k], cfg.id), OwnDeploying(db[k + 1..], cfg.id);
      FlavorsAround(p, q, admitted, sims);
      a, b := DeployingFlavors(p, sims).value, DeployingFlavors(q, sims).value;
    } else {
      assert SaveInstance(db, admitted) == db + [admitted];
      OwnDeployingAppend(db, cfg.id, admitted);
      DeployingFlavorsAppend(OwnDeploying(db, cfg.id), sims, admitted);
      a, b := Reserved(cfg, db, sims).value, [];
      assert a + b == a && a + [want] + b == a + [want];
    }
  }

  /** Replacing a row that is not one of the provider's DEPLOYING ones by one
      that is puts the new row among them, between the rows before and after. */
  lemma OwnDeployingAroundRow(db: seq<Instance>, k: nat, x: Instance, providerId: string)
    requires k < |db| && !(db[k].status == Deploying && db[k].provider == providerId)
    requires x.status == Deploying && x.provider == providerId
    ensures OwnDeploying(db, providerId) == OwnDeploying(db[..k], providerId) + OwnDeploying(db[k + 1..], providerId)
    ensures OwnDeploying(db[..k] + [x] + db[k + 1..], providerId)
            == OwnDeploying(db[..k], providerId) + [x] + OwnDeploying(db[k + 1..], providerId)
  {
    var pre, post := db[..k], db[k + 1..];
    assert db == pre + [db[k]] + post;
    OwnDeployingThree(pre, db[k], post, providerId);
    OwnDeployingThree(pre, x, post, providerId);
  }

  lemma OwnDeployingThree(pre: seq<Instance>, y: Instance, post: seq<Instance>, providerId: string)
    ensures OwnDeploying(pre + [y] + post, providerId)
            == OwnDeploying(pre, providerId)
               + (if y.status == Deploying && y.provider == providerId then [y] else [])
               + OwnDeploying(post, providerId)
  {
    OwnDeployingConcat(pre + [y], post, providerId);
    OwnDeployingAppend(pre, providerId, y);
  }

  /** The flavors of two runs of deploying instances with one more in between. */
  lemma FlavorsAround(p: seq<Instance>, q: seq<Instance>, x: Instance, sims: map<string, Simulation>)
    requires DeployingFlavors(p + q, sims).Ok? && x.simulation in sims
    ensures DeployingFlavors(p, sims).Ok? && DeployingFlavors(q, sims).Ok?
    ensures DeployingFlavors(p + q, sims) == Ok(DeployingFlavors(p, sims).value + DeployingFlavors(q, sims).value)
    ensures DeployingFlavors(p + [x] + q, sims)
            == Ok(DeployingFlavors(p, sims).value + [sims[x.simulation].flavor] + DeployingFlavors(q, sims).value)
  {
    DeployingFlavorsConcat(p, q, sims);
    DeployingFlavorsAppend(p, sims, x);
    DeployingFlavorsConcat(p + [x], q, sims);
  }

  lemma {:induction false} OwnDeployingConcat(a: seq<Instance>, b: seq<Instance>, providerId: string)
    ensures OwnDeploying(a + b, providerId) == OwnDeploying(a, providerId) + OwnDeploying(b, providerId)
    decreases |a|
  {
    if |a| > 0 {
      var ab := a + b;
      assert ab[0] == a[0] && ab[1..] == a[1..] + b;
      var head := if a[0].status == Deploying && a[0].provider == providerId then [a[0]] else [];
      OwnDeployingStep(ab, providerId);
      OwnDeployingStep(a, providerId);
      OwnDeployingConcat(a[1..], b, providerId);
      calc {
        OwnDeploying(ab, providerId);
        head + OwnDeploying(a[1..] + b, providerId);
        head + (OwnDeploying(a[1..], providerId) + OwnDeploying(b, providerId));
        (head + OwnDeploying(a[1..], providerId)) + OwnDeploying(b, providerId);
        OwnDeploying(a, providerId) + OwnDeploying(b, providerId);
      }
    } else {
      assert a + b == b;
    }
  }

  lemma {:induction false} DeployingFlavorsConcat(a: seq<Instance>, b: seq<Instance>, sims: map<string, Simulation>)
    ensures DeployingFlavors(a + b, sims).Ok? <==> DeployingFlavors(a, sims).Ok? && DeployingFlavors(b, sims).Ok?
    ensures DeployingFlavors(a + b, sims).Ok? ==>
              DeployingFlavors(a + b, sims).value == DeployingFlavors(a, sims).value + DeployingFlavors(b, sims).value
    decreases |a|
  {
    if |a| > 0 {
      assert (a + b)[0] == a[0] && (a + b)[1..] == a[1..] + b;
      DeployingFlavorsConcat(a[1..], b, sims);
      if a[0].simulation in sims && DeployingFlavors(a[1..] + b, sims).Ok? {
        var f := sims[a[0].simulation].flavor;
        var x, y := DeployingFlavors(a[1..], sims).value, DeployingFlavors(b, sims).value;
        assert DeployingFlavors(a + b, sims).value == [f] + (x + y);
        assert DeployingFlavors(a, sims).value == [f] + x;
        assert [f] + (x + y) == ([f] + x) + y;
      }
    } else {
      assert a + b == b;
    }
  }

  lemma {:induction false} OwnDeployingAppend(db: seq<Instance>, providerId: string, x: Instance)
    ensures OwnDeploying(db + [x], providerId) ==
            OwnDeploying(db, providerId) + (if x.status == Deploying && x.provider == providerId then [x] else [])
    decreases |db|
  {
    if |db| > 0 {
      assert (db + [x])[1..] == db[1..] + [x];
      OwnDeployingAppend(db[1..], providerId, x);
    } else {
      assert (db + [x])[1..] == [];
    }
  }

  lemma {:induction false} DeployingFlavorsAppend(d: seq<Instance>, sims: map<string, Simulation>, x: Instance)
    requires DeployingFlavors(d, sims).Ok? && x.simulation in sims
    ensures DeployingFlavors(d + [x], sims) == Ok(DeployingFlavors(d, sims).value + [sims[x.simulation].flavor])
    decreases |d|
  {
    if |d| > 0 {
      assert (d + [x])[0] == d[0] && (d + [x])[1..] == d[1..] + [x];
      DeployingFlavorsAppend(d[1..], sims, x);
      var f0 := sims[d[0].simulation].flavor;
      var tail := DeployingFlavors(d[1..], sims).value;
      assert DeployingFlavors(d, sims) == Ok([f0] + tail);
      assert DeployingFlavors(d + [x], sims) == Ok([f0] + (tail + [sims[x.simulation].flavor]));
      assert [f0] + (tail + [sims[x.simulation].flavor]) == ([f0] + tail) + [sims[x.simulation].flavor];
    } else {
      assert d + [x] == [x];
      var r1 := DeployingFlavors([x], sims);
      assert r1.Ok? && |r1.value| == 1 && r1.value[0] == sims[x.simulation].flavor;
      assert r1.value == [] + [sims[x.simulation].flavor];
    }
  }

  /** The admission check is conservative: once a candidate is admitted and
      saved DEPLOYING here over its PENDING row, the reservations, now
      including it, still fit under the ceiling in all four counters. */
  lemma AdmissionStaysWithinCeiling(cfg: Config, v: CloudView, db: seq<Instance>,
                                    sims: map<string, Simulation>, c: Instance)
    requires IsRunnable(cfg, Ok(v), db, sims, c) == Ok(true)
    requires PendingIfStored(db, c.id)
    ensures var admitted := c.(status := Deploying, provider := cfg.id);
            var flavors := BuildFlavorDict(v.flavors);
            var reserved := Reserved(cfg, SaveInstance(db, admitted), sims);
            && reserved.Ok?
            && var avail := AvailableResources(Ceiling(cfg, v.quota), v.servers, reserved.value, flavors,
                                               |UsedFloatingIps(v.floatingIps)|);
               && avail.Ok?
               && avail.value.cores >= 0 && avail.value.ram >= 0
               && avail.value.instances >= 0 && avail.value.floatingIps >= 0
  {
    var flavors := BuildFlavorDict(v.flavors);
    var want := sims[c.simulation].flavor;
    var a, b := ReservedAroundCandidate(cfg, db, sims, c);
    TotalsAround(a, want, b, flavors);
  }

  /** One more flavor in a list adds its vcpus and ram to the totals, and a
      known flavor keeps the list known. */
  lemma TotalsAround(a: seq<string>, want: string, b: seq<string>, flavors: map<string, Flavor>)
    requires AllKnown(a + b, flavors) && want in flavors
    ensures AllKnown(a + [want] + b, flavors)
    ensures TotalVcpus(a + [want] + b, flavors) == TotalVcpus(a + b, flavors) + flavors[want].vcpus
    ensures TotalRam(a + [want] + b, flavors) == TotalRam(a + b, flavors) + flavors[want].ram
  {
    TotalsConcat(a, b, flavors);
    TotalsConcat(a + [want], b, flavors);
    TotalsAppend(a, want, flavors);
    var ab, awb := a + b, a + [want] + b;
    forall k | 0 <= k < |awb| ensures awb[k] in flavors {
      if k < |a| { assert awb[k] == ab[k]; }
      else if k > |a| { assert awb[k] == ab[k - 1]; }
    }
  }

  // ---------------------------------------------------------------------
  // prepare_instance

  /** The server name given to Nova: `<instance name>-<instance id>`. */
  function UniqueServerName(inst: Instance): (name: string)
    ensures StartsWith(name, inst.name + "-") && EndsWith(name, inst.id)
    ensures |name| == |inst.name| + 1 + |inst.id|
  {
    var head := inst.name + "-";
    var name := head + inst.id;
    assert name[..|head|] == head;
    assert name[|name| - |inst.id|..] == inst.id;
    name
  }

  /** The listing of servers by that name must hold exactly one server. */
  function PickUniqueServer(named: seq<Server>): (r: Result<Server>)
    ensures r.Ok? <==> |named| == 1
    ensures r.Ok? ==> r.value == named[0] && named == [r.value]
  {
    if |named| == 1 then Ok(named[0]) else Err(RemoteError)
  }

  /** A Nova floating IP and the server it is attached to, if any. */
  datatype NovaFloatingIp = NovaFloatingIp(ip: string, instanceId: Option<string>)

  /** The position of the first floating IP attached to nothing. */
  function FirstFree(fips: seq<NovaFloatingIp>): (r: Option<nat>)
    ensures r.Some? ==> r.value < |fips| && fips[r.value].instanceId.None?
    ensures forall j :: 0 <= j < |fips| && (r.None? || j < r.value) ==> fips[j].instanceId.Some?
    decreases |fips|
  {
    if |fips| == 0 then None
    else if fips[0].instanceId.None? then Some(0)
    else
      match FirstFree(fips[1..])
      case None => None
      case Some(k) => Some(k + 1)
  }

  /** `__get_floating_ip`: the first free address, or a newly created one
      (`created`, which may raise) when every address is taken. */
  function ChooseFloatingIp(fips: seq<NovaFloatingIp>, created: Result<string>): (r: Result<string>)
    ensures FirstFree(fips).Some? ==> r == Ok(fips[FirstFree(fips).value].ip)
    ensures FirstFree(fips).None? ==> r == created
  {
    match FirstFree(fips)
    case Some(k) => Ok(fips[k].ip)
    case None => created
  }

  /** A new floating IP is requested only when every listed one is taken. */
  lemma CreatesOnlyWhenAllTaken(fips: seq<NovaFloatingIp>, created: Result<string>)
    ensures (exists j :: 0 <= j < |fips| && fips[j].instanceId.None?) ==>
              exists j :: 0 <= j < |fips| && fips[j].instanceId.None? && ChooseFloatingIp(fips, created) == Ok(fips[j].ip)
  {
  }

  /** The replies `prepare_instance` gets from Glance and Nova.
      `booted` covers the image upload, the flavor lookup and the server
      create; `named` is the listing by the unique name; `active` is the
      wait for ACTIVE; `afterBoot` covers the image delete and the server
      lookup; `attached` is the floating-IP association. */
  datatype ProvisionReplies = ProvisionReplies(
    booted: bool,
    named: Result<seq<Server>>,
    active: bool,
    afterBoot: bool,
    floatingIps: Result<seq<NovaFloatingIp>>,
    created: Result<string>,
    attached: bool)

  /** `prepare_instance` for OpenStack: the server id is recorded only once
      the name lookup found exactly one server; the instance becomes UP and
      gets its floating IP only when every step succeeded. */
  function PrepareInstance(replies: ProvisionReplies): (p: Provider.Provision)
    ensures p.Provisioned? ==>
              && replies.named.Ok? && |replies.named.value| == 1
              && p.serverId == replies.named.value[0].id && p.markedUp
              && replies.floatingIps.Ok?
              && ChooseFloatingIp(replies.floatingIps.value, replies.created) == Ok(p.ip)
    ensures p.ProvisionFailed? && p.acquired.Some? ==>
              replies.named.Ok? && |replies.named.value| == 1 && p.acquired.value == replies.named.value[0].id
    ensures replies.named.Ok? && |replies.named.value| != 1 ==> p == Provider.ProvisionFailed(None)
    ensures p.Provisioned? <==>
              && replies.booted && replies.named.Ok? && |replies.named.value| == 1
              && replies.active && replies.afterBoot && replies.floatingIps.Ok?
              && ChooseFloatingIp(replies.floatingIps.value, replies.created).Ok? && replies.attached
  {
    if !replies.booted then Provider.ProvisionFailed(None)
    else
      match replies.named
      case Err(_) => Provider.ProvisionFailed(None)
      case Ok(named) =>
        match PickUniqueServer(named)
        case Err(_) => Provider.ProvisionFailed(None)
        case Ok(server) =>
          if !replies.active || !replies.afterBoot then Provider.ProvisionFailed(Some(server.id))
          else
            match replies.floatingIps
            case Err(_) => Provider.ProvisionFailed(Some(server.id))
            case Ok(fips) =>
              match ChooseFloatingIp(fips, replies.created)
              case Err(_) => Provider.ProvisionFailed(Some(server.id))
              case Ok(ip) =>
                if replies.attached then Provider.Provisioned(server.id, ip, true)
                else Provider.ProvisionFailed(Some(server.id))
  }

  // ---------------------------------------------------------------------
  // shutdown_instances and get_instance_cpus

  /** Which servers a shutdown asked Nova about, and which it deleted. */
  datatype ShutdownReport = ShutdownReport(attempted: seq<string>, deleted: seq<string>)

  /** `shutdown_instances`: every instance's server is looked up and deleted
      in turn; `failing` holds the server ids whose lookup or delete raises,
      which is logged and skipped. */
  function ShutdownInstances(xs: seq<Instance>, failing: set<string>): (r: ShutdownReport)
    ensures |r.attempted| == |xs|
    ensures forall k :: 0 <= k < |xs| ==> r.attempted[k] == xs[k].instanceId
    ensures forall id :: id in r.deleted <==> id in r.attempted && id !in failing
    ensures IsSubsequence(r.deleted, r.attempted)
    decreases |xs|
  {
    if |xs| == 0 then ShutdownReport([], [])
    else
      var rest := ShutdownInstances(xs[1..], failing);
      var id := xs[0].instanceId;
      var r := ShutdownReport([id] + rest.attempted,
                              (if id in failing then [] else [id]) + rest.deleted);
      assert forall x :: x in r.attempted <==> x == id || x in rest.attempted;
      assert r.attempted[1..] == rest.attempted;
      if id in failing then
        assert r.deleted == rest.deleted;
        SubsequenceDrop(r.deleted, r.attempted);
        r
      else
        assert r.deleted[1..] == rest.deleted;
        r
  }

  /** A failed delete never holds up the others: shutting down two batches
      in one call deletes exactly what the two calls would delete. */
  lemma {:induction false} ShutdownIsPerInstance(a: seq<Instance>, b: seq<Instance>, failing: set<string>)
    ensures ShutdownInstances(a + b, failing).deleted ==
            ShutdownInstances(a, failing).deleted + ShutdownInstances(b, failing).deleted
    decreases |a|
  {
    if |a| > 0 {
      var id := a[0].instanceId;
      var head: seq<string> := if id in failing then [] else [id];
      assert (a + b)[0] == a[0] && (a + b)[1..] == a[1..] + b;
      assert ShutdownInstances(a + b, failing).deleted == head + ShutdownInstances(a[1..] + b, failing).deleted;
      assert ShutdownInstances(a, failing).deleted == head + ShutdownInstances(a[1..], failing).deleted;
      ShutdownIsPerInstance(a[1..], b, failing);
    } else {
      assert a + b == b;
    }
  }

  /** `get_instance_cpus`: the vcpus of the simulation's flavor, or 1 when the
      lookup raises. */
  function InstanceCpus(lookup: Result<Flavor>): (cpus: int)
    ensures lookup.Ok? ==> cpus == lookup.value.vcpus
    ensures lookup.Err? ==> cpus == 1
  {
    match lookup
    case Ok(f) => f.vcpus
    case Err(_) => 1
  }
}

=== FILE: openstack_utils.dfy ===
/** The quota ledger of the OpenStack provider: the flavor catalog and the
    remaining-capacity computation.  Counters are never clamped, so they may
    go negative; negativity is how a shortage shows. */
module OpenstackUtils {
  import opened Common

  /** A Nova flavor: a compute shape. */
  datatype Flavor = Flavor(id: string, vcpus: int, ram: int)

  /** A Nova server, as far as the ledger looks at it. */
  datatype Server = Server(id: string, flavorId: string)

  /** A tenant quota set.  `others` holds the fields the ledger never
      touches (security groups, key pairs, ...). */
  datatype Quota = Quota(cores: int, instances: int, ram: int, floatingIps: int, others: map<string, int>)

  // ---------------------------------------------------------------------
  // build_flavor_dict

  /** Flavor ids in catalog order. */
  function FlavorIds(flavors: seq<Flavor>): set<string>
  {
    set k | 0 <= k < |flavors| :: flavors[k].id
  }

  /** No flavor after position `k` shares its id. */
  predicate LastOfItsId(flavors: seq<Flavor>, k: int)
    requires 0 <= k < |flavors|
  {
    forall j :: k < j < |flavors| ==> flavors[j].id != flavors[k].id
  }

  /** `build_flavor_dict`: every flavor keyed by its id; of two flavors with
      the same id, the later one in the list is kept. */
  function BuildFlavorDict(flavors: seq<Flavor>): (d: map<string, Flavor>)
    ensures d.Keys == FlavorIds(flavors)
    ensures forall id :: id in d ==> d[id].id == id && d[id] in flavors
    ensures forall k :: 0 <= k < |flavors| && LastOfItsId(flavors, k) ==> d[flavors[k].id] == flavors[k]
    decreases |flavors|
  {
    if |flavors| == 0 then map[]
    else
      var init := flavors[..|flavors| - 1];
      var d0 := BuildFlavorDict(init);
      FlavorDictStep(flavors, d0);
      d0[flavors[|flavors| - 1].id := flavors[|flavors| - 1]]
  }

  lemma FlavorDictStep(flavors: seq<Flavor>, d0: map<string, Flavor>)
    requires |flavors| > 0
    requires d0.Keys == FlavorIds(flavors[..|flavors| - 1])
    requires forall id :: id in d0 ==> d0[id].id == id && d0[id] in flavors[..|flavors| - 1]
    requires forall k :: 0 <= k < |flavors| - 1 && LastOfItsId(flavors[..|flavors| - 1], k) ==>
               d0[flavors[k].id] == flavors[k]
    ensures var last := flavors[|flavors| - 1];
            var d := d0[last.id := last];
            && d.Keys == FlavorIds(flavors)
            && (forall id :: id in d ==> d[id].id == id && d[id] in flavors)
            && (forall k :: 0 <= k < |flavors| && LastOfItsId(flavors, k) ==> d[flavors[k].id] == flavors[k])
  {
    var init := flavors[..|flavors| - 1];
    var last := flavors[|flavors| - 1];
    var d := d0[last.id := last];
    assert FlavorIds(flavors) == FlavorIds(init) + {last.id} by {
      forall id | id in FlavorIds(flavors) ensures id in FlavorIds(init) + {last.id} {
        var k :| 0 <= k < |flavors| && flavors[k].id == id;
        if k < |flavors| - 1 { assert init[k] == flavors[k]; }
      }
      forall id | id in FlavorIds(init) ensures id in FlavorIds(flavors) {
        var k :| 0 <= k < |init| && init[k].id == id;
        assert flavors[k] == init[k];
      }
    }
    forall id | id in d ensures d[id].id == id && d[id] in flavors {
      if id != last.id {
        var f := d0[id];
        assert f in init;
        var k :| 0 <= k < |init| && init[k] == f;
        assert flavors[k] == f;
      }
    }
    forall k | 0 <= k < |flavors| && LastOfItsId(flavors, k) ensures d[flavors[k].id] == flavors[k] {
      if k < |flavors| - 1 {
        assert flavors[k].id != last.id;
        assert init[k] == flavors[k];
        assert LastOfItsId(init, k);
      }
    }
  }

  // ---------------------------------------------------------------------
  // Reference totals

  /** The flavor of a server or deploying instance, or none when the
      catalog does not know it. */
  function VcpusOf(flavors: map<string, Flavor>, id: string): int
  {
    if id in flavors then flavors[id].vcpus else 0
  }

  function RamOf(flavors: map<string, Flavor>, id: string): int
  {
    if id in flavors then flavors[id].ram else 0
  }

  /** Total vcpus of a list of flavor ids. */
  function TotalVcpus(ids: seq<string>, flavors: map<string, Flavor>): int
  {
    if |ids| == 0 then 0 else VcpusOf(flavors, ids[0]) + TotalVcpus(ids[1..], flavors)
  }

  /** Total ram of a list of flavor ids. */
  function TotalRam(ids: seq<string>, flavors: map<string, Flavor>): int
  {
    if |ids| == 0 then 0 else RamOf(flavors, ids[0]) + TotalRam(ids[1..], flavors)
  }

  /** The flavor ids of a server list. */
  function ServerFlavors(servers: seq<Server>): (ids: seq<string>)
    ensures |ids| == |servers|
    ensures forall k :: 0 <= k < |servers| ==> ids[k] == servers[k].flavorId
  {
    if |servers| == 0 then [] else [servers[0].flavorId] + ServerFlavors(servers[1..])
  }

  predicate AllKnown(ids: seq<string>, flavors: map<string, Flavor>)
  {
    forall k :: 0 <= k < |ids| ==> ids[k] in flavors
  }

  // ---------------------------------------------------------------------
  // get_available_resources

  /** The first loop of `get_available_resources`: each live server takes
      its flavor's vcpus and ram and one instance slot.  A server whose
      flavor is not in the catalog raises KeyError. */
  function DeductServers(q: Quota, ids: seq<string>, flavors: map<string, Flavor>): (r: Result<Quota>)
    ensures r.Ok? <==> AllKnown(ids, flavors)
    ensures r.Ok? ==> r.value == q.(cores := q.cores - TotalVcpus(ids, flavors),
                                    instances := q.instances - |ids|,
                                    ram := q.ram - TotalRam(ids, flavors))
    decreases |ids|
  {
    if |ids| == 0 then Ok(q)
    else if ids[0] !in flavors then Err(KeyError)
    else
      var f := flavors[ids[0]];
      var r := DeductServers(q.(cores := q.cores - f.vcpus, instances := q.instances - 1, ram := q.ram - f.ram),
                             ids[1..], flavors);
      assert AllKnown(ids, flavors) <==> AllKnown(ids[1..], flavors) by {
        if AllKnown(ids[1..], flavors) {
          forall k | 0 <= k < |ids| ensures ids[k] in flavors {
            if k > 0 { assert ids[k] == ids[1..][k - 1]; }
          }
        }
      }
      r
  }

  /** The second loop: each instance still deploying reserves its
      simulation flavor's vcpus and ram, one instance slot and, whether or
      not it will need one, one floating IP. */
  function DeductDeploying(q: Quota, ids: seq<string>, flavors: map<string, Flavor>): (r: Result<Quota>)
    ensures r.Ok? <==> AllKnown(ids, flavors)
    ensures r.Ok? ==> r.value == q.(cores := q.cores - TotalVcpus(ids, flavors),
                                    instances := q.instances - |ids|,
                                    ram := q.ram - TotalRam(ids, flavors),
                                    floatingIps := q.floatingIps - |ids|)
    decreases |ids|
  {
    if |ids| == 0 then Ok(q)
    else if ids[0] !in flavors then Err(KeyError)
    else
      var f := flavors[ids[0]];
      var r := DeductDeploying(q.(cores := q.cores - f.vcpus, floatingIps := q.floatingIps - 1,
                                  instances := q.instances - 1, ram := q.ram - f.ram),
                               ids[1..], flavors);
      assert AllKnown(ids, flavors) <==> AllKnown(ids[1..], flavors) by {
        if AllKnown(ids[1..], flavors) {
          forall k | 0 <= k < |ids| ensures ids[k] in flavors {
            if k > 0 { assert ids[k] == ids[1..][k - 1]; }
          }
        }
      }
      r
  }

  /** `get_available_resources(quota, servers, deploying, flavor_dict, used_ips)`:
      `deploying` lists the flavor id of each deploying instance's simulation. */
  function AvailableResources(q: Quota, servers: seq<Server>, deploying: seq<string>,
                              flavors: map<string, Flavor>, usedFloatingIps: nat): (r: Result<Quota>)
    ensures r.Ok? <==> AllKnown(ServerFlavors(servers), flavors) && AllKnown(deploying, flavors)
    ensures r.Ok? ==>
      && r.value.cores == q.cores - TotalVcpus(ServerFlavors(servers), flavors) - TotalVcpus(deploying, flavors)
      && r.value.ram == q.ram - TotalRam(ServerFlavors(servers), flavors) - TotalRam(deploying, flavors)
      && r.value.instances == q.instances - |servers| - |deploying|
      && r.value.floatingIps == q.floatingIps - usedFloatingIps - |deploying|
      && r.value.others == q.others
  {
    var afterServers :- DeductServers(q, ServerFlavors(servers), flavors);
    DeductDeploying(afterServers.(floatingIps := afterServers.floatingIps - usedFloatingIps), deploying, flavors)
  }

  /** Well-formed catalog: no flavor has negative vcpus or ram. */
  predicate NonNegativeFlavors(flavors: map<string, Flavor>)
  {
    forall id :: id in flavors ==> flavors[id].vcpus >= 0 && flavors[id].ram >= 0
  }

  lemma {:induction false} TotalsAppend(ids: seq<string>, id: string, flavors: map<string, Flavor>)
    ensures TotalVcpus(ids + [id], flavors) == TotalVcpus(ids, flavors) + VcpusOf(flavors, id)
    ensures TotalRam(ids + [id], flavors) == TotalRam(ids, flavors) + RamOf(flavors, id)
    decreases |ids|
  {
    if |ids| > 0 {
      assert (ids + [id])[1..] == ids[1..] + [id];
      TotalsAppend(ids[1..], id, flavors);
    }
  }

  lemma {:induction false} TotalsConcat(a: seq<string>, b: seq<string>, flavors: map<string, Flavor>)
    ensures TotalVcpus(a + b, flavors) == TotalVcpus(a, flavors) + TotalVcpus(b, flavors)
    ensures TotalRam(a + b, flavors) == TotalRam(a, flavors) + TotalRam(b, flavors)
    decreases |a|
  {
    if |a| > 0 {
      assert (a + b)[0] == a[0] && (a + b)[1..] == a[1..] + b;
      TotalsConcat(a[1..], b, flavors);
    } else {
      assert a + b == b;
    }
  }

  /** One more live server or one more deploying instance never raises any
      remaining counter; no counter is ever clamped at zero. */
  lemma MoreUsageNeverFreesCapacity(q: Quota, servers: seq<Server>, deploying: seq<string>,
                                    flavors: map<string, Flavor>, used: nat, s: Server, d: string)
    requires NonNegativeFlavors(flavors)
    requires AvailableResources(q, servers + [s], deploying + [d], flavors, used).Ok?
    ensures AvailableResources(q, servers, deploying, flavors, used).Ok?
    ensures var before := AvailableResources(q, servers, deploying, flavors, used).value;
            var after := AvailableResources(q, servers + [s], deploying + [d], flavors, used).value;
            && after.cores <= before.cores && after.ram <= before.ram
            && after.instances == before.instances - 2
            && after.floatingIps == before.floatingIps - 1
  {
    var sf := ServerFlavors(servers + [s]);
    assert sf == ServerFlavors(servers) + [s.flavorId];
    TotalsAppend(ServerFlavors(servers), s.flavorId, flavors);
    TotalsAppend(deploying, d, flavors);
    assert AllKnown(ServerFlavors(servers), flavors) by {
      forall k | 0 <= k < |servers| ensures ServerFlavors(servers)[k] in flavors {
        assert sf[k] in flavors;
      }
    }
    assert AllKnown(deploying, flavors) by {
      forall k | 0 <= k < |deploying| ensures deploying[k] in flavors {
        assert (deploying + [d])[k] == deploying[k];
      }
    }
    assert s.flavorId in flavors by { assert sf[|servers|] == s.flavorId; }
    assert d in flavors by { assert (deploying + [d])[|deploying|] == d; }
  }
}

=== FILE: osv_api.dfy ===
/** The string logic of the OSv REST API client: splitting environment
    lines, unquoting a variable's value, telling a file from a directory,
    what a directory download does with each listing entry, and where each
    source of a download lands.  The HTTP calls are replies given as
    parameters; a reply that is not 200 is an Err(RemoteError). */
module OsvApi {
  import opened Common

  // ---------------------------------------------------------------------
  // env_var_split and EnvAll.get

  /** `env_var_split`: the text before the first `=` and the text after it.
      Without `=`, `find` gives -1, so the key is the line without its last
      character and the value is the whole line. */
  function EnvVarSplit(line: string): (kv: (string, string))
    ensures var ii := Find(line, '=');
            ii >= 0 ==> kv.0 == line[..ii] && kv.1 == line[ii + 1..]
    ensures Find(line, '=') < 0 ==> kv.1 == line && kv.0 == SliceTo(line, -1)
  {
    var ii := Find(line, '=');
    if ii >= 0 then (line[..ii], line[ii + 1..])
    else (SliceTo(line, -1), line)
  }

  /** The key never holds `=`: it ends before the first one, or, without
      one, is part of a line that has none. */
  lemma EnvKeyHasNoEquals(line: string)
    ensures var key := EnvVarSplit(line).0;
            forall j :: 0 <= j < |key| ==> key[j] != '='
  {
    var key := EnvVarSplit(line).0;
    forall j | 0 <= j < |key|
      ensures key[j] != '='
    {
      assert key[j] == line[j];
    }
  }

  /** A line with `=` is its key, `=` and its value. */
  lemma SplitAtFirstEquals(line: string)
    requires Find(line, '=') >= 0
    ensures EnvVarSplit(line).0 + "=" + EnvVarSplit(line).1 == line
  {
    var ii := Find(line, '=');
    assert line == line[..ii] + [line[ii]] + line[ii + 1..];
  }

  /** A key without `=` and any value, joined with `=`, split back apart. */
  lemma EnvVarRoundTrip(key: string, value: string)
    requires forall j :: 0 <= j < |key| ==> key[j] != '='
    ensures EnvVarSplit(key + "=" + value) == (key, value)
  {
    var line := key + "=" + value;
    assert line[|key|] == '=';
    assert forall j :: 0 <= j < |key| ==> line[j] == key[j];
    var ii := Find(line, '=');
    assert ii == |key|;
    assert line[..ii] == key && line[ii + 1..] == value;
  }

  /** `EnvAll.get`: the decoded listing as a dictionary, a later line
      overwriting an earlier one with the same key. */
  function EnvDict(lines: seq<string>): (d: map<string, string>)
    ensures forall key :: key in d <==> key in EnvKeys(lines)
    decreases |lines|
  {
    if |lines| == 0 then map[]
    else
      var kv := EnvVarSplit(lines[|lines| - 1]);
      EnvDict(lines[..|lines| - 1])[kv.0 := kv.1]
  }

  /** The key of each line, in order. */
  function EnvKeys(lines: seq<string>): (keys: seq<string>)
    ensures |keys| == |lines|
    decreases |lines|
  {
    if |lines| == 0 then []
    else EnvKeys(lines[..|lines| - 1]) + [EnvVarSplit(lines[|lines| - 1]).0]
  }

  lemma {:induction false} EnvKeysAt(lines: seq<string>, i: int)
    requires 0 <= i < |lines|
    ensures EnvKeys(lines)[i] == EnvVarSplit(lines[i]).0
    decreases |lines|
  {
    var init := lines[..|lines| - 1];
    if i < |init| {
      EnvKeysAt(init, i);
      assert init[i] == lines[i];
    }
  }

  /** Each key holds the value of the last line that names it. */
  lemma {:induction false} LastLineWins(lines: seq<string>, i: int)
    requires 0 <= i < |lines|
    requires forall j :: i < j < |lines| ==> EnvVarSplit(lines[j]).0 != EnvVarSplit(lines[i]).0
    ensures EnvVarSplit(lines[i]).0 in EnvDict(lines) && EnvDict(lines)[EnvVarSplit(lines[i]).0] == EnvVarSplit(lines[i]).1
    decreases |lines|
  {
    var init := lines[..|lines| - 1];
    if i < |lines| - 1 {
      assert forall j :: i < j < |init| ==> init[j] == lines[j];
      LastLineWins(init, i);
      assert init[i] == lines[i];
    }
  }

  // ---------------------------------------------------------------------
  // Env.get

  /** `Env.get`: the reply with the double quotes around the value removed. */
  function EnvGet(reply: Result<string>): (r: Result<string>)
    ensures r.Ok? <==> reply.Ok?
    ensures r.Ok? ==> |r.value| > 0 ==> r.value[0] != '"' && r.value[|r.value| - 1] != '"'
  {
    match reply
    case Err(e) => Err(e)
    case Ok(content) =>
      var v := Strip(content, {'"'});
      assert |v| > 0 ==> v[0] != '"' by {
        if |v| > 0 {
          var l := LStrip(content, {'"'});
          assert v == RStrip(l, {'"'}) && v == l[..|v|];
        }
      }
      Ok(v)
  }

  /** A value the API sends quoted comes back as it was set. */
  lemma QuotedValueReadBack(value: string)
    requires |value| > 0 ==> value[0] != '"' && value[|value| - 1] != '"'
    ensures EnvGet(Ok("\"" + value + "\"")) == Ok(value)
  {
    if |value| > 0 {
      StripSurrounded(value, {'"'}, "\"", "\"");
    } else {
      var s := "\"" + value + "\"";
      assert s == "\"\"";
      assert LStrip(s, {'"'}) == LStrip(s[1..], {'"'});
      assert s[1..][1..] == "";
    }
  }

  // ---------------------------------------------------------------------
  // File.get and File.get_dir

  /** `File.get`: a listing reply of exactly `[]` means `src` is a file,
      whose content is returned; anything else is a directory, downloaded
      for its effect, and nothing is returned.  A failing call is reported
      and raised again. */
  function FileGet(listing: Result<string>, fileReply: Result<string>, dirOk: bool): (r: Result<Option<string>>)
    ensures r.Ok? && r.value.Some? <==> listing == Ok("[]") && fileReply.Ok?
    ensures r.Ok? && r.value.Some? ==> r.value.value == fileReply.value
    ensures r.Ok? && r.value.None? <==> listing.Ok? && listing.value != "[]" && dirOk
  {
    match listing
    case Err(e) => Err(e)
    case Ok(content) =>
      if content == "[]" then
        match fileReply
        case Err(e) => Err(e)
        case Ok(c) => Ok(Some(c))
      else if dirOk then Ok(None)
      else Err(RemoteError)
  }

  /** One entry of a directory listing. */
  datatype Entry = Entry(kind: string, suffix: string)

  /** What downloading one directory does on the host. */
  datatype DirAction =
    | MakeDir(path: string)
    | RemoveDirs(path: string)
    | Recurse(src: string, dest: string)
    | Fetch(src: string, dest: string)

  /** Directory entries not downloaded at all. */
  predicate SelfOrParent(name: string) { name == "." || name == ".." }

  /** At the root, device and process directories are recreated empty. */
  predicate PseudoDir(path: string, name: string) { path == "/" && (name == "dev" || name == "proc") }

  /** A DIRECTORY entry that is descended into. */
  predicate Descends(path: string, e: Entry)
  {
    e.kind == "DIRECTORY" && !SelfOrParent(e.suffix) && !PseudoDir(path, e.suffix)
  }

  /** What one listing entry leads to; an entry of another type is only
      logged.  `onHost` is the host's answer to `os.path.exists`. */
  function EntryActions(path: string, dest: string, e: Entry, onHost: string -> bool): (r: seq<DirAction>)
    ensures forall a :: a in r && a.Recurse? ==>
              Descends(path, e) && a == Recurse(PathJoin(path, e.suffix), PathJoin(dest, e.suffix))
    ensures Descends(path, e) ==> Recurse(PathJoin(path, e.suffix), PathJoin(dest, e.suffix)) in r
    ensures forall a :: a in r && a.Fetch? ==>
              e.kind == "FILE" && a == Fetch(PathJoin(path, e.suffix), PathJoin(dest, e.suffix))
    ensures e.kind == "FILE" ==> Fetch(PathJoin(path, e.suffix), PathJoin(dest, e.suffix)) in r
    ensures (e.kind == "DIRECTORY" && SelfOrParent(e.suffix)) || (e.kind != "DIRECTORY" && e.kind != "FILE") ==> r == []
  {
    if e.kind == "DIRECTORY" then
      var name := e.suffix;
      if SelfOrParent(name) then []
      else if PseudoDir(path, name) then
        var devDir := PathJoin(dest, name);
        (if onHost(devDir) then [RemoveDirs(devDir)] else []) + [MakeDir(devDir)]
      else [Recurse(PathJoin(path, name), PathJoin(dest, name))]
    else if e.kind == "FILE" then
      [Fetch(PathJoin(path, e.suffix), PathJoin(dest, e.suffix))]
    else []
  }

  function EntriesActions(path: string, dest: string, entries: seq<Entry>, onHost: string -> bool): (r: seq<DirAction>)
    ensures forall a :: a in r && a.Recurse? ==>
              exists i :: 0 <= i < |entries| && Descends(path, entries[i])
                          && a == Recurse(PathJoin(path, entries[i].suffix), PathJoin(dest, entries[i].suffix))
    ensures forall i :: 0 <= i < |entries| && Descends(path, entries[i]) ==>
              Recurse(PathJoin(path, entries[i].suffix), PathJoin(dest, entries[i].suffix)) in r
    ensures forall a :: a in r && a.Fetch? ==>
              exists i :: 0 <= i < |entries| && entries[i].kind == "FILE"
                          && a == Fetch(PathJoin(path, entries[i].suffix), PathJoin(dest, entries[i].suffix))
    ensures forall i :: 0 <= i < |entries| && entries[i].kind == "FILE" ==>
              Fetch(PathJoin(path, entries[i].suffix), PathJoin(dest, entries[i].suffix)) in r
    decreases |entries|
  {
    if |entries| == 0 then []
    else
      var first := EntryActions(path, dest, entries[0], onHost);
      var rest := EntriesActions(path, dest, entries[1..], onHost);
      assert forall i :: 1 <= i < |entries| ==> entries[1..][i - 1] == entries[i];
      first + rest
  }

  /** `File.get_dir` for one listing: the destination is created when
      missing, then each entry is handled in order; subdirectories appear
      as Recurse actions for the nested call. */
  function GetDir(path: string, dest: string, entries: seq<Entry>, onHost: string -> bool): (r: seq<DirAction>)
    ensures !onHost(dest) ==> |r| > 0 && r[0] == MakeDir(dest)
  {
    (if !onHost(dest) then [MakeDir(dest)] else []) + EntriesActions(path, dest, entries, onHost)
  }

  /** The download descends into exactly the subdirectories listed, never
      into `.` or `..`, and at the root never into `dev` or `proc`; it
      fetches exactly the files listed, each to the same name under the
      destination. */
  lemma DownloadsExactlyTheListing(path: string, dest: string, entries: seq<Entry>, onHost: string -> bool,
                                   src: string, to: string)
    ensures Recurse(src, to) in GetDir(path, dest, entries, onHost) <==>
              exists i :: 0 <= i < |entries| && Descends(path, entries[i])
                          && src == PathJoin(path, entries[i].suffix) && to == PathJoin(dest, entries[i].suffix)
    ensures Fetch(src, to) in GetDir(path, dest, entries, onHost) <==>
              exists i :: 0 <= i < |entries| && entries[i].kind == "FILE"
                          && src == PathJoin(path, entries[i].suffix) && to == PathJoin(dest, entries[i].suffix)
  {
    var pre := if !onHost(dest) then [MakeDir(dest)] else [];
    var r := GetDir(path, dest, entries, onHost);
    assert r == pre + EntriesActions(path, dest, entries, onHost);
    assert Recurse(src, to) !in pre && Fetch(src, to) !in pre;
  }

  /** `File.get` on a directory: when the first listing of `src` is not
      `[]`, `get_dir` lists `src` again and downloads that listing.  The
      call returns nothing exactly when that listing and everything after it
      succeeded, and what it fetches and descends into is exactly the files
      and subdirectories that listing names, under `dest`. */
  lemma {:induction false} DirectoryGetFollowsListing(src: string, dest: string, listing: Result<string>,
                                                      fileReply: Result<string>, dirListing: Result<seq<Entry>>,
                                                      nestedOk: bool, onHost: string -> bool, s: string, to: string)
    requires listing.Ok? && listing.value != "[]"
    ensures FileGet(listing, fileReply, dirListing.Ok? && nestedOk) == Ok(None) <==> dirListing.Ok? && nestedOk
    ensures FileGet(listing, fileReply, dirListing.Ok? && nestedOk).Err? <==> !(dirListing.Ok? && nestedOk)
    ensures dirListing.Ok? ==>
              (Fetch(s, to) in GetDir(src, dest, dirListing.value, onHost) <==>
                 exists i :: 0 <= i < |dirListing.value| && dirListing.value[i].kind == "FILE"
                             && s == PathJoin(src, dirListing.value[i].suffix)
                             && to == PathJoin(dest, dirListing.value[i].suffix))
    ensures dirListing.Ok? ==>
              (Recurse(s, to) in GetDir(src, dest, dirListing.value, onHost) <==>
                 exists i :: 0 <= i < |dirListing.value| && Descends(src, dirListing.value[i])
                             && s == PathJoin(src, dirListing.value[i].suffix)
                             && to == PathJoin(dest, dirListing.value[i].suffix))
  {
    if dirListing.Ok? {
      DownloadsExactlyTheListing(src, dest, dirListing.value, onHost, s, to);
    }
  }

  // ---------------------------------------------------------------------
  // File.download_directory

  /** Python's `os.path.split(src.rstrip('/'))[1]`: the last component of
      `src`, trailing slashes ignored. */
  function BaseName(src: string): (name: string)
    ensures forall j :: 0 <= j < |name| ==> name[j] != '/'
    ensures EndsWith(RStrip(src, {'/'}), name)
  {
    var t := RStrip(src, {'/'});
    var i := RFind(t, '/');
    assert t[|t| - |t[i + 1..]|..] == t[i + 1..];
    t[i + 1..]
  }

  /** What the host holds at the destination path. */
  datatype HostPath = Missing | Directory | RegularFile

  /** How a download goes: it exits with status 1, or it creates the
      destination directory or not and copies each source to its target. */
  datatype Download = ExitWithError | Copy(makeDir: bool, copies: seq<(string, string)>)

  /** Several sources, or a destination ending in `/`, ask for a directory. */
  predicate DestIsDir(srcs: seq<string>, dest: string) { |srcs| > 1 || EndsWith(dest, "/") }

  /** `File.download_directory`. */
  function DownloadDirectory(srcs: seq<string>, dest: string, host: HostPath): (r: Download)
    ensures r.ExitWithError? <==> DestIsDir(srcs, dest) && host == RegularFile
    ensures r.Copy? ==> (r.makeDir <==> DestIsDir(srcs, dest) && host == Missing)
    ensures r.Copy? ==> |r.copies| == |srcs| && forall k :: 0 <= k < |srcs| ==> r.copies[k].0 == srcs[k]
    ensures r.Copy? && DestIsDir(srcs, dest) ==>
              forall k :: 0 <= k < |srcs| ==> r.copies[k].1 == PathJoin(dest, BaseName(srcs[k]))
    ensures r.Copy? && !DestIsDir(srcs, dest) ==> |srcs| <= 1 && forall k :: 0 <= k < |srcs| ==> r.copies[k].1 == dest
  {
    var dir := |srcs| > 1 || EndsWith(dest, "/");
    if dir && host == RegularFile then ExitWithError
    else
      Copy(dir && host == Missing,
           seq(|srcs|, k requires 0 <= k < |srcs| => (srcs[k], if dir then PathJoin(dest, BaseName(srcs[k])) else dest)))
  }

  /** Into a directory, sources with different last components land on
      different targets. */
  lemma DistinctNamesDistinctTargets(srcs: seq<string>, dest: string, host: HostPath, i: int, j: int)
    requires DestIsDir(srcs, dest) && host != RegularFile
    requires 0 <= i < |srcs| && 0 <= j < |srcs| && BaseName(srcs[i]) != BaseName(srcs[j])
    ensures DownloadDirectory(srcs, dest, host).copies[i].1 != DownloadDirectory(srcs, dest, host).copies[j].1
  {
    DirTarget(srcs, dest, host, i);
    DirTarget(srcs, dest, host, j);
    JoinDistinctNames(dest, BaseName(srcs[i]), BaseName(srcs[j]));
  }

  lemma DirTarget(srcs: seq<string>, dest: string, host: HostPath, k: int)
    requires DestIsDir(srcs, dest) && host != RegularFile && 0 <= k < |srcs|
    ensures DownloadDirectory(srcs, dest, host).Copy?
    ensures |DownloadDirectory(srcs, dest, host).copies| == |srcs|
    ensures DownloadDirectory(srcs, dest, host).copies[k].1 == PathJoin(dest, BaseName(srcs[k]))
  {
  }

  /** Different slash-free names join to different paths. */
  lemma JoinDistinctNames(dest: string, a: string, b: string)
    requires forall j :: 0 <= j < |a| ==> a[j] != '/'
    requires forall j :: 0 <= j < |b| ==> b[j] != '/'
    requires a != b
    ensures PathJoin(dest, a) != PathJoin(dest, b)
  {
    assert !StartsWith(a, "/") by { assert |a| > 0 ==> a[0] != '/'; }
    assert !StartsWith(b, "/") by { assert |b| > 0 ==> b[0] != '/'; }
    if PathJoin(dest, a) == PathJoin(dest, b) {
      PathJoinInjective(dest, a, b);
    }
  }

}

=== FILE: osv_vm.dfy ===
/** The string logic of the OSv VM launcher: CIDR to netmask, permission
    digits to `rwx` text, the network mode and the `run.py` command line,
    and the scan of console output for the shell prompt and the DHCP
    address.  libvirt, the image copy and the process itself are not part
    of this model. */
module OsvVm {
  import opened Common

  // ---------------------------------------------------------------------
  // cidr_to_ip_mask

  /** Python's `c * n` for a one-character string: empty when `n <= 0`. */
  function Repeat(c: char, n: int): (r: string)
    ensures |r| == if n > 0 then n else 0
    ensures forall i :: 0 <= i < |r| ==> r[i] == c
  {
    seq(if n > 0 then n else 0, _ => c)
  }

  /** `int(s, 2)` for a non-empty text of `0` and `1` characters. */
  function BinaryValue(s: string): nat
    decreases |s|
  {
    if |s| == 0 then 0 else 2 * BinaryValue(s[..|s| - 1]) + (if s[|s| - 1] == '1' then 1 else 0)
  }

  /** The bit text of a prefix length: `bits` ones then `32 - bits` zeros,
      each part empty when its count is not positive. */
  function MaskBits(bits: int): (ss: string)
    ensures |ss| >= 32
  {
    Repeat('1', bits) + Repeat('0', 32 - bits)
  }

  /** Prefix length clamped to 0..32. */
  function Clamp(n: int, hi: int): int
  {
    if n < 0 then 0 else if n > hi then hi else n
  }

  /** The values an octet of a netmask can take, by its number of leading
      ones. */
  const OctetByOnes: seq<nat> := [0, 128, 192, 224, 240, 248, 252, 254, 255]

  /** Reference definition: octet `i` of the netmask of prefix length
      `bits`, counting from the most significant. */
  function MaskOctet(bits: int, i: nat): (o: nat)
    requires i < 4
    ensures o <= 255
  {
    OctetByOnes[Clamp(bits - 8 * i, 8)]
  }

  /** The four octets `cidr_to_ip_mask` computes: `int(..., 2)` of the
      8-character slices `[-32:-24]`, `[-24:-16]`, `[-16:-8]` and `[-8:]`. */
  function MaskOctets(bits: int): (octets: seq<nat>)
    ensures |octets| == 4
    ensures forall i :: 0 <= i < 4 ==> octets[i] == MaskOctet(bits, i)
  {
    OctetAt(bits, 0);
    OctetAt(bits, 1);
    OctetAt(bits, 2);
    OctetAt(bits, 3);
    [BinaryValue(OctetSlice(bits, 0)), BinaryValue(OctetSlice(bits, 1)),
     BinaryValue(OctetSlice(bits, 2)), BinaryValue(OctetSlice(bits, 3))]
  }

  /** The slices `[-32:-24]`, `[-24:-16]`, `[-16:-8]` and `[-8:]` of the bit
      text, for octets 0 to 3. */
  function OctetSlice(bits: int, i: nat): (chunk: string)
    requires i < 4
  {
    var ss := MaskBits(bits);
    var n := |ss|;
    if i == 3 then ss[n - 8..] else ss[n - 32 + 8 * i..n - 24 + 8 * i]
  }

  /** The 8-character slice for octet `i` reads as that octet of the mask. */
  lemma OctetAt(bits: int, i: nat)
    requires i < 4
    ensures BinaryValue(OctetSlice(bits, i)) == MaskOctet(bits, i)
  {
    var ss := MaskBits(bits);
    var n := |ss|;
    var chunk := OctetSlice(bits, i);
    assert chunk == ss[n - 32 + 8 * i..n - 24 + 8 * i];
    var a := Clamp(bits - 8 * i, 8);
    forall j | 0 <= j < 8
      ensures chunk[j] == if j < a then '1' else '0'
    {
      MaskBitsAt(bits, 8 * i + j);
    }
    OnesThenZeros(chunk, a);
    OctetTable(a);
  }

  /** Character `p` of the last 32 of the bit text is a one exactly when
      `p` is below the clamped prefix length. */
  lemma MaskBitsAt(bits: int, p: int)
    requires 0 <= p < 32
    ensures var ss := MaskBits(bits);
            ss[|ss| - 32 + p] == if p < Clamp(bits, 32) then '1' else '0'
  {
  }

  function Pow2(n: nat): (r: nat)
    ensures r >= 1
  {
    if n == 0 then 1 else 2 * Pow2(n - 1)
  }

  /** `a` ones followed by zeros, read in binary. */
  lemma {:induction false} OnesThenZeros(s: string, a: nat)
    requires a <= |s|
    requires forall j :: 0 <= j < |s| ==> s[j] == if j < a then '1' else '0'
    ensures BinaryValue(s) == (Pow2(a) - 1) * Pow2(|s| - a)
    decreases |s|
  {
    if |s| > 0 {
      var init := s[..|s| - 1];
      if a == |s| {
        OnesThenZeros(init, a - 1);
        assert Pow2(|init| - (a - 1)) == 1;
      } else {
        OnesThenZeros(init, a);
        assert Pow2(|s| - a) == 2 * Pow2(|init| - a);
      }
    }
  }

  lemma OctetTable(a: nat)
    requires a <= 8
    ensures (Pow2(a) - 1) * Pow2(8 - a) == OctetByOnes[a]
  {
    assert Pow2(0) == 1 && Pow2(1) == 2 && Pow2(2) == 4 && Pow2(3) == 8 && Pow2(4) == 16;
    assert Pow2(5) == 32 && Pow2(6) == 64 && Pow2(7) == 128 && Pow2(8) == 256;
  }

  /** `'%d.%d.%d.%d'` of four octets. */
  function Dotted(octets: seq<nat>): string
    requires |octets| == 4
  {
    NatToString(octets[0]) + "." + NatToString(octets[1]) + "." + NatToString(octets[2]) + "." + NatToString(octets[3])
  }

  /** `cidr_to_ip_mask`: the text before the one `/`, and the dotted mask of
      the prefix length after it.  More or fewer than one `/`, or a length
      `int()` rejects, is a ValueError; a length above 32 gives all ones and
      a negative one all zeros. */
  function CidrToIpMask(cidr: string): (r: Result<(string, string)>)
    ensures r.Ok? ==> exists bits :: ParseInt(bits) .Ok? && cidr == r.value.0 + "/" + bits
                                      && r.value.1 == Dotted(MaskOctets(ParseInt(bits).value))
    ensures r.Ok? ==> !Contains(r.value.0, "/")
  {
    var parts := Split(cidr, "/");
    if |parts| != 2 then Err(ValueError)
    else
      match ParseInt(parts[1])
      case Err(e) => Err(e)
      case Ok(n1) =>
        TwoFields(cidr);
        Ok((parts[0], Dotted(MaskOctets(n1))))
  }

  /** Text that splits into two fields at `/` is the first, `/` and the
      second, and the first has no `/`. */
  lemma TwoFields(cidr: string)
    requires |Split(cidr, "/")| == 2
    ensures var parts := Split(cidr, "/");
            cidr == parts[0] + "/" + parts[1] && !Contains(parts[0], "/")
  {
    var parts := Split(cidr, "/");
    JoinSplit(cidr, "/");
    SplitFieldsClean(cidr, "/");
    assert parts[1..] == [parts[1]];
  }

  /** `p in s` for a one-character `p` means the character occurs. */
  lemma SlashAt(s: string)
    ensures Contains(s, "/") ==> exists j :: 0 <= j < |s| && s[j] == '/'
  {
    if Contains(s, "/") {
      var r := FindSub(s, "/");
      assert s[r..r + 1] == "/";
      assert s[r] == s[r..r + 1][0];
    }
  }

  /** Text built from an address and a prefix length that hold no `/`
      converts back to that address and the mask of that length. */
  lemma CidrOfParts(ip: string, bitsText: string)
    requires forall j :: 0 <= j < |ip| ==> ip[j] != '/'
    requires forall j :: 0 <= j < |bitsText| ==> bitsText[j] != '/'
    requires ParseInt(bitsText).Ok?
    ensures CidrToIpMask(ip + "/" + bitsText) == Ok((ip, Dotted(MaskOctets(ParseInt(bitsText).value))))
  {
    SplitAtOnlySlash(ip, bitsText);
  }

  /** The one `/` between two slash-free parts splits the text into them. */
  lemma SplitAtOnlySlash(ip: string, bitsText: string)
    requires forall j :: 0 <= j < |ip| ==> ip[j] != '/'
    requires forall j :: 0 <= j < |bitsText| ==> bitsText[j] != '/'
    ensures Split(ip + "/" + bitsText, "/") == [ip, bitsText]
  {
    var s := ip + "/" + bitsText;
    FirstSlashAfter(ip, bitsText);
    assert s[..|ip|] == ip && s[|ip| + 1..] == bitsText;
    SlashAt(bitsText);
    assert Split(bitsText, "/") == [bitsText];
  }

  /** The first `/` sits right after a slash-free prefix. */
  lemma FirstSlashAfter(ip: string, bitsText: string)
    requires forall j :: 0 <= j < |ip| ==> ip[j] != '/'
    ensures FindSub(ip + "/" + bitsText, "/") == |ip|
  {
    var s := ip + "/" + bitsText;
    assert OccursAt(s, "/", |ip|);
    OccursContains(s, "/", |ip|);
    var r := FindSub(s, "/");
    assert s[r..r + 1] == "/";
    assert s[r] == s[r..r + 1][0] == '/';
  }

  /** Any address with a `/24` suffix gets mask 255.255.255.0. */
  lemma SlashTwentyFour(ip: string)
    requires forall j :: 0 <= j < |ip| ==> ip[j] != '/'
    ensures CidrToIpMask(ip + "/" + "24") == Ok((ip, "255.255.255.0"))
  {
    var bits := "24";
    assert bits[0] != '/' && bits[1] != '/';
    ParseTwentyFour();
    CidrOfParts(ip, bits);
    MaskTwentyFour();
  }

  lemma ParseTwentyFour()
    ensures ParseInt("24") == Ok(24)
  {
    var t := "24";
    ParseDigits(t);
    assert t[..1] == "2";
  }

  lemma MaskTwentyFour()
    ensures Dotted(MaskOctets(24)) == "255.255.255.0"
  {
    var o := MaskOctets(24);
    assert o[0] == 255 && o[1] == 255 && o[2] == 255 && o[3] == 0;
    assert NatToString(25) == NatToString(2) + [DigitChar(5)];
    assert NatToString(255) == NatToString(25) + [DigitChar(5)];
    assert NatToString(255) == "255" && NatToString(0) == "0";
  }

  // ---------------------------------------------------------------------
  // _perm_num_to_str

  /** The `rwx` text of each octal digit. */
  const PermTriples: seq<string> := ["---", "--x", "-w-", "-wx", "r--", "r-x", "rw-", "rwx"]

  /** The digits one by one: `int()` of a character that is not a decimal
      digit raises ValueError, and the digits 8 and 9 index past the table. */
  function PermDigits(perm: string): (r: Result<string>)
    ensures r.Ok? ==> |r.value| == 3 * |perm|
    decreases |perm|
  {
    if |perm| == 0 then Ok("")
    else if !IsDigit(perm[0]) then Err(ValueError)
    else if DigitValue(perm[0]) >= 8 then Err(IndexError)
    else
      match PermDigits(perm[1..])
      case Err(e) => Err(e)
      case Ok(rest) => Ok(PermTriples[DigitValue(perm[0])] + rest)
  }

  /** `_perm_num_to_str`: `'0'` alone is nine dashes, anything else is
      converted digit by digit. */
  function PermNumToStr(perm: string): (r: Result<string>)
    ensures perm == "0" ==> r == Ok("---------")
    ensures perm != "0" && r.Ok? ==> |r.value| == 3 * |perm|
  {
    if perm == "0" then Ok("---------") else PermDigits(perm)
  }

  predicate OctalDigit(c: char) { '0' <= c <= '7' }

  /** Reference reading of a permission triple: read, write and execute
      bits, or None for text that is not a triple. */
  function TripleDigit(t: string): Option<char>
  {
    if |t| == 3 && (t[0] == 'r' || t[0] == '-') && (t[1] == 'w' || t[1] == '-') && (t[2] == 'x' || t[2] == '-')
    then Some(DigitChar((if t[0] == 'r' then 4 else 0) + (if t[1] == 'w' then 2 else 0) + (if t[2] == 'x' then 1 else 0)))
    else None
  }

  /** Reading `rwx` text back into octal digits, three characters at a time. */
  function PermStrToNum(s: string): Option<string>
    decreases |s|
  {
    if |s| == 0 then Some("")
    else if |s| < 3 then None
    else
      match (TripleDigit(s[..3]), PermStrToNum(s[3..]))
      case (Some(d), Some(rest)) => Some([d] + rest)
      case _ => None
  }

  /** Each table entry reads back as its own digit. */
  lemma TriplesReadBack(d: nat)
    requires d < 8
    ensures TripleDigit(PermTriples[d]) == Some(DigitChar(d))
  {
  }

  /** The conversion succeeds exactly on octal digit text, and reading the
      result back gives the digits again. */
  lemma {:induction false} PermRoundTrip(perm: string)
    ensures PermDigits(perm).Ok? <==> forall i :: 0 <= i < |perm| ==> OctalDigit(perm[i])
    ensures PermDigits(perm).Ok? ==> PermStrToNum(PermDigits(perm).value) == Some(perm)
    decreases |perm|
  {
    if |perm| > 0 {
      PermRoundTrip(perm[1..]);
      assert forall i :: 1 <= i < |perm| ==> perm[1..][i - 1] == perm[i];
      if OctalDigit(perm[0]) && PermDigits(perm[1..]).Ok? {
        var d := DigitValue(perm[0]);
        var s := PermDigits(perm).value;
        TriplesReadBack(d);
        assert s[..3] == PermTriples[d] && s[3..] == PermDigits(perm[1..]).value;
        assert DigitChar(d) == perm[0];
        assert [perm[0]] + perm[1..] == perm;
      }
    }
  }

  /** The documented example and the special case. */
  lemma PermExamples()
    ensures PermNumToStr("664") == Ok("rw-rw-r--")
    ensures PermNumToStr("0") == Ok("---------")
    ensures PermNumToStr("00") == Ok("------")
    ensures PermNumToStr("8") == Err(IndexError)
  {
    assert PermDigits("") == Ok("");
    assert DigitValue('4') == 4 && DigitValue('6') == 6 && DigitValue('0') == 0 && DigitValue('8') == 8;
    assert PermDigits("4") == Ok("r--") by { assert "4"[1..] == ""; assert "r--" + "" == "r--"; }
    assert PermDigits("64") == Ok("rw-r--") by { assert "64"[1..] == "4"; assert "rw-" + "r--" == "rw-r--"; }
    assert PermDigits("664") == Ok("rw-rw-r--") by { assert "664"[1..] == "64"; assert "rw-" + "rw-r--" == "rw-rw-r--"; }
    assert PermDigits("0") == Ok("---") by { assert "0"[1..] == ""; assert "---" + "" == "---"; }
    assert PermDigits("00") == Ok("------") by { assert "00"[1..] == "0"; assert "---" + "---" == "------"; }
    assert "00" != "0" && "664" != "0" && "8" != "0";
  }

  // ---------------------------------------------------------------------
  // VMParam and _build_run_command

  datatype NetMode = NetStatic | NetDhcp | NetNone

  /** The network mode `VMParam` picks: static when an address is given,
      otherwise DHCP when networking is on, otherwise none. */
  function SelectNetMode(netIp: string, networking: bool): (m: NetMode)
    ensures m.NetStatic? <==> netIp != ""
    ensures m.NetDhcp? <==> netIp == "" && networking
    ensures m.NetNone? <==> netIp == "" && !networking
  {
    if netIp != "" then NetStatic else if networking then NetDhcp else NetNone
  }

  /** The MAC `VMParam` keeps: `rand` asks for a random one, which is
      given here, in the `52:54:00:xx:xx:xx` range. */
  function SelectMac(netMac: string, random: (nat, nat, nat)): (mac: string)
    requires random.0 < 256 && random.1 < 256 && random.2 < 256
    ensures netMac == "rand" ==> StartsWith(mac, "52:54:00:") && |mac| == 17
    ensures netMac != "rand" ==> mac == netMac
  {
    if netMac == "rand" then "52:54:00:" + Hex2(random.0) + ":" + Hex2(random.1) + ":" + Hex2(random.2)
    else netMac
  }

  /** `'%02x' % n` for a byte. */
  function Hex2(n: nat): (s: string)
    requires n < 256
    ensures |s| == 2
  {
    ["0123456789abcdef"[n / 16], "0123456789abcdef"[n % 16]]
  }

  /** The path of the OSv CLI application, run when no command is given. */
  const OsvCliApp: string := "/cli/cli.so"

  /** The parameters the command line depends on; zero counts and empty
      texts are Python's false. */
  datatype VmParam = VmParam(
    command: string, inUseImage: string, cpus: int, memory: int,
    verbose: bool, debug: bool,
    netMode: NetMode, netMac: string, netIp: string, netGw: string, netDns: string)

  /** The arguments before the network ones: image, CPUs, memory and the
      verbosity flags, each only when set. */
  function BaseArgs(p: VmParam): (args: seq<string>)
    ensures |args| >= 1 && args[0] == "./scripts/run.py"
  {
    ["./scripts/run.py"]
      + (if p.inUseImage != "" then ["--image", p.inUseImage] else [])
      + (if p.cpus != 0 then ["--vcpus", IntToString(p.cpus)] else [])
      + (if p.memory != 0 then ["--memsize", IntToString(p.memory)] else [])
      + (if p.verbose then ["--verbose"] else [])
      + (if p.debug then ["--debug"] else [])
  }

  /** The `--ip=...` option and the gateway and name server options that
      follow it, for a static address. */
  function StaticNetOption(ip: string, netmask: string, gw: string, dns: string): string
  {
    "--ip=eth0," + ip + "," + netmask
      + (if gw != "" then " --defaultgw=" + gw else "")
      + (if dns != "" then " --nameserver=" + dns else "")
  }

  /** The command line of a VM with a static address: the network options,
      then the command to run. */
  function StaticCommandLine(ip: string, netmask: string, p: VmParam): (full: string)
    ensures StartsWith(full, "--ip=eth0," + ip + "," + netmask)
    ensures EndsWith(full, " " + AppCommand(p))
  {
    var pre := "--ip=eth0," + ip + "," + netmask;
    var mid := (if p.netGw != "" then " --defaultgw=" + p.netGw else "")
               + (if p.netDns != "" then " --nameserver=" + p.netDns else "");
    var tail := " " + AppCommand(p);
    var cmdNet := StaticNetOption(ip, netmask, p.netGw, p.netDns);
    assert cmdNet == pre + mid;
    assert cmdNet + tail == pre + (mid + tail);
    ConcatAffixes(pre, mid + tail);
    ConcatAffixes(cmdNet, tail);
    cmdNet + tail
  }

  /** The command the VM runs: the user's, or the CLI application. */
  function AppCommand(p: VmParam): string
  {
    if p.command != "" then p.command else OsvCliApp
  }

  /** `_build_run_command`: the `run.py` arguments and the command line the
      VM runs.  A static address that is not CIDR text raises. */
  function BuildRunCommand(p: VmParam): (r: Result<(seq<string>, string)>)
    ensures r.Ok? <==> !p.netMode.NetStatic? || CidrToIpMask(p.netIp).Ok?
    ensures r.Ok? ==> var (args, full) := r.value;
              && |args| >= 2 && args[|args| - 2..] == ["-e", full]
              && |BaseArgs(p)| <= |args| && args[..|BaseArgs(p)|] == BaseArgs(p)
    ensures r.Ok? && p.netMode.NetStatic? ==>
              r.value.1 == StaticCommandLine(CidrToIpMask(p.netIp).value.0, CidrToIpMask(p.netIp).value.1, p)
  {
    var base := BaseArgs(p);
    if p.netMode.NetNone? then
      var full := if p.command != "" then p.command else OsvCliApp;
      Ok((base + ["-e", full], full))
    else
      var mac := if p.netMac != "" then ["--mac", p.netMac] else [];
      var net := base + mac + ["-n", "-v"];
      if p.netMode.NetDhcp? then
        var full := if p.command != "" then p.command else OsvCliApp;
        Ok((net + ["-e", full], full))
      else
        match CidrToIpMask(p.netIp)
        case Err(e) => Err(e)
        case Ok((ip, netmask)) =>
          var full := StaticCommandLine(ip, netmask, p);
          Ok((net + ["-e", full], full))
  }

  /** Without networking no MAC and no `-n` are passed; with DHCP the MAC,
      when set, and `-n -v` follow the common arguments; either way the VM
      runs the user's command or the CLI application as it is. */
  lemma RunCommandWithoutStaticAddress(p: VmParam)
    requires !p.netMode.NetStatic?
    ensures BuildRunCommand(p).Ok?
    ensures BuildRunCommand(p).value.1 == AppCommand(p)
    ensures p.netMode.NetNone? ==> BuildRunCommand(p).value.0 == BaseArgs(p) + ["-e", AppCommand(p)]
    ensures p.netMode.NetDhcp? ==>
              BuildRunCommand(p).value.0
              == BaseArgs(p) + (if p.netMac != "" then ["--mac", p.netMac] else []) + ["-n", "-v", "-e", AppCommand(p)]
  {
  }

  /** With the network mode `VMParam` selects, the command line is built
      exactly when no address is given or the address is CIDR text; with no
      address, networking adds the DHCP arguments and no networking adds
      none, and a static address leads the VM's command line. */
  lemma {:induction false} SelectedModeBuilds(p: VmParam, networking: bool)
    requires p.netMode == SelectNetMode(p.netIp, networking)
    ensures BuildRunCommand(p).Ok? <==> p.netIp == "" || CidrToIpMask(p.netIp).Ok?
    ensures p.netIp == "" && !networking ==> BuildRunCommand(p).value.0 == BaseArgs(p) + ["-e", AppCommand(p)]
    ensures p.netIp == "" && networking ==>
              BuildRunCommand(p).value.0
              == BaseArgs(p) + (if p.netMac != "" then ["--mac", p.netMac] else []) + ["-n", "-v", "-e", AppCommand(p)]
    ensures p.netIp != "" && CidrToIpMask(p.netIp).Ok? ==>
              var (ip, netmask) := CidrToIpMask(p.netIp).value;
              StartsWith(BuildRunCommand(p).value.1, "--ip=eth0," + ip + "," + netmask)
  {
    if p.netIp == "" {
      RunCommandWithoutStaticAddress(p);
    }
  }

  lemma ConcatAffixes(a: string, b: string)
    ensures StartsWith(a + b, a) && EndsWith(a + b, b)
  {
    assert (a + b)[..|a|] == a;
    assert (a + b)[|a + b| - |b|..] == b;
  }

  // ---------------------------------------------------------------------
  // VM.read_std

  /** What the launcher has learned from the console: whether the shell
      prompt has appeared, and the DHCP address (empty while unknown). */
  datatype Console = Console(cmdlineUp: bool, ip: string)

  /** A console line showing the shell prompt, possibly after garbage. */
  predicate PromptLine(line: string)
  {
    StartsWith(line, "/# ") || EndsWith(line, "/# ")
  }

  /** The address a console line announces, if any: the second
      space-separated word of a line that starts with `eth0: `, unless it is
      the `eth0: ethernet address:` line. */
  function AnnouncedIp(line: string): (r: Option<string>)
    ensures r.Some? ==> StartsWith(line, "eth0: ") && !StartsWith(line, "eth0: ethernet address:")
    ensures r.Some? ==> StartsWith(line, "eth0: " + r.value)
  {
    if FindSub(line, "eth0: ethernet address:") == 0 then None
    else if FindSub(line, "eth0: ") == 0 then
      FindSubZeroIsPrefix(line, "eth0: ");
      assert OccursAt(line, " ", 5);
      OccursContains(line, " ", 5);
      var words := Split(line, " ");
      SecondWord(line);
      Some(words[1])
    else None
  }

  /** After `eth0: `, the second word is the text up to the next space. */
  lemma SecondWord(line: string)
    requires StartsWith(line, "eth0: ")
    ensures |Split(line, " ")| >= 2 && StartsWith(line, "eth0: " + Split(line, " ")[1])
  {
    assert FindSub(line, " ") == 5 by {
      assert OccursAt(line, " ", 5);
      OccursContains(line, " ", 5);
      forall j | 0 <= j < 5 ensures !OccursAt(line, " ", j) {
        assert line[j] == "eth0: "[j];
      }
    }
    var rest := line[6..];
    var w := Split(rest, " ");
    assert Split(line, " ") == [line[..5]] + w;
    var i := FindSub(rest, " ");
    assert StartsWith(rest, w[0]);
    assert line == "eth0: " + rest;
  }

  /** One console line, as `read_std` handles it. */
  function ScanLine(c: Console, line: string): Console
  {
    Console(
      c.cmdlineUp || PromptLine(line),
      if c.ip == "" && AnnouncedIp(line).Some? then AnnouncedIp(line).value else c.ip)
  }

  function ScanLines(c: Console, lines: seq<string>): (r: Console)
    decreases |lines|
  {
    if |lines| == 0 then c else ScanLines(ScanLine(c, lines[0]), lines[1..])
  }

  /** `VM.read_std`: the text read from the console log (empty when there
      is no log), and what was learned from it.  Once the prompt and the
      address are both known the text is not scanned. */
  function ReadStd(c: Console, log: Option<string>): (r: (Console, string))
    ensures r.1 == if log.Some? then log.value else ""
    ensures c.cmdlineUp ==> r.0.cmdlineUp
    ensures c.ip != "" ==> r.0.ip == c.ip
  {
    match log
    case None => (c, "")
    case Some(out) =>
      if !c.cmdlineUp || c.ip == "" then
        var lines := Split(out, "\r\n");
        ScanLinesMonotone(c, lines);
        (ScanLines(c, lines), out)
      else (c, out)
  }

  lemma {:induction false} ScanLinesMonotone(c: Console, lines: seq<string>)
    ensures c.cmdlineUp ==> ScanLines(c, lines).cmdlineUp
    ensures c.ip != "" ==> ScanLines(c, lines).ip == c.ip
    decreases |lines|
  {
    if |lines| > 0 {
      ScanLinesMonotone(ScanLine(c, lines[0]), lines[1..]);
    }
  }

  /** The prompt is up after a scan exactly when it was before or some line
      shows it. */
  lemma {:induction false} PromptSeen(c: Console, lines: seq<string>)
    ensures ScanLines(c, lines).cmdlineUp <==> c.cmdlineUp || exists k :: 0 <= k < |lines| && PromptLine(lines[k])
    decreases |lines|
  {
    if |lines| > 0 {
      PromptSeen(ScanLine(c, lines[0]), lines[1..]);
      assert forall k :: 1 <= k < |lines| ==> lines[1..][k - 1] == lines[k];
    }
  }

  /** A line announcing a non-empty address. */
  predicate AnnouncesAddress(line: string)
  {
    AnnouncedIp(line).Some? && AnnouncedIp(line).value != ""
  }

  /** Starting without an address, the scan ends without one exactly when
      no line announces a non-empty address. */
  lemma {:induction false} AddressOnlyWhenAnnounced(c: Console, lines: seq<string>)
    requires c.ip == ""
    ensures ScanLines(c, lines).ip == "" <==> forall k :: 0 <= k < |lines| ==> !AnnouncesAddress(lines[k])
    decreases |lines|
  {
    if |lines| > 0 {
      var c1 := ScanLine(c, lines[0]);
      assert forall k :: 1 <= k < |lines| ==> lines[1..][k - 1] == lines[k];
      if c1.ip == "" {
        AddressOnlyWhenAnnounced(c1, lines[1..]);
      } else {
        ScanLinesMonotone(c1, lines[1..]);
      }
    }
  }

  /** Starting without an address, the address the scan keeps is the one
      announced by the first line that announces a non-empty address. */
  lemma {:induction false} FirstAddressWins(c: Console, lines: seq<string>, k: int)
    requires c.ip == ""
    requires 0 <= k < |lines| && AnnouncesAddress(lines[k])
    requires forall j :: 0 <= j < k ==> !AnnouncesAddress(lines[j])
    ensures ScanLines(c, lines).ip == AnnouncedIp(lines[k]).value
    decreases |lines|
  {
    var c1 := ScanLine(c, lines[0]);
    if k == 0 {
      ScanLinesMonotone(c1, lines[1..]);
    } else {
      assert forall j :: 0 <= j < k - 1 ==> lines[1..][j] == lines[j + 1];
      FirstAddressWins(c1, lines[1..], k - 1);
    }
  }
}

=== FILE: provider.dfy ===
/** The provider-independent part of a cloud provider: splitting instances
    into live and orphaned ones, and the status each remote step leaves an
    instance in.  The VM's REST answers are inputs: `Err` stands for a
    request that raised, `Ok(text)` for the body it returned. */
module Provider {
  import opened Common
  import opened Models
  import Capstan

  /** Where the NFS case folder is mounted inside every VM. */
  const CaseFolder: string := "/case"

  // ---------------------------------------------------------------------
  // split_running_and_orphaned_instances

  /** The instances whose server is among the live ids, in input order. */
  function LiveOnes(xs: seq<Instance>, live: set<string>): (r: seq<Instance>)
    ensures forall k :: 0 <= k < |r| ==> r[k] in xs && r[k].instanceId in live
    decreases |xs|
  {
    if |xs| == 0 then []
    else if xs[0].instanceId in live then [xs[0]] + LiveOnes(xs[1..], live)
    else LiveOnes(xs[1..], live)
  }

  /** The instances whose server is not among the live ids, in input order. */
  function Orphans(xs: seq<Instance>, live: set<string>): (r: seq<Instance>)
    ensures forall k :: 0 <= k < |r| ==> r[k] in xs && r[k].instanceId !in live
    decreases |xs|
  {
    if |xs| == 0 then []
    else if xs[0].instanceId !in live then [xs[0]] + Orphans(xs[1..], live)
    else Orphans(xs[1..], live)
  }

  datatype Partition = Partition(running: seq<Instance>, orphaned: seq<Instance>)

  /** `split_running_and_orphaned_instances`: `live` is the provider's answer
      to `get_running_server_ids`, which may raise. */
  function SplitRunningAndOrphaned(xs: seq<Instance>, live: Result<set<string>>): (r: Result<Partition>)
    ensures r.Ok? <==> live.Ok?
    ensures r.Ok? ==> Interleaves(xs, r.value.running, r.value.orphaned)
    ensures r.Ok? ==> forall x :: x in r.value.running <==> x in xs && x.instanceId in live.value
    ensures r.Ok? ==> forall x :: x in r.value.orphaned <==> x in xs && x.instanceId !in live.value
  {
    var ids :- live;
    PartitionInterleaves(xs, ids);
    PartitionMembers(xs, ids);
    Ok(Partition(LiveOnes(xs, ids), Orphans(xs, ids)))
  }

  /** The two lists are an order-preserving split of the input. */
  lemma {:induction false} PartitionInterleaves(xs: seq<Instance>, live: set<string>)
    ensures Interleaves(xs, LiveOnes(xs, live), Orphans(xs, live))
    decreases |xs|
  {
    if |xs| > 0 {
      PartitionInterleaves(xs[1..], live);
    }
  }

  /** Every input instance lands in the list its server's liveness selects. */
  lemma {:induction false} PartitionMembers(xs: seq<Instance>, live: set<string>)
    ensures forall x :: x in LiveOnes(xs, live) <==> x in xs && x.instanceId in live
    ensures forall x :: x in Orphans(xs, live) <==> x in xs && x.instanceId !in live
    decreases |xs|
  {
    if |xs| > 0 {
      PartitionMembers(xs[1..], live);
      assert xs == [xs[0]] + xs[1..];
    }
  }

  /** Each instance lands in exactly one list, and nothing is lost or duplicated. */
  lemma PartitionComplete(xs: seq<Instance>, live: set<string>)
    ensures var p := SplitRunningAndOrphaned(xs, Ok(live)).value;
            && |p.running| + |p.orphaned| == |xs|
            && multiset(p.running) + multiset(p.orphaned) == multiset(xs)
            && IsSubsequence(p.running, xs) && IsSubsequence(p.orphaned, xs)
  {
    var p := SplitRunningAndOrphaned(xs, Ok(live)).value;
    InterleavesPartition(xs, p.running, p.orphaned);
  }

  // ---------------------------------------------------------------------
  // prepare_instance, as seen by the launch

  /** What a provider's `prepare_instance` did to the instance in memory.
      A provider records the acquired server in `instance_id` and its
      address in `ip`; OpenStack also marks the instance UP.  On failure,
      `acquired` is the server id recorded before the exception, if any. */
  datatype Provision =
    | Provisioned(serverId: string, ip: string, markedUp: bool)
    | ProvisionFailed(acquired: Option<string>)

  /** The instance in memory after `prepare_instance`. */
  function ApplyProvision(inst: Instance, p: Provision): (r: Instance)
    ensures p.Provisioned? ==> r.instanceId == p.serverId && r.ip == p.ip
    ensures p.Provisioned? ==> r.status == (if p.markedUp then Up else inst.status)
    ensures p.ProvisionFailed? ==> r.ip == inst.ip && r.status == inst.status
    ensures p.ProvisionFailed? ==> r.instanceId == (if p.acquired.Some? then p.acquired.value else inst.instanceId)
    ensures r.(instanceId := inst.instanceId, ip := inst.ip, status := inst.status) == inst
  {
    match p
    case Provisioned(id, ip, up) => inst.(instanceId := id, ip := ip, status := if up then Up else inst.status)
    case ProvisionFailed(None) => inst
    case ProvisionFailed(Some(id)) => inst.(instanceId := id)
  }

  // ---------------------------------------------------------------------
  // Thread ids

  /** `int(text.strip('"'))`: the VM answers a started command with its
      thread id as a quoted JSON number. */
  function ParseThreadId(text: string): Result<int>
  {
    ParseInt(Strip(text, {'"'}))
  }

  /** A thread id sent back as a quoted number is read back exactly. */
  lemma ThreadIdRoundTrip(n: int)
    ensures ParseThreadId("\"" + IntToString(n) + "\"") == Ok(n)
  {
    var s := IntToString(n);
    if n < 0 {
      assert s == "-" + NatToString(-n);
    }
    assert s[|s| - 1] != '"' by {
      if n < 0 {
        assert s[|s| - 1] == NatToString(-n)[|NatToString(-n)| - 1];
      }
    }
    StripSurrounded(s, {'"'}, "\"", "\"");
    assert "\"" + s + "\"" == "\"" + IntToString(n) + "\"";
    ParseIntToString(n);
  }

  // ---------------------------------------------------------------------
  // start_snap_collector and prepare_instance_env

  /** How the request to create a metrics task came out. */
  datatype SnapReply =
    | SnapTask(taskId: string)   // the task was created
    | SnapRequestFailed          // a RequestException, which is swallowed
    | SnapOtherFailure           // any other exception, which propagates

  /** `start_snap_collector`: records the task id; a request failure is
      tolerated, any other failure is not. */
  function StartSnapCollector(inst: Instance, reply: SnapReply): (r: Result<Instance>)
    ensures r.Ok? <==> !reply.SnapOtherFailure?
    ensures r.Ok? ==> r.value.(snapTaskId := inst.snapTaskId) == inst
    ensures r.Ok? && r.value.snapTaskId != inst.snapTaskId ==> reply == SnapTask(r.value.snapTaskId)
  {
    match reply
    case SnapTask(t) => Ok(inst.(snapTaskId := t))
    case SnapRequestFailed => Ok(inst)
    case SnapOtherFailure => Err(RemoteError)
  }

  /** The replies `prepare_instance_env` gets.  `setupOk` covers the case
      file update, the NFS mount and the six environment variables. */
  datatype EnvReplies = EnvReplies(setupOk: bool, snap: SnapReply, decompose: Result<string>)

  /** The end of `prepare_instance_env`: both records saved, or the
      exception together with the instance as it stood in memory. */
  datatype EnvOutcome =
    | EnvReady(instance: Instance, simulation: Simulation)
    | EnvFailed(instance: Instance)

  /** The command that splits a case for a multicore run. */
  const DecomposeCommand: string := "/usr/bin/decomposePar -case " + CaseFolder

  /** `prepare_instance_env`, from the metrics collector on: a multicore
      instance starts decomposePar and becomes DECOMPOSING with that thread's
      id, any other becomes READY; the simulation becomes RUNNING. */
  function PrepareInstanceEnv(inst: Instance, sim: Simulation, replies: EnvReplies): (r: EnvOutcome)
    ensures r.EnvReady? <==>
              && replies.setupOk && !replies.snap.SnapOtherFailure?
              && (Multicore(inst) ==> replies.decompose.Ok? && ParseThreadId(replies.decompose.value).Ok?)
    ensures r.EnvReady? ==> r.simulation == sim.(status := SimRunning)
    ensures r.EnvReady? ==> (r.instance.status == Decomposing <==> Multicore(inst))
    ensures r.EnvReady? ==> (r.instance.status == Ready <==> !Multicore(inst))
    ensures r.EnvReady? && Multicore(inst) ==>
              r.instance.threadId == Some(ParseThreadId(replies.decompose.value).value)
    ensures r.EnvReady? ==> CoresAgree(r.instance)
    ensures r.instance.(status := inst.status, threadId := inst.threadId, snapTaskId := inst.snapTaskId) == inst
    ensures !Multicore(inst) ==> r.instance.threadId == inst.threadId
  {
    if !replies.setupOk then EnvFailed(inst)
    else
      match StartSnapCollector(inst, replies.snap)
      case Err(_) => EnvFailed(inst)
      case Ok(collected) =>
        if Multicore(collected) then
          var decomposing := collected.(status := Decomposing);
          match replies.decompose
          case Err(_) => EnvFailed(decomposing)
          case Ok(text) =>
            match ParseThreadId(text)
            case Err(_) => EnvFailed(decomposing)
            case Ok(tid) => EnvReady(decomposing.(threadId := Some(tid)), sim.(status := SimRunning))
        else
          EnvReady(collected.(status := Ready), sim.(status := SimRunning))
  }

  /** A metrics collector that could not be reached never changes whether the
      environment comes up, nor anything but the recorded task id. */
  lemma SnapFailureTolerated(inst: Instance, sim: Simulation, replies: EnvReplies, taskId: string)
    requires replies.snap == SnapRequestFailed
    ensures var started := replies.(snap := SnapTask(taskId));
            && PrepareInstanceEnv(inst, sim, replies).EnvReady? == PrepareInstanceEnv(inst, sim, started).EnvReady?
            && PrepareInstanceEnv(inst, sim, replies).instance
               == PrepareInstanceEnv(inst, sim, started).instance.(snapTaskId := inst.snapTaskId)
  {
  }

  // ---------------------------------------------------------------------
  // run_simulation and run_reconstruction

  /** A command sent to a VM and the instance record saved afterwards. */
  datatype Dispatch = Dispatch(instance: Instance, command: string)

  /** The solver invocation: through mpirun with one process per core when
      multicore, directly otherwise. */
  function SolverCommand(inst: Instance, so: string): (cmd: string)
    ensures Multicore(inst) ==>
              StartsWith(cmd, "/usr/bin/mpirun -n " + IntToString(inst.parallelisation) + " --allow-run-as-root ")
    ensures Multicore(inst) ==> EndsWith(cmd, "/usr/bin/" + so + " -parallel -case " + CaseFolder)
    ensures !Multicore(inst) ==> cmd == "/usr/bin/" + so + " -case " + CaseFolder
    ensures !Multicore(inst) ==> StartsWith(cmd, "/usr/bin/" + so)
    ensures EndsWith(cmd, " -case " + CaseFolder)
  {
    var tail := " -case " + CaseFolder;
    if Multicore(inst) then
      var head := "/usr/bin/mpirun -n " + IntToString(inst.parallelisation) + " --allow-run-as-root ";
      var solver := "/usr/bin/" + so + " -parallel";
      var body := solver + tail;
      assert body == "/usr/bin/" + so + " -parallel -case " + CaseFolder;
      Affixes(head, body);
      Affixes(solver, tail);
      EndsWithTrans(head + body, body, tail);
      head + body
    else
      var head := "/usr/bin/" + so;
      Affixes(head, tail);
      head + tail
  }

  /** `run_simulation`: looks up the solver, chooses RUNNING_MPI or RUNNING
      by the multicore flag and records the solver thread.  Every failure
      (unknown solver, request, unparsable reply) raises before the save. */
  function RunSimulation(inst: Instance, solver: string, reply: Result<string>): (r: Result<Dispatch>)
    ensures r.Ok? <==> solver in Capstan.Solvers && reply.Ok? && ParseThreadId(reply.value).Ok?
    ensures r.Ok? ==> (r.value.instance.status == RunningMpi <==> Multicore(inst))
    ensures r.Ok? ==> (r.value.instance.status == Running <==> !Multicore(inst))
    ensures r.Ok? ==> r.value.instance.threadId == Some(ParseThreadId(reply.value).value)
    ensures r.Ok? ==> r.value.instance.(status := inst.status, threadId := inst.threadId) == inst
    ensures r.Ok? ==> CoresAgree(r.value.instance)
    ensures r.Ok? ==> r.value.command == SolverCommand(inst, Capstan.SolverSo(solver).value)
  {
    var so :- Capstan.SolverSo(solver);
    var status := if Multicore(inst) then RunningMpi else Running;
    var text :- reply;
    var tid :- ParseThreadId(text);
    Ok(Dispatch(inst.(status := status, threadId := Some(tid)), SolverCommand(inst, so)))
  }

  /** The command that merges a decomposed case after an mpirun. */
  const ReconstructCommand: string := "/usr/bin/reconstructPar -case " + CaseFolder

  /** `run_reconstruction`: starts reconstructPar, replaces the thread id and
      sets RECONSTRUCTING; a failed request or reply raises before the save. */
  function RunReconstruction(inst: Instance, reply: Result<string>): (r: Result<Dispatch>)
    ensures r.Ok? <==> reply.Ok? && ParseThreadId(reply.value).Ok?
    ensures r.Ok? ==> r.value.instance.status == Reconstructing
    ensures r.Ok? ==> r.value.instance.threadId == Some(ParseThreadId(reply.value).value)
    ensures r.Ok? ==> r.value.instance.(status := inst.status, threadId := inst.threadId) == inst
    ensures r.Ok? ==> r.value.command == ReconstructCommand
  {
    var text :- reply;
    var tid :- ParseThreadId(text);
    Ok(Dispatch(inst.(threadId := Some(tid), status := Reconstructing), ReconstructCommand))
  }

  /** Reconstruction follows an mpirun, so it keeps the cores promise of an
      instance that kept it while RUNNING_MPI. */
  lemma ReconstructionKeepsCoresAgreement(inst: Instance, reply: Result<string>)
    requires inst.status == RunningMpi && CoresAgree(inst)
    requires RunReconstruction(inst, reply).Ok?
    ensures CoresAgree(RunReconstruction(inst, reply).value.instance)
  {
  }
}

=== FILE: provider_launch.dfy ===
// The launch in `prepare_simulation_instance` with each provider's
// `prepare_instance` in the place of the provision reply: what the
// instance records, and what the failure handler is left to shut down.

module ProviderLaunch {
  import opened Common
  import opened Models
  import Capstan
  import CaseUtils
  import Provider
  import Lifecycle
  import OpenstackProvider
  import AmazonProvider

  /** The launch gets as far as `prepare_instance`: the case was fetched,
      its decomposition written, and it was copied and packaged. */
  predicate ReachesProvision(sim: Simulation, rep: Lifecycle.LaunchReplies)
  {
    && rep.caseFetched && rep.copied && rep.packaged
    && CaseUtils.DecomposeParDict(rep.cpus, sim.decomposition, rep.caseHasDict, rep.templates).Ok?
    && Capstan.SolverDeps(sim.solver).Ok?
  }

  /** On OpenStack a launched instance holds the one server of its name and
      a floating IP chosen as `prepare_instance` chooses it.  A failed
      launch leaves its row UP exactly when the provider got through, and
      once the server is booted and found by name its id is in the
      instance, so the handler shuts that server down. */
  lemma {:induction false} OpenstackLaunch(deploying: Instance, sim: Simulation, p: Lifecycle.ProviderInfo,
                                           rep: Lifecycle.LaunchReplies, replies: OpenstackProvider.ProvisionReplies)
    requires rep.provision == OpenstackProvider.PrepareInstance(replies)
    requires deploying.status == Deploying
    ensures var r := Lifecycle.Launch(deploying, sim, p, rep);
            r.Launched? ==>
              && replies.named.Ok? && |replies.named.value| == 1
              && r.instance.instanceId == replies.named.value[0].id
              && replies.floatingIps.Ok?
              && OpenstackProvider.ChooseFloatingIp(replies.floatingIps.value, replies.created) == Ok(r.instance.ip)
    ensures var r := Lifecycle.Launch(deploying, sim, p, rep);
            r.LaunchFailed? ==> (r.saved.status == Up <==> ReachesProvision(sim, rep) && rep.provision.Provisioned?)
    ensures var r := Lifecycle.Launch(deploying, sim, p, rep);
            r.LaunchFailed? && r.saved.status == Up ==>
              replies.named.Ok? && |replies.named.value| == 1 && r.saved.instanceId == replies.named.value[0].id
    ensures var r := Lifecycle.Launch(deploying, sim, p, rep);
            r.LaunchFailed? && ReachesProvision(sim, rep) && replies.booted
            && replies.named.Ok? && |replies.named.value| == 1 ==>
              r.instance.instanceId == replies.named.value[0].id
    ensures var r := Lifecycle.Launch(deploying, sim, p, rep);
            r.LaunchFailed? && r.instance.instanceId != deploying.instanceId ==>
              replies.named.Ok? && |replies.named.value| == 1 && r.instance.instanceId == replies.named.value[0].id
  {
    var prov := OpenstackProvider.PrepareInstance(replies);
    if replies.booted && replies.named.Ok? && |replies.named.value| == 1 {
      assert OpenstackProvider.PickUniqueServer(replies.named.value) == Ok(replies.named.value[0]);
      assert prov.Provisioned? || prov == Provider.ProvisionFailed(Some(replies.named.value[0].id));
    }
  }

  /** On EC2 a launched instance holds the id and address `run_instances`
      gave, once tagged.  A failed launch never leaves its row UP, and a
      failure before the tag leaves no server id in the instance. */
  lemma {:induction false} AmazonLaunch(deploying: Instance, sim: Simulation, p: Lifecycle.ProviderInfo,
                                        rep: Lifecycle.LaunchReplies, replies: AmazonProvider.LaunchReplies)
    requires rep.provision == AmazonProvider.PrepareInstance(replies)
    requires deploying.status == Deploying
    ensures var r := Lifecycle.Launch(deploying, sim, p, rep);
            r.Launched? ==>
              && replies.launched.Ok? && replies.tagged
              && r.instance.instanceId == replies.launched.value.0 && r.instance.ip == replies.launched.value.1
    ensures var r := Lifecycle.Launch(deploying, sim, p, rep);
            r.LaunchFailed? ==> r.saved.status == Deploying
    ensures var r := Lifecycle.Launch(deploying, sim, p, rep);
            r.LaunchFailed? && !(replies.launched.Ok? && replies.tagged) ==>
              r.instance.instanceId == deploying.instanceId
  {
    var prov := AmazonProvider.PrepareInstance(replies);
    assert prov.Provisioned? ==> !prov.markedUp;
    assert prov.ProvisionFailed? ==> prov.acquired.None?;
  }

  /** When EC2 launches the server but tagging it raises, the instance never
      learnt the server's id: the handler attempts no shutdown, so it runs
      to its end whatever a shutdown would have answered, and the row it
      saves still holds no server id.  The launched server is left running. */
  lemma {:induction false} AmazonTagFailureNoShutdown(store: Store, inst: Instance, a: Lifecycle.Attempt,
                                                      maxRetries: int, replies: AmazonProvider.LaunchReplies)
    requires inst.simulation in store.simulations && inst.instanceId == ""
    requires a.replies.provision == AmazonProvider.PrepareInstance(replies)
    requires replies.launched.Ok? && !replies.tagged
    ensures var r := Lifecycle.LaunchOn(store, inst, a, maxRetries);
            && r.Handled?
            && forall k :: 0 <= k < |r.store.instances| && r.store.instances[k].id == inst.id ==>
                 r.store.instances[k].instanceId == ""
  {
    var sim := store.simulations[inst.simulation].(status := SimDeploying);
    var deploying := inst.(provider := a.provider.id, status := Deploying);
    AmazonLaunch(deploying, sim, a.provider, a.replies, replies);
    var l := Lifecycle.Launch(deploying, sim, a.provider, a.replies);
    assert l.LaunchFailed? && l.instance.instanceId == "";
    var started := Store(SaveInstance(store.instances, deploying), store.simulations[inst.simulation := sim]);
    var failed := started.(instances := SaveInstance(started.instances, l.saved));
    var h := Lifecycle.HandleLaunchException(failed, sim, l.instance, maxRetries, a.replies.shutdownOk);
    assert h.Ok?;
    assert h.value.instances == SaveInstance(failed.instances, Lifecycle.RetryOrFail(l.instance, maxRetries));
  }
}

=== FILE: scheduler.dfy ===
/** The scheduler daemon: four polling passes over the stored instances and
    the rule that restarts a pass only when its previous run has ended.
    Each pass is a function from the stored rows and the answers of the
    providers and VMs to the rows it leaves behind and the exception that
    ended it early, if any. */
module Scheduler {
  import opened Common
  import opened Models
  import Provider
  import Lifecycle

  // ---------------------------------------------------------------------
  // Status progress

  /** How far along the lifecycle of the Instance status documentation a
      status is.  RUNNING and RUNNING_MPI are alternatives, as are COMPLETE
      and FAILED. */
  function Rank(s: InstanceStatus): nat
  {
    match s
    case Pending => 0
    case Deploying => 1
    case Up => 2
    case Decomposing => 3
    case Ready => 4
    case Running => 5
    case RunningMpi => 5
    case Reconstructing => 6
    case Complete => 7
    case Failed => 7
  }

  /** The statuses no pass selects once they are reached. */
  predicate Terminal(s: InstanceStatus) { s == Complete || s == Failed }

  /** A status change the lifecycle allows: none, or a step forward from a
      status that is not final. */
  predicate Allowed(from: InstanceStatus, to: InstanceStatus)
  {
    from == to || (!Terminal(from) && Rank(from) < Rank(to))
  }

  lemma AllowedTransitive(a: InstanceStatus, b: InstanceStatus, c: InstanceStatus)
    requires Allowed(a, b) && Allowed(b, c)
    ensures Allowed(a, c)
  {
  }

  /** Instance ids are primary keys. */
  predicate UniqueIds(db: seq<Instance>)
  {
    forall i, j :: 0 <= i < |db| && 0 <= j < |db| && db[i].id == db[j].id ==> i == j
  }

  /** `after` is `before` after some passes that select the statuses in
      `selected`: no row is added or removed, every row keeps its id, a row
      whose status was not selected is untouched, and every status moves
      forward or stays. */
  predicate Advances(before: seq<Instance>, after: seq<Instance>, selected: set<InstanceStatus>)
  {
    && |after| == |before|
    && forall k :: 0 <= k < |before| ==>
         && after[k].id == before[k].id
         && (before[k].status !in selected ==> after[k] == before[k])
         && Allowed(before[k].status, after[k].status)
  }

  lemma AdvancesReflexive(db: seq<Instance>, selected: set<InstanceStatus>)
    ensures Advances(db, db, selected)
  {
  }

  /** Runs of passes compose: the rows advance under the union of what the
      passes select. */
  lemma AdvancesCompose(a: seq<Instance>, b: seq<Instance>, c: seq<Instance>,
                        s1: set<InstanceStatus>, s2: set<InstanceStatus>)
    requires Advances(a, b, s1) && Advances(b, c, s2)
    ensures Advances(a, c, s1 + s2)
  {
    forall k | 0 <= k < |a|
      ensures Allowed(a[k].status, c[k].status)
    {
      AllowedTransitive(a[k].status, b[k].status, c[k].status);
    }
  }

  /** Rows that advance keep their ids, so ids stay unique. */
  lemma AdvancesKeepsUniqueIds(a: seq<Instance>, b: seq<Instance>, selected: set<InstanceStatus>)
    requires UniqueIds(a) && Advances(a, b, selected)
    ensures UniqueIds(b)
  {
    forall i, j | 0 <= i < |b| && 0 <= j < |b| && b[i].id == b[j].id
      ensures i == j
    {
      assert a[i].id == a[j].id;
    }
  }

  /** Passes that do not select the final statuses leave COMPLETE and
      FAILED rows as they are. */
  lemma AdvancesKeepsTerminal(before: seq<Instance>, after: seq<Instance>, selected: set<InstanceStatus>)
    requires Advances(before, after, selected) && Complete !in selected && Failed !in selected
    ensures forall k :: 0 <= k < |before| && Terminal(before[k].status) ==> after[k] == before[k]
  {
  }

  /** A row of a snapshot taken at `mid` is the stored row at the same
      place, and its status then was reached from the status it had at
      `base`. */
  lemma SnapshotRow(base: seq<Instance>, mid: seq<Instance>, selected: set<InstanceStatus>, x: Instance, k: int)
    requires UniqueIds(base) && Advances(base, mid, selected)
    requires x in mid && 0 <= k < |base| && base[k].id == x.id
    ensures mid[k] == x && Allowed(base[k].status, x.status)
    ensures x.status in selected ==> base[k].status in selected
  {
    AdvancesKeepsUniqueIds(base, mid, selected);
    var j :| 0 <= j < |mid| && mid[j] == x;
    assert mid[k].id == mid[j].id;
  }

  /** Saving a row derived from a snapshot row whose status was selected,
      with a status the lifecycle allows, keeps the rows advancing. */
  lemma SaveStep(base: seq<Instance>, mid: seq<Instance>, cur: seq<Instance>, selected: set<InstanceStatus>,
                 x: Instance, y: Instance)
    requires UniqueIds(base) && Advances(base, mid, selected) && Advances(base, cur, selected)
    requires x in mid && x.status in selected && y.id == x.id && Allowed(x.status, y.status)
    ensures Advances(base, SaveInstance(cur, y), selected)
  {
    var j :| 0 <= j < |mid| && mid[j] == x;
    assert cur[j].id == y.id;
    var r := SaveInstance(cur, y);
    forall k | 0 <= k < |base|
      ensures r[k].id == base[k].id
      ensures base[k].status !in selected ==> r[k] == base[k]
      ensures Allowed(base[k].status, r[k].status)
    {
      if cur[k].id == y.id {
        SnapshotRow(base, mid, selected, x, k);
        AllowedTransitive(base[k].status, x.status, y.status);
      }
    }
  }

  /** Setting a status on snapshot rows whose status was selected, when the
      lifecycle allows it, keeps the rows advancing. */
  lemma UpdateStep(base: seq<Instance>, mid: seq<Instance>, cur: seq<Instance>, selected: set<InstanceStatus>,
                   xs: seq<Instance>, status: InstanceStatus)
    requires UniqueIds(base) && Advances(base, mid, selected) && Advances(base, cur, selected)
    requires forall x :: x in xs ==> x in mid && x.status in selected && Allowed(x.status, status)
    ensures Advances(base, Lifecycle.UpdateInstanceStatus(cur, xs, status), selected)
  {
    var r := Lifecycle.UpdateInstanceStatus(cur, xs, status);
    forall k | 0 <= k < |base|
      ensures base[k].status !in selected ==> r[k] == base[k]
      ensures Allowed(base[k].status, r[k].status)
    {
      if Lifecycle.Listed(xs, cur[k].id) {
        var x :| x in xs && x.id == cur[k].id;
        SnapshotRow(base, mid, selected, x, k);
        AllowedTransitive(base[k].status, x.status, status);
      }
    }
  }

  // ---------------------------------------------------------------------
  // The passes

  /** A provider as the passes see it. */
  datatype ProviderView = ProviderView(
    info: Lifecycle.ProviderInfo,
    /** `get_running_server_ids`, which may raise. */
    live: Result<set<string>>,
    /** `shutdown_instances` returned normally. */
    shutdownOk: bool)

  /** How a pass ended: the rows it left, and the exception that ended it
      early, if any.  The rows written before an exception stay written. */
  datatype PassOutcome = PassOutcome(store: Store, raised: Option<Error>)

  /** The thread listing of the VM at an address (None when it cannot be had). */
  type ThreadListings = string -> Option<seq<Lifecycle.OsvThread>>

  // __poll_for_shutdown

  /** The instances one provider shuts down: its RUNNING and RECONSTRUCTING
      instances whose server is live and whose solver thread is finished. */
  function ShutdownTargets(db: seq<Instance>, providerId: string, live: set<string>, threadsAt: ThreadListings): (r: seq<Instance>)
    ensures forall x :: x in r <==>
              && x in db && x.provider == providerId && (x.status == Running || x.status == Reconstructing)
              && x.instanceId in live && Lifecycle.IsThreadFinished(threadsAt(x.ip), x.threadId) == Ok(true)
  {
    var running := Provider.SplitRunningAndOrphaned(OwnedWithStatus(db, Running, providerId), Ok(live)).value;
    var rebuilding := Provider.SplitRunningAndOrphaned(OwnedWithStatus(db, Reconstructing, providerId), Ok(live)).value;
    Lifecycle.FinishedInstances(running.running + rebuilding.running, threadsAt)
  }

  /** The instances of one provider whose server is gone: its RUNNING and
      RECONSTRUCTING instances whose server is not live. */
  function ShutdownOrphans(db: seq<Instance>, providerId: string, live: set<string>): (r: seq<Instance>)
    ensures forall x :: x in r <==>
              && x in db && x.provider == providerId && (x.status == Running || x.status == Reconstructing)
              && x.instanceId !in live
  {
    var running := Provider.SplitRunningAndOrphaned(OwnedWithStatus(db, Running, providerId), Ok(live)).value;
    var rebuilding := Provider.SplitRunningAndOrphaned(OwnedWithStatus(db, Reconstructing, providerId), Ok(live)).value;
    running.orphaned + rebuilding.orphaned
  }

  /** The body of `__poll_for_shutdown` for one provider: orphans become
      COMPLETE, then the finished live instances are shut down and become
      COMPLETE. */
  function ShutdownOne(store: Store, p: ProviderView, threadsAt: ThreadListings): (r: PassOutcome)
    ensures r.store.simulations == store.simulations
    ensures r.raised.None? <==> p.live.Ok? && p.shutdownOk
  {
    match p.live
    case Err(e) => PassOutcome(store, Some(e))
    case Ok(live) =>
      var marked := Lifecycle.UpdateInstanceStatus(store.instances, ShutdownOrphans(store.instances, p.info.id, live), Complete);
      var targets := ShutdownTargets(store.instances, p.info.id, live, threadsAt);
      if !p.shutdownOk then PassOutcome(store.(instances := marked), Some(RemoteError))
      else PassOutcome(store.(instances := Lifecycle.UpdateInstanceStatus(marked, targets, Complete)), None)
  }

  /** `__poll_for_shutdown`: every provider in order, until one raises. */
  function ShutdownPass(store: Store, providers: seq<ProviderView>, threadsAt: ThreadListings): (r: PassOutcome)
    ensures r.store.simulations == store.simulations
    decreases |providers|
  {
    if |providers| == 0 then PassOutcome(store, None)
    else
      var o := ShutdownOne(store, providers[0], threadsAt);
      if o.raised.Some? then o else ShutdownPass(o.store, providers[1..], threadsAt)
  }

  /** The statuses the shutdown pass selects. */
  const ShutdownSelects: set<InstanceStatus> := {Running, Reconstructing}

  /** The rows one provider's shutdown selects are stored RUNNING or
      RECONSTRUCTING rows, which may become COMPLETE. */
  lemma ShutdownSelection(db: seq<Instance>, providerId: string, live: set<string>, threadsAt: ThreadListings)
    ensures forall x :: x in ShutdownOrphans(db, providerId, live) ==>
              x in db && x.status in ShutdownSelects && Allowed(x.status, Complete)
    ensures forall x :: x in ShutdownTargets(db, providerId, live, threadsAt) ==>
              x in db && x.status in ShutdownSelects && Allowed(x.status, Complete)
  {
    var orphans := ShutdownOrphans(db, providerId, live);
    var targets := ShutdownTargets(db, providerId, live, threadsAt);
    forall x | x in orphans
      ensures x in db && x.status in ShutdownSelects && Allowed(x.status, Complete)
    {
      ShutdownStatusCompletes(x.status);
    }
    forall x | x in targets
      ensures x in db && x.status in ShutdownSelects && Allowed(x.status, Complete)
    {
      ShutdownStatusCompletes(x.status);
    }
  }

  lemma ShutdownStatusCompletes(s: InstanceStatus)
    requires s == Running || s == Reconstructing
    ensures s in ShutdownSelects && Allowed(s, Complete)
  {
  }

  lemma ShutdownOneAdvances(store: Store, p: ProviderView, threadsAt: ThreadListings)
    requires UniqueIds(store.instances)
    ensures Advances(store.instances, ShutdownOne(store, p, threadsAt).store.instances, ShutdownSelects)
  {
    var db := store.instances;
    AdvancesReflexive(db, ShutdownSelects);
    match p.live
    case Err(_) =>
    case Ok(live) =>
      ShutdownSelection(db, p.info.id, live, threadsAt);
      var orphans := ShutdownOrphans(db, p.info.id, live);
      UpdateStep(db, db, db, ShutdownSelects, orphans, Complete);
      var marked := Lifecycle.UpdateInstanceStatus(db, orphans, Complete);
      UpdateStep(db, db, marked, ShutdownSelects, ShutdownTargets(db, p.info.id, live, threadsAt), Complete);
  }

  /** The shutdown pass touches only RUNNING and RECONSTRUCTING rows, and
      only to make them COMPLETE; COMPLETE and FAILED rows stay as they are. */
  lemma ShutdownPassAdvances(store: Store, providers: seq<ProviderView>, threadsAt: ThreadListings)
    requires UniqueIds(store.instances)
    ensures var after := ShutdownPass(store, providers, threadsAt).store.instances;
            && Advances(store.instances, after, ShutdownSelects)
            && forall k :: 0 <= k < |store.instances| && Terminal(store.instances[k].status) ==>
                 after[k] == store.instances[k]
  {
    ShutdownPassSteps(store, providers, threadsAt);
    AdvancesKeepsTerminal(store.instances, ShutdownPass(store, providers, threadsAt).store.instances, ShutdownSelects);
  }

  lemma {:induction false} ShutdownPassSteps(store: Store, providers: seq<ProviderView>, threadsAt: ThreadListings)
    requires UniqueIds(store.instances)
    ensures Advances(store.instances, ShutdownPass(store, providers, threadsAt).store.instances, ShutdownSelects)
    decreases |providers|
  {
    if |providers| == 0 {
      AdvancesReflexive(store.instances, ShutdownSelects);
    } else {
      var o := ShutdownOne(store, providers[0], threadsAt);
      ShutdownOneAdvances(store, providers[0], threadsAt);
      if o.raised.None? {
        AdvancesKeepsUniqueIds(store.instances, o.store.instances, ShutdownSelects);
        ShutdownPassSteps(o.store, providers[1..], threadsAt);
        AdvancesCompose(store.instances, o.store.instances, ShutdownPass(o.store, providers[1..], threadsAt).store.instances,
                        ShutdownSelects, ShutdownSelects);
      }
    }
  }

  /** What one provider's shutdown does to each of its RUNNING or
      RECONSTRUCTING instances: it becomes COMPLETE exactly when its server
      is gone or its solver thread is finished. */
  lemma ShutdownOneMarks(store: Store, p: ProviderView, threadsAt: ThreadListings, k: int)
    requires UniqueIds(store.instances) && p.live.Ok? && p.shutdownOk
    requires 0 <= k < |store.instances|
    requires var x := store.instances[k];
             x.provider == p.info.id && (x.status == Running || x.status == Reconstructing)
    ensures var x := store.instances[k];
            var after := ShutdownOne(store, p, threadsAt).store.instances;
            after[k].status == Complete
            <==> x.instanceId !in p.live.value || Lifecycle.IsThreadFinished(threadsAt(x.ip), x.threadId) == Ok(true)
  {
    var db := store.instances;
    var x := db[k];
    var live := p.live.value;
    var orphans := ShutdownOrphans(db, p.info.id, live);
    var targets := ShutdownTargets(db, p.info.id, live, threadsAt);
    var marked := Lifecycle.UpdateInstanceStatus(db, orphans, Complete);
    ListedRow(db, orphans, k);
    ListedRow(db, targets, k);
    assert marked[k].id == x.id;
  }

  /** In a list of stored rows with unique ids, a row is listed by id
      exactly when it is itself in the list. */
  lemma ListedRow(db: seq<Instance>, xs: seq<Instance>, k: int)
    requires UniqueIds(db) && 0 <= k < |db|
    requires forall x :: x in xs ==> x in db
    ensures Lifecycle.Listed(xs, db[k].id) <==> db[k] in xs
  {
    if Lifecycle.Listed(xs, db[k].id) {
      var x :| x in xs && x.id == db[k].id;
      var j :| 0 <= j < |db| && db[j] == x;
      assert db[j].id == db[k].id;
    }
  }

  // __poll_for_reconstruction

  /** `run_reconstruction` on each instance in turn, until one raises.
      `replyFor` gives the VM's answer to the command, by instance id. */
  function ReconstructEach(store: Store, xs: seq<Instance>, replyFor: string -> Result<string>): (r: PassOutcome)
    ensures r.store.simulations == store.simulations
    decreases |xs|
  {
    if |xs| == 0 then PassOutcome(store, None)
    else
      match Provider.RunReconstruction(xs[0], replyFor(xs[0].id))
      case Err(e) => PassOutcome(store, Some(e))
      case Ok(d) => ReconstructEach(store.(instances := SaveInstance(store.instances, d.instance)), xs[1..], replyFor)
  }

  /** The body of `__poll_for_reconstruction` for one provider: RUNNING_MPI
      orphans become COMPLETE, and every live RUNNING_MPI instance whose
      solver thread is finished starts reconstructPar. */
  function ReconstructOne(store: Store, p: ProviderView, threadsAt: ThreadListings,
                          replyFor: string -> Result<string>): (r: PassOutcome)
    ensures r.store.simulations == store.simulations
    ensures p.live.Err? ==> r == PassOutcome(store, Some(p.live.error))
  {
    match Provider.SplitRunningAndOrphaned(OwnedWithStatus(store.instances, RunningMpi, p.info.id), p.live)
    case Err(e) => PassOutcome(store, Some(e))
    case Ok(split) =>
      var marked := Lifecycle.UpdateInstanceStatus(store.instances, split.orphaned, Complete);
      ReconstructEach(store.(instances := marked), Lifecycle.FinishedInstances(split.running, threadsAt), replyFor)
  }

  /** `__poll_for_reconstruction`: every provider in order, until one raises. */
  function ReconstructionPass(store: Store, providers: seq<ProviderView>, threadsAt: ThreadListings,
                              replyFor: string -> Result<string>): (r: PassOutcome)
    ensures r.store.simulations == store.simulations
    decreases |providers|
  {
    if |providers| == 0 then PassOutcome(store, None)
    else
      var o := ReconstructOne(store, providers[0], threadsAt, replyFor);
      if o.raised.Some? then o else ReconstructionPass(o.store, providers[1..], threadsAt, replyFor)
  }

  const ReconstructionSelects: set<InstanceStatus> := {RunningMpi}

  lemma {:induction false} ReconstructEachAdvances(base: seq<Instance>, mid: seq<Instance>, store: Store,
                                                   xs: seq<Instance>, replyFor: string -> Result<string>)
    requires UniqueIds(base) && Advances(base, mid, ReconstructionSelects) && Advances(base, store.instances, ReconstructionSelects)
    requires forall x :: x in xs ==> x in mid && x.status == RunningMpi
    ensures Advances(base, ReconstructEach(store, xs, replyFor).store.instances, ReconstructionSelects)
    decreases |xs|
  {
    if |xs| > 0 {
      var reply := replyFor(xs[0].id);
      if Provider.RunReconstruction(xs[0], reply).Ok? {
        var y := Provider.RunReconstruction(xs[0], reply).value.instance;
        ReconstructSaveStep(base, mid, store.instances, xs[0], reply);
        assert forall x :: x in xs[1..] ==> x in xs;
        ReconstructEachAdvances(base, mid, store.(instances := SaveInstance(store.instances, y)), xs[1..], replyFor);
      }
    }
  }

  /** Saving the row `run_reconstruction` produced for a RUNNING_MPI
      snapshot row keeps the rows advancing. */
  lemma ReconstructSaveStep(base: seq<Instance>, mid: seq<Instance>, cur: seq<Instance>, x: Instance, reply: Result<string>)
    requires UniqueIds(base) && Advances(base, mid, ReconstructionSelects) && Advances(base, cur, ReconstructionSelects)
    requires x in mid && x.status == RunningMpi && Provider.RunReconstruction(x, reply).Ok?
    ensures Advances(base, SaveInstance(cur, Provider.RunReconstruction(x, reply).value.instance), ReconstructionSelects)
  {
    var y := Provider.RunReconstruction(x, reply).value.instance;
    assert y.id == x.id by {
      assert y.(status := x.status, threadId := x.threadId) == x;
    }
    ReconstructionForward();
    SaveStep(base, mid, cur, ReconstructionSelects, x, y);
  }

  lemma ReconstructOneAdvances(store: Store, p: ProviderView, threadsAt: ThreadListings, replyFor: string -> Result<string>)
    requires UniqueIds(store.instances)
    ensures Advances(store.instances, ReconstructOne(store, p, threadsAt, replyFor).store.instances, ReconstructionSelects)
  {
    var db := store.instances;
    AdvancesReflexive(db, ReconstructionSelects);
    if p.live.Ok? {
      var split := Provider.SplitRunningAndOrphaned(OwnedWithStatus(db, RunningMpi, p.info.id), p.live).value;
      UpdateStep(db, db, db, ReconstructionSelects, split.orphaned, Complete);
      var marked := Lifecycle.UpdateInstanceStatus(db, split.orphaned, Complete);
      var ready := Lifecycle.FinishedInstances(split.running, threadsAt);
      SubsequenceMembers(ready, split.running);
      ReconstructEachAdvances(db, db, store.(instances := marked), ready, replyFor);
    }
  }

  /** The reconstruction pass touches only RUNNING_MPI rows, making them
      COMPLETE or RECONSTRUCTING; COMPLETE and FAILED rows stay as they are. */
  lemma ReconstructionPassAdvances(store: Store, providers: seq<ProviderView>, threadsAt: ThreadListings,
                                   replyFor: string -> Result<string>)
    requires UniqueIds(store.instances)
    ensures var after := ReconstructionPass(store, providers, threadsAt, replyFor).store.instances;
            && Advances(store.instances, after, ReconstructionSelects)
            && forall k :: 0 <= k < |store.instances| && Terminal(store.instances[k].status) ==>
                 after[k] == store.instances[k]
  {
    ReconstructionPassSteps(store, providers, threadsAt, replyFor);
    AdvancesKeepsTerminal(store.instances, ReconstructionPass(store, providers, threadsAt, replyFor).store.instances,
                          ReconstructionSelects);
  }

  lemma {:induction false} ReconstructionPassSteps(store: Store, providers: seq<ProviderView>, threadsAt: ThreadListings,
                                                   replyFor: string -> Result<string>)
    requires UniqueIds(store.instances)
    ensures Advances(store.instances, ReconstructionPass(store, providers, threadsAt, replyFor).store.instances,
                     ReconstructionSelects)
    decreases |providers|
  {
    if |providers| == 0 {
      AdvancesReflexive(store.instances, ReconstructionSelects);
    } else {
      var o := ReconstructOne(store, providers[0], threadsAt, replyFor);
      ReconstructOneAdvances(store, providers[0], threadsAt, replyFor);
      if o.raised.None? {
        AdvancesKeepsUniqueIds(store.instances, o.store.instances, ReconstructionSelects);
        ReconstructionPassSteps(o.store, providers[1..], threadsAt, replyFor);
        AdvancesCompose(store.instances, o.store.instances,
                        ReconstructionPass(o.store, providers[1..], threadsAt, replyFor).store.instances,
                        ReconstructionSelects, ReconstructionSelects);
      }
    }
  }

  // __poll_for_run

  /** Some provider has this id. */
  predicate HasProvider(providers: seq<ProviderView>, id: string)
  {
    exists k :: 0 <= k < |providers| && providers[k].info.id == id
  }

  /** `run_simulation` on each instance in turn, until one raises.  An
      instance with no provider of its id raises IndexError, one whose
      simulation is not stored raises KeyError. */
  function DispatchEach(store: Store, xs: seq<Instance>, providers: seq<ProviderView>,
                        replyFor: string -> Result<string>): (r: PassOutcome)
    ensures r.store.simulations == store.simulations
    ensures r.raised.None? ==> forall x :: x in xs ==> HasProvider(providers, x.provider) && x.simulation in store.simulations
    decreases |xs|
  {
    if |xs| == 0 then PassOutcome(store, None)
    else
      var x := xs[0];
      if !HasProvider(providers, x.provider) then PassOutcome(store, Some(IndexError))
      else if x.simulation !in store.simulations then PassOutcome(store, Some(KeyError))
      else
        match Provider.RunSimulation(x, store.simulations[x.simulation].solver, replyFor(x.id))
        case Err(e) => PassOutcome(store, Some(e))
        case Ok(d) =>
          var r := DispatchEach(store.(instances := SaveInstance(store.instances, d.instance)), xs[1..], providers, replyFor);
          assert forall y :: y in xs ==> y == x || y in xs[1..];
          r
  }

  /** The rows the run pass reads as READY: the stored rows after every
      DECOMPOSING instance whose decomposePar thread is finished was set
      READY. */
  function RunPassRows(db: seq<Instance>, threadsAt: ThreadListings): (r: seq<Instance>)
    ensures |r| == |db|
  {
    Lifecycle.UpdateInstanceStatus(db, Lifecycle.FinishedInstances(WithStatus(db, Decomposing), threadsAt), Ready)
  }

  /** `__poll_for_run`. */
  function RunPass(store: Store, providers: seq<ProviderView>, threadsAt: ThreadListings,
                   replyFor: string -> Result<string>): (r: PassOutcome)
    ensures r.store.simulations == store.simulations
  {
    var rows := RunPassRows(store.instances, threadsAt);
    DispatchEach(store.(instances := rows), WithStatus(rows, Ready), providers, replyFor)
  }

  /** A decomposition that has finished is run in the same pass: the
      instance is among the READY rows the pass dispatches. */
  lemma FinishedDecompositionRunsNow(db: seq<Instance>, threadsAt: ThreadListings, k: int)
    requires UniqueIds(db) && 0 <= k < |db| && db[k].status == Decomposing
    requires Lifecycle.IsThreadFinished(threadsAt(db[k].ip), db[k].threadId) == Ok(true)
    ensures db[k].(status := Ready) in WithStatus(RunPassRows(db, threadsAt), Ready)
  {
    var finished := Lifecycle.FinishedInstances(WithStatus(db, Decomposing), threadsAt);
    var rows := RunPassRows(db, threadsAt);
    assert db[k] in finished;
    assert rows[k] == db[k].(status := Ready);
  }

  const RunSelects: set<InstanceStatus> := {Decomposing, Ready}

  lemma {:induction false} DispatchEachAdvances(base: seq<Instance>, mid: seq<Instance>, store: Store, xs: seq<Instance>,
                                                providers: seq<ProviderView>, replyFor: string -> Result<string>)
    requires UniqueIds(base) && Advances(base, mid, RunSelects) && Advances(base, store.instances, RunSelects)
    requires forall x :: x in xs ==> x in mid && x.status == Ready
    ensures Advances(base, DispatchEach(store, xs, providers, replyFor).store.instances, RunSelects)
    decreases |xs|
  {
    if |xs| > 0 && HasProvider(providers, xs[0].provider) && xs[0].simulation in store.simulations {
      var x := xs[0];
      var solver := store.simulations[x.simulation].solver;
      var reply := replyFor(x.id);
      if Provider.RunSimulation(x, solver, reply).Ok? {
        var y := Provider.RunSimulation(x, solver, reply).value.instance;
        DispatchedRow(x, solver, reply);
        SaveStep(base, mid, store.instances, RunSelects, x, y);
        assert forall z :: z in xs[1..] ==> z in xs;
        DispatchEachAdvances(base, mid, store.(instances := SaveInstance(store.instances, y)), xs[1..], providers, replyFor);
      }
    }
  }

  /** The row `run_simulation` produces keeps the instance's id and moves a
      READY row forward. */
  lemma DispatchedRow(x: Instance, solver: string, reply: Result<string>)
    requires Provider.RunSimulation(x, solver, reply).Ok?
    ensures var y := Provider.RunSimulation(x, solver, reply).value.instance;
            y.id == x.id && (x.status == Ready ==> Allowed(x.status, y.status))
  {
    var y := Provider.RunSimulation(x, solver, reply).value.instance;
    assert y.(status := x.status, threadId := x.threadId) == x;
    StartedRunForward(y.status);
  }

  lemma ReconstructionForward()
    ensures Allowed(RunningMpi, Reconstructing)
  {
  }

  lemma StartedRunForward(t: InstanceStatus)
    requires t == Running || t == RunningMpi
    ensures Allowed(Ready, t)
  {
  }

  /** The run pass touches only DECOMPOSING and READY rows, making them
      READY, RUNNING or RUNNING_MPI; COMPLETE and FAILED rows stay as they are. */
  lemma RunPassAdvances(store: Store, providers: seq<ProviderView>, threadsAt: ThreadListings,
                        replyFor: string -> Result<string>)
    requires UniqueIds(store.instances)
    ensures var after := RunPass(store, providers, threadsAt, replyFor).store.instances;
            && Advances(store.instances, after, RunSelects)
            && forall k :: 0 <= k < |store.instances| && Terminal(store.instances[k].status) ==>
                 after[k] == store.instances[k]
  {
    RunPassSteps(store, providers, threadsAt, replyFor);
    AdvancesKeepsTerminal(store.instances, RunPass(store, providers, threadsAt, replyFor).store.instances, RunSelects);
  }

  lemma RunPassSteps(store: Store, providers: seq<ProviderView>, threadsAt: ThreadListings,
                     replyFor: string -> Result<string>)
    requires UniqueIds(store.instances)
    ensures Advances(store.instances, RunPass(store, providers, threadsAt, replyFor).store.instances, RunSelects)
  {
    var db := store.instances;
    var rows := RunPassRows(db, threadsAt);
    RunPassRowsAdvance(db, threadsAt);
    AdvancesReflexive(db, RunSelects);
    DispatchEachAdvances(db, rows, store.(instances := rows), WithStatus(rows, Ready), providers, replyFor);
  }

  /** Marking finished decompositions READY moves DECOMPOSING rows forward. */
  lemma RunPassRowsAdvance(db: seq<Instance>, threadsAt: ThreadListings)
    requires UniqueIds(db)
    ensures Advances(db, RunPassRows(db, threadsAt), RunSelects)
  {
    var finished := Lifecycle.FinishedInstances(WithStatus(db, Decomposing), threadsAt);
    SubsequenceMembers(finished, WithStatus(db, Decomposing));
    AdvancesReflexive(db, RunSelects);
    UpdateStep(db, db, db, RunSelects, finished, Ready);
  }

  // __poll_for_prepare

  /** What the providers would answer for one instance: `admit` is each
      provider's admission check on the rows as they stand, `launch` what a
      launch of the instance on that provider would meet. */
  datatype PrepareWorld = PrepareWorld(
    admit: (Store, Instance, string) -> Result<bool>,
    launch: (string, string) -> Lifecycle.LaunchReplies)

  /** The providers in order, as `prepare_simulation_instance` meets them
      for one instance. */
  function Attempts(store: Store, inst: Instance, providers: seq<ProviderView>, w: PrepareWorld): (r: seq<Lifecycle.Attempt>)
    ensures |r| == |providers|
    ensures forall k :: 0 <= k < |r| ==> r[k].provider == providers[k].info
  {
    seq(|providers|, k requires 0 <= k < |providers| =>
        Lifecycle.Attempt(providers[k].info, w.admit(store, inst, providers[k].info.id),
                          w.launch(inst.id, providers[k].info.id)))
  }

  /** `prepare_simulation_instance` on each instance in turn, until one
      raises. */
  function PrepareEach(store: Store, xs: seq<Instance>, providers: seq<ProviderView>, w: PrepareWorld,
                       maxRetries: int): (r: PassOutcome)
    decreases |xs|
  {
    if |xs| == 0 then PassOutcome(store, None)
    else
      match Lifecycle.PrepareSimulationInstance(store, xs[0], Attempts(store, xs[0], providers, w), maxRetries)
      case NotAdmitted => PrepareEach(store, xs[1..], providers, w, maxRetries)
      case Prepared(s, _) => PrepareEach(s, xs[1..], providers, w, maxRetries)
      case Handled(s) => PrepareEach(s, xs[1..], providers, w, maxRetries)
      case Aborted(s, e) => PassOutcome(s, Some(e))
  }

  /** `__poll_for_prepare`: every PENDING instance, in query order. */
  function PreparePass(store: Store, providers: seq<ProviderView>, w: PrepareWorld, maxRetries: int): PassOutcome
  {
    PrepareEach(store, WithStatus(store.instances, Pending), providers, w, maxRetries)
  }

  /** When every provider is full, the prepare pass writes nothing: each
      PENDING instance stays as it was, to be tried again next tick. */
  lemma {:induction false} NothingAdmittedNothingChanges(store: Store, xs: seq<Instance>, providers: seq<ProviderView>,
                                                        w: PrepareWorld, maxRetries: int)
    requires forall s, x, id :: w.admit(s, x, id) == Ok(false)
    ensures PrepareEach(store, xs, providers, w, maxRetries) == PassOutcome(store, None)
    decreases |xs|
  {
    if |xs| > 0 {
      var attempts := Attempts(store, xs[0], providers, w);
      assert forall k :: 0 <= k < |attempts| ==> attempts[k].admission == w.admit(store, xs[0], providers[k].info.id);
      NothingAdmittedNothingChanges(store, xs[1..], providers, w, maxRetries);
    }
  }

  const PrepareSelects: set<InstanceStatus> := {Pending}

  /** A launch attempt moves the launched instance's row forward from
      PENDING and leaves every other row as it was. */
  lemma LaunchOnAdvances(base: seq<Instance>, store: Store, x: Instance, a: Lifecycle.Attempt, maxRetries: int)
    requires UniqueIds(base) && Advances(base, store.instances, PrepareSelects)
    requires x in base && x.status == Pending
    ensures var r := Lifecycle.LaunchOn(store, x, a, maxRetries);
            !r.NotAdmitted? ==> Advances(base, r.store.instances, PrepareSelects)
  {
    if x.simulation in store.simulations {
      var sim := store.simulations[x.simulation].(status := SimDeploying);
      var deploying := x.(provider := a.provider.id, status := Deploying);
      var db1 := SaveInstance(store.instances, deploying);
      SavePendingRow(base, store.instances, x, deploying);
      var l := Lifecycle.Launch(deploying, sim, a.provider, a.replies);
      LaunchKeepsId(deploying, sim, a.provider, a.replies);
      if l.Launched? {
        SavePendingRow(base, db1, x, l.instance);
      } else {
        var db2 := SaveInstance(db1, l.saved);
        SavePendingRow(base, db1, x, l.saved);
        var failed := Store(db2, store.simulations[x.simulation := sim]);
        var handled := Lifecycle.RetryOrFail(l.instance, maxRetries);
        assert handled.id == x.id by {
          assert handled.(retryAttempts := l.instance.retryAttempts, status := l.instance.status) == l.instance;
        }
        if Lifecycle.HandleLaunchException(failed, sim, l.instance, maxRetries, a.replies.shutdownOk).Ok? {
          SavePendingRow(base, db2, x, handled);
        }
      }
    } else {
      AdvancesReflexive(base, PrepareSelects);
    }
  }

  /** Saving any row for a PENDING snapshot row keeps the rows advancing:
      every status is reachable from PENDING. */
  lemma SavePendingRow(base: seq<Instance>, cur: seq<Instance>, x: Instance, y: Instance)
    requires UniqueIds(base) && Advances(base, cur, PrepareSelects)
    requires x in base && x.status == Pending && y.id == x.id
    ensures Advances(base, SaveInstance(cur, y), PrepareSelects)
  {
    AdvancesReflexive(base, PrepareSelects);
    SaveStep(base, base, cur, PrepareSelects, x, y);
  }

  /** The rows a launch writes keep the instance's id. */
  lemma LaunchKeepsId(deploying: Instance, sim: Simulation, p: Lifecycle.ProviderInfo, rep: Lifecycle.LaunchReplies)
    ensures Lifecycle.Launch(deploying, sim, p, rep).instance.id == deploying.id
    ensures Lifecycle.Launch(deploying, sim, p, rep).LaunchFailed? ==> Lifecycle.Launch(deploying, sim, p, rep).saved.id == deploying.id
  {
    var l := Lifecycle.Launch(deploying, sim, p, rep);
    assert l.instance.(status := deploying.status, parallelisation := deploying.parallelisation,
                       localCaseLocation := deploying.localCaseLocation, nfsCaseLocation := deploying.nfsCaseLocation,
                       instanceId := deploying.instanceId, ip := deploying.ip, threadId := deploying.threadId,
                       snapTaskId := deploying.snapTaskId) == deploying;
  }

  lemma {:induction false} PrepareEachAdvances(base: seq<Instance>, store: Store, xs: seq<Instance>,
                                               providers: seq<ProviderView>, w: PrepareWorld, maxRetries: int)
    requires UniqueIds(base) && Advances(base, store.instances, PrepareSelects)
    requires forall x :: x in xs ==> x in base && x.status == Pending
    ensures Advances(base, PrepareEach(store, xs, providers, w, maxRetries).store.instances, PrepareSelects)
    decreases |xs|
  {
    if |xs| > 0 {
      var attempts := Attempts(store, xs[0], providers, w);
      var r := Lifecycle.PrepareSimulationInstance(store, xs[0], attempts, maxRetries);
      PrepareOneAdvances(base, store, xs[0], attempts, maxRetries);
      assert forall y :: y in xs[1..] ==> y in xs;
      match r
      case NotAdmitted => PrepareEachAdvances(base, store, xs[1..], providers, w, maxRetries);
      case Prepared(s, _) => PrepareEachAdvances(base, s, xs[1..], providers, w, maxRetries);
      case Handled(s) => PrepareEachAdvances(base, s, xs[1..], providers, w, maxRetries);
      case Aborted(_, _) =>
    }
  }

  /** Preparing one PENDING snapshot row keeps the rows advancing, however
      it ends. */
  lemma PrepareOneAdvances(base: seq<Instance>, store: Store, x: Instance, attempts: seq<Lifecycle.Attempt>, maxRetries: int)
    requires UniqueIds(base) && Advances(base, store.instances, PrepareSelects)
    requires x in base && x.status == Pending
    ensures var r := Lifecycle.PrepareSimulationInstance(store, x, attempts, maxRetries);
            !r.NotAdmitted? ==> Advances(base, r.store.instances, PrepareSelects)
  {
    Lifecycle.FirstAdmittingProviderDecides(store, x, attempts, maxRetries);
    var first := Lifecycle.FirstDecisive(attempts);
    if first.Some? && attempts[first.value].admission.Ok? {
      LaunchOnAdvances(base, store, x, attempts[first.value], maxRetries);
    }
  }

  /** The prepare pass touches only PENDING rows; COMPLETE and FAILED rows
      stay as they are. */
  lemma PreparePassAdvances(store: Store, providers: seq<ProviderView>, w: PrepareWorld, maxRetries: int)
    requires UniqueIds(store.instances)
    ensures var after := PreparePass(store, providers, w, maxRetries).store.instances;
            && Advances(store.instances, after, PrepareSelects)
            && forall k :: 0 <= k < |store.instances| && Terminal(store.instances[k].status) ==>
                 after[k] == store.instances[k]
  {
    AdvancesReflexive(store.instances, PrepareSelects);
    PrepareEachAdvances(store.instances, store, WithStatus(store.instances, Pending), providers, w, maxRetries);
    AdvancesKeepsTerminal(store.instances, PreparePass(store, providers, w, maxRetries).store.instances, PrepareSelects);
  }

  // ---------------------------------------------------------------------
  // do_work: one live run per pass

  datatype PassName = ShutdownPassName | ReconstructionPassName | RunPassName | PreparePassName

  /** For each pass, every thread started for it, oldest first, as whether
      it is still alive.  The thread table of `do_work` holds the last one. */
  type Threads = map<PassName, seq<bool>>

  /** Only the latest thread of a pass may still be alive. */
  predicate OnlyLatestAlive(t: Threads)
  {
    forall n, i :: n in t && 0 <= i < |t[n]| - 1 ==> !t[n][i]
  }

  /** How many of a pass's threads are alive. */
  function AliveCount(runs: seq<bool>): nat
    decreases |runs|
  {
    if |runs| == 0 then 0 else (if runs[|runs| - 1] then 1 else 0) + AliveCount(runs[..|runs| - 1])
  }

  /** When only the latest may be alive, at most one is. */
  lemma {:induction false} AtMostOneRunPerPass(runs: seq<bool>)
    requires forall i :: 0 <= i < |runs| - 1 ==> !runs[i]
    ensures AliveCount(runs) <= 1
    decreases |runs|
  {
    if |runs| > 1 {
      var init := runs[..|runs| - 1];
      assert forall i :: 0 <= i < |init| ==> !init[i];
      NoneAlive(init);
    }
  }

  lemma {:induction false} NoneAlive(runs: seq<bool>)
    requires forall i :: 0 <= i < |runs| ==> !runs[i]
    ensures AliveCount(runs) == 0
    decreases |runs|
  {
    if |runs| > 0 {
      NoneAlive(runs[..|runs| - 1]);
    }
  }

  /** One round of the `do_work` loop: a pass gets a new thread only when it
      never had one or its last one is no longer alive. */
  function Tick(t: Threads): (r: Threads)
    ensures r.Keys == t.Keys
    ensures forall n :: n in t ==> |r[n]| > 0 && r[n][|r[n]| - 1]
    ensures forall n :: n in t ==>
              (r[n] == t[n] + [true] <==> |t[n]| == 0 || !t[n][|t[n]| - 1])
    ensures forall n :: n in t && |t[n]| > 0 && t[n][|t[n]| - 1] ==> r[n] == t[n]
  {
    map n | n in t :: if |t[n]| == 0 || !t[n][|t[n]| - 1] then t[n] + [true] else t[n]
  }

  /** A thread of a pass ends. */
  function Finish(t: Threads, n: PassName, i: int): (r: Threads)
    requires n in t && 0 <= i < |t[n]|
    ensures r.Keys == t.Keys && |r[n]| == |t[n]| && !r[n][i]
  {
    t[n := t[n][i := false]]
  }

  /** Starting the passes whose last thread has ended never leaves two live
      threads of the same pass. */
  lemma TickKeepsOneRun(t: Threads)
    requires OnlyLatestAlive(t)
    ensures OnlyLatestAlive(Tick(t))
    ensures forall m :: m in Tick(t) ==> AliveCount(Tick(t)[m]) <= 1
  {
    var r := Tick(t);
    forall m | m in r
      ensures forall j :: 0 <= j < |r[m]| - 1 ==> !r[m][j]
    {
      if |t[m]| == 0 || !t[m][|t[m]| - 1] {
        assert r[m] == t[m] + [true];
      }
    }
    forall m | m in r
      ensures AliveCount(r[m]) <= 1
    {
      AtMostOneRunPerPass(r[m]);
    }
  }

  /** A thread ending never makes two live threads of one pass. */
  lemma FinishKeepsOneRun(t: Threads, n: PassName, i: int)
    requires OnlyLatestAlive(t) && n in t && 0 <= i < |t[n]|
    ensures OnlyLatestAlive(Finish(t, n, i))
  {
    var r := Finish(t, n, i);
    assert forall j :: 0 <= j < |r[n]| ==> r[n][j] == (t[n][j] && j != i);
  }
}
